=== FILE: README.md ===
# silverstripe-postgresql: the pure string logic, modelled in Dafny

The PostgreSQL adapter for the SilverStripe ORM turns framework-level
descriptions (field specifications, index specifications, `LIMIT` arrays,
`?`-parameterised SQL) into PostgreSQL text. It also reads catalog text
(`pg_get_constraintdef`, `column_default`, `tgargs`) back into framework
descriptions. This project models that string logic as total Dafny
functions and proves what the adapter promises about it:

- **Connector** (`PostgreSQLConnector`):
  - the quote-parity scanner `checkStringTogglesLiteral`;
  - the `?` → `$n` rewrite `replacePlaceholders`;
  - `escapeParameter`;
  - the rewrite decision in `preparedQuery`.
- **ConnectorVectors**: the shapes the rewrite's unit tests exercise,
  proved for every input of that shape.
- **ConnectorUnitTests**: the unit test's own statements, each rewritten to
  exactly the text the test expects.
- **Naming** (`buildPostgresIndexName` / `buildPostgresTriggerName`):
  - length-bounded, hash-based identifiers;
  - the `ix_` → `ts_` correspondence used by `indexList`.
- **TypeCodec**: the schema manager's type formatters. Each one writes
  either DDL text or the catalog's description of the type.
- **EnumCodec**: the decoders that read `pg_get_constraintdef` CHECK text
  and `column_default` back into enum values.
  - `fieldList`'s quote scanner.
  - `enumValuesFromConstraint`.
- **FieldList**: the per-row translation in `fieldList`, read back against
  the formatters.
- **IndexSynth**:
  - `getIndexSqlDefinition`;
  - `fulltext`;
  - `triggerFieldsFromTrigger`.
- **TriggerArgs**: `extractTriggerColumns` for both catalog encodings of
  `tgargs` (`\000`-separated text and hex bytes).
- **ColumnAlter**: `alterTableAlterColumn` of the schema manager and of the
  older `PostgreSQLDatabase`, with the regex captures given as input.
- **QueryBuilder**: `buildLimitFragment` and the `RETURNING *` suffix of
  `buildUpdateQuery`.
- **LegacyDatabase**: the older `PostgreSQLDatabase` helpers:
  - `modifyIndex` and `convertIndexSpec`;
  - the `int`, `decimal`, `year` and `enum` formatters;
  - the limit rewrite in `sqlQueryToString`.

Support modules:

- **Outcome**: `Option` and `Result`.
- **PhpStrings**: PHP's `strpos`, `explode`, `implode`, `str_replace`,
  `trim` and `(int)` on strings.
- **PhpValues**: PHP values, `empty`, `is_numeric` and
  `addslashes`/`stripslashes`.

PHP semantics are written out rather than assumed:

- `strpos` returns `None` or an index, and a result of 0 is falsy where
  the source tests it loosely.
- A missing array key reads as null.
- `empty` treats `""`, `"0"`, `0`, `false`, `null` and `[]` as empty.
- `$byte == "00"` is PHP's loose comparison. A numeric string equal to
  zero therefore also ends an argument, such as the single `"0"` left at
  the end of a hex text of odd length.

Where a value comes from the database (catalog rows, `hasTable` answers,
whether a constraint exists) or from a hash function, the model takes it
as a parameter.

## Model

| member | source | states |
|---|---|---|
| Connector.TogglesIffOddUnescapedQuotes | code/PostgreSQLConnector.php:157-166 | a fragment toggles the literal state exactly when its count of quotes, ignoring backslash-escaped quotes and escaped backslashes, is odd |
| Connector.RemovedPairsCount | code/PostgreSQLConnector.php:159-165 | remove every `\\` pair, then count `'` and subtract the count of `\'`: the difference equals the left-to-right count of unescaped quotes, so the source's count formula and a scanner agree |
| Connector.ReplacePlaceholdersSpec | code/PostgreSQLConnector.php:177-205 | the output is the `?`-split segments in their original order, and between segments i and i+1 comes the marker for position i: `?` when that position is inside a literal, otherwise `$n`, where n is one more than the number of markers numbered before it |
| Connector.NoPlaceholderUnchanged | code/PostgreSQLConnector.php:179-189 | SQL without any `?` is returned unchanged |
| Connector.RewriteStep | code/PostgreSQLConnector.php:183-203 | one pass of the loop appends the segment, then the marker its accumulated literal state decides, then continues with the toggled state and the advanced counter |
| Connector.RewriteFrom | code/PostgreSQLConnector.php:183-203 | the loop run from any segment onwards equals the positional interleaving of the remaining segments and markers |
| Connector.MarkerCount | code/PostgreSQLConnector.php:193-202 | a marker contributes one `?` to the output exactly when its position is inside a literal; a numbered marker contributes none |
| Connector.NumberedMonotone | code/PostgreSQLConnector.php:198-202 | between two positions the count of numbers handed out grows by at least 0 and at most the distance between them, and not at all when every position in between is inside a literal |
| Connector.NumberedConsecutive | code/PostgreSQLConnector.php:198-202 | a later numbered marker carries a larger number, and exactly one more when every marker between the two stays `?` |
| Connector.NumberedFirst | code/PostgreSQLConnector.php:184-202 | the first numbered marker is `$1` |
| Connector.PlaceholderCount | code/PostgreSQLConnector.php:179-204 | the `?`s left in the output plus the numbered markers emitted equal the `?`s of the input |
| Connector.EscapeParameter | code/PostgreSQLConnector.php:56-67 | the result is empty exactly when the key's value is empty and there is no default; otherwise it is `name='<escaped>'`, where stripping the slashes from `<escaped>` gives back the value (or the default), and `<escaped>` has every quote, backslash and NUL escaped |
| Connector.PrepareExecution | code/PostgreSQLConnector.php:213-226 | with no parameters the SQL goes through untouched. With parameters the SQL is the placeholder rewrite; it is sent with the values `parameterValues` (a parameter of the model) gives, and as plain SQL when those values are empty. Values are sent exactly when both lists are non-empty, and SQL without `?` is unchanged either way |
| ConnectorVectors.SinglePlaceholder | tests/PostgreSQLConnectorTest.php:16-20 | a quote-free head followed by one `?` gets `$1` |
| ConnectorVectors.UnitTestSingle | tests/PostgreSQLConnectorTest.php:16-20 | the first unit-test input becomes exactly the expected `... ID = $1` |
| ConnectorVectors.TwoPlaceholders | tests/PostgreSQLConnectorTest.php:22-26 | two placeholders outside literals become `$1` and `$2` |
| ConnectorVectors.PlaceholderInLiteralKept | tests/PostgreSQLConnectorTest.php:28-34 | a `?` after a fragment that opens a literal stays `?`, and the counter does not advance |
| ConnectorVectors.LiteralSpansPlaceholder | tests/PostgreSQLConnectorTest.php:36-50 | when a literal opens before a `?` and closes after it, that `?` is kept and the next one outside is `$2` |
| ConnectorUnitTests.QuotedLiteralsClose | tests/PostgreSQLConnectorTest.php:36-50 | the literals `'\''` and `''''` both leave the literal state as it was |
| ConnectorUnitTests.EscapedQuoteThenOpenToggles | code/PostgreSQLConnector.php:157-166 | a closed `'\''` literal followed by one more quote toggles, whatever quote-free text surrounds them |
| ConnectorUnitTests.DoubledQuoteThenOpenToggles | code/PostgreSQLConnector.php:157-166 | a closed `''''` literal followed by one more quote toggles, whatever quote-free text surrounds them |
| ConnectorUnitTests.UnitTestTwo | tests/PostgreSQLConnectorTest.php:22-26 | the test's statement with two placeholders becomes exactly `... ID = $1 AND Name = $2` |
| ConnectorUnitTests.UnitTestLiteralKept | tests/PostgreSQLConnectorTest.php:28-34 | the test's statement keeps the `?` inside `'<p>What is love?</p>'` and numbers the two outside it `$1` and `$2` |
| ConnectorUnitTests.UnitTestEscapedQuote | tests/PostgreSQLConnectorTest.php:36-42 | the test's statement with `'\''` numbers the first and last `?` `$1` and `$2` and keeps the one inside the content literal |
| ConnectorUnitTests.UnitTestDoubledQuote | tests/PostgreSQLConnectorTest.php:44-50 | the same holds for the statement with `''''` |
| ConnectorVectors.PlainDoesNotToggle | code/PostgreSQLConnector.php:157-166 | a fragment with no quote and no backslash never toggles |
| Naming.BuildIndexName | code/PostgreSQLSchemaManager.php:248-261 | the name is at most 63 characters and a prefix of `prefix_<md5(table_index)>`; for a prefix of at most 30 characters it is the whole of that text, and for a longer prefix it is cut to exactly 63 |
| Naming.BuildTriggerName | code/PostgreSQLSchemaManager.php:270-273 | the trigger name is `ts_` followed by the 32-character digest of `table_trigger` |
| Naming.IndexNameShape | code/PostgreSQLSchemaManager.php:248-261 | with the default `ix` prefix the index name is `ix_` and the full digest (35 characters, never cut) |
| Naming.IndexToTriggerName | code/PostgreSQLSchemaManager.php:839 | renaming a leading `ix_` to `ts_` keeps the length and the rest of the name; a name without that prefix is left alone |
| Naming.TriggerNameFromIndexName | code/PostgreSQLSchemaManager.php:248-273 | replacing the `ix_` of an index name by `ts_` gives the trigger name built for the same table and index |
| Naming.IndexAndTriggerNamesDiffer | code/PostgreSQLSchemaManager.php:248-273 | no index name equals any trigger name |
| Naming.UnderscoreAmbiguity | code/PostgreSQLSchemaManager.php:253 | the name depends only on `table_index`, so moving an underscore-separated word between table and index yields the same name |
| TypeCodec.IntegerLike | code/PostgreSQLSchemaManager.php:1109-1115 | an array column is the keyword and the array suffix alone; a scalar column is the keyword, ` default ` and the decimal text of `(int)` of the default, which `(int)` reads back as that integer |
| TypeCodec.Boolean | code/PostgreSQLSchemaManager.php:972-990 | the catalog form is `smallint` with no precision; the DDL of an array column is `smallint` and the array suffix, and of a scalar one `smallint default <(int) default>` |
| TypeCodec.Date | code/PostgreSQLSchemaManager.php:998-1005 | the DDL is `date` followed by the array suffix and nothing else |
| TypeCodec.DecimalPrecision | code/PostgreSQLSchemaManager.php:1020-1025 | a precision that is loosely equal to `''` becomes 1; any other precision is kept |
| TypeCodec.Decimal | code/PostgreSQLSchemaManager.php:1014-1037 | the catalog form is `numeric` with that precision; the DDL starts with `decimal(<precision>)` and the array suffix, and continues with ` default <d>` exactly when the default is numeric |
| TypeCodec.Enum | code/PostgreSQLSchemaManager.php:1045-1060 | the DDL of an array column is `varchar(255)`, the array suffix and the check clause listing the values in order; a scalar column has ` default '<default>'` in place of the suffix |
| TypeCodec.Float | code/PostgreSQLSchemaManager.php:1069-1090 | `float` and `double` both report `double precision` to the catalog; the DDL is `float` followed by the array suffix |
| TypeCodec.Integer | code/PostgreSQLSchemaManager.php:1099-1116 | the catalog form is `integer` with precision `32`; the DDL of an array column is `integer` and the array suffix, and of a scalar one `integer default <(int) default>` |
| TypeCodec.Bigint | code/PostgreSQLSchemaManager.php:1125-1142 | the catalog form is `bigint` with precision `64`; the DDL of an array column is `bigint` and the array suffix, and of a scalar one `bigint default <(int) default>` |
| TypeCodec.Datetime | code/PostgreSQLSchemaManager.php:1152-1163 | the catalog form is `timestamp without time zone`; the DDL is `timestamp` followed by the array suffix |
| TypeCodec.Text | code/PostgreSQLSchemaManager.php:1172-1183 | the catalog form is `text`; the DDL is `text` followed by the array suffix |
| TypeCodec.Time | code/PostgreSQLSchemaManager.php:1191-1197 | the DDL is `time` followed by the array suffix |
| TypeCodec.VarcharPrecision | code/PostgreSQLSchemaManager.php:1212-1214 | a missing precision becomes 255; a given one is kept |
| TypeCodec.Varchar | code/PostgreSQLSchemaManager.php:1206-1221 | the catalog form is `varchar` with that precision; the DDL is `varchar(<precision>)` followed by the array suffix |
| TypeCodec.Year | code/PostgreSQLSchemaManager.php:1231-1243 | the catalog form is `decimal` with precision `4`; the DDL is `decimal(4,0)` followed by the array suffix |
| TypeCodec.IdColumn | code/PostgreSQLSchemaManager.php:1277-1280 | the primary key is `bigint` to the catalog and `serial8 not null` in DDL |
| EnumCodec.ScanIsClosedQuotedPieces | code/PostgreSQLSchemaManager.php:571-588 | the character scan collects exactly the odd-numbered pieces of the text split at quotes, i.e. the text of every closed quoted substring in order |
| EnumCodec.DecodeCatalogCheck | code/PostgreSQLSchemaManager.php:567-588 | decoding the CHECK text PostgreSQL reports for an enum column recovers the enum values in their order |
| EnumCodec.DecodeSingleOptionCheck | code/PostgreSQLSchemaManager.php:564-588 | the one-option form `CHECK ("<name>"::text = '<v>'::text)` decodes to `[v]` |
| EnumCodec.DecodeCatalogDefault | code/PostgreSQLSchemaManager.php:592 | for a non-empty default `<d>` without quote or colon, decoding the `column_default` PostgreSQL reports for `'<d>'::character varying` recovers `<d>` |
| EnumCodec.UnshiftReverses | code/PostgreSQLSchemaManager.php:1320-1323 | adding each item at the front of the list yields the items reversed, ahead of what was there |
| EnumCodec.ReverseIndex | code/PostgreSQLSchemaManager.php:1320-1323 | position i of the reversed list holds the item at position n-1-i |
| EnumCodec.EnumValuesFromCatalogCheck | code/PostgreSQLSchemaManager.php:1315-1325 | reading the values from a catalog `= ANY (ARRAY[...])` constraint gives the enum values in reverse order, and `[""]` for an empty array |
| EnumCodec.EnumValuesFromSingleOption | code/PostgreSQLSchemaManager.php:1315-1325 | on the one-option form the reader returns a single value: the column name less its first three characters, followed by `"` |
| FieldList.EnumEntry | code/PostgreSQLSchemaManager.php:590-594 | a varchar column with a constraint gets an entry exactly when the constraint quotes at least one value; the entry is the enum DDL for the decoded values and default |
| FieldList.FieldEntryShape | code/PostgreSQLSchemaManager.php:555-626 | a row is dropped exactly when it is a varchar with a constraint that quotes nothing, and the raw catalog row is kept exactly for an untranslated data type |
| FieldList.FieldList | code/PostgreSQLSchemaManager.php:539-636 | every key of the result names a column of the input rows |
| FieldList.FieldListLastRow | code/PostgreSQLSchemaManager.php:552-628 | a column's entry is the translation of the last row carrying its name |
| FieldList.FieldListStoresLast | code/PostgreSQLSchemaManager.php:552-628 | the last row's translation is stored under its name |
| FieldList.FieldListKeepsOthers | code/PostgreSQLSchemaManager.php:552-628 | a later row with another name leaves an earlier column's entry as it was |
| FieldList.IntDefaultReadBack | code/PostgreSQLSchemaManager.php:604-614 | `(int)` of a reported default is the number when it is not negative, and 0 for the quoted `'-n'::<type>` form of a negative one |
| FieldList.IntegerReadBack | code/PostgreSQLSchemaManager.php:604-606 | an `integer` scalar column, as the catalog reports it, reads back as the DDL the `int` formatter wrote when the default is not negative, and with default 0 when it is |
| FieldList.BooleanReadBack | code/PostgreSQLSchemaManager.php:612-614 | a `smallint` scalar column reads back as the DDL the `boolean` formatter wrote when the default is not negative, and with default 0 when it is |
| FieldList.IntColumnReadBack | code/PostgreSQLSchemaManager.php:604-614 | an `integer` or `smallint` scalar column reads back as the keyword plus its default when that is not negative, and plus ` default 0` when it is |
| FieldList.DatetimeReadBack | code/PostgreSQLSchemaManager.php:608-610 | a `timestamp without time zone` scalar column reads back as the datetime DDL |
| FieldList.FloatReadBack | code/PostgreSQLSchemaManager.php:620-622 | a `double precision` scalar column reads back as the float DDL |
| FieldList.TimeReadBack | code/PostgreSQLSchemaManager.php:616-618 | a `time without time zone` scalar column reads back as the time DDL |
| FieldList.VarcharReadBack | code/PostgreSQLSchemaManager.php:595-597 | a `character varying` column without a constraint reads back as the varchar DDL for its length |
| FieldList.BigintKeepsRow | code/PostgreSQLSchemaManager.php:624-626 | a `bigint` column is not translated: its catalog row is kept as is |
| FieldList.EnumReadBack | code/PostgreSQLSchemaManager.php:567-594 | an enum column, as the catalog reports its constraint and default, reads back as exactly the DDL the `enum` formatter wrote for it |
| FieldList.SingleOptionEnumReadBack | code/PostgreSQLSchemaManager.php:564-594 | a one-option enum column, as the catalog reports it, reads back as exactly the DDL the `enum` formatter wrote for it |
| IndexSynth.IndexColumns | code/PostgreSQLSchemaManager.php:719-743 | the column part of every index kind ends with `)` |
| IndexSynth.IndexHead | code/PostgreSQLSchemaManager.php:719-743 | the statement head starts with `create` and ends with `)` |
| IndexSynth.Statement | code/PostgreSQLSchemaManager.php:744 | the statement ends with `;` |
| IndexSynth.GetIndexSqlDefinition | code/PostgreSQLSchemaManager.php:686-745 | as a catalog value the result is the part of the name left after removing the runs of `(` and `)` at both ends (so `((n))`, `(n` and `n)` all give `n` when `n` neither starts nor ends with one), and it neither starts nor ends with a parenthesis; as DDL the result ends with `;` |
| IndexSynth.UnwrappedName | code/PostgreSQLSchemaManager.php:696-699 | `trim($indexName, '()')` is the part of the name between a leading and a trailing run of parentheses |
| IndexSynth.IndexNameUnwrapped | code/PostgreSQLSchemaManager.php:696-699 | a parenthesised name comes back without its parentheses |
| IndexSynth.StatementClauses | code/PostgreSQLSchemaManager.php:708-744 | trimming and terminating the statement leaves the head, then ` <fillfactor>` when set, then ` <where>` when set, then `;` |
| IndexSynth.IndexSqlClauses | code/PostgreSQLSchemaManager.php:708-744 | the fillfactor and `WHERE` clauses appear only when the spec sets them, in that order, after the head |
| IndexSynth.IndexSqlNamesHashedIndex | code/PostgreSQLSchemaManager.php:702-743 | the DDL starts by creating the index under the hashed `ix_` name on the table |
| IndexSynth.FulltextIndexCoversShadowColumn | code/PostgreSQLSchemaManager.php:720-724 | a fulltext index is a `USING <method>` index on the shadow column `"ts_<name>"` and nothing else |
| IndexSynth.Fulltext | code/PostgreSQLSchemaManager.php:1256-1275 | the shadow column is `ts_<name>` typed `tsvector`; the trigger text starts by creating the trigger named by `buildPostgresTriggerName` on the table and ends with `;` |
| IndexSynth.TriggerStatement | code/PostgreSQLSchemaManager.php:1265-1267 | the trigger body calls `tsvector_update_trigger("ts_<name>", 'pg_catalog.<language>', <columns>)` |
| IndexSynth.TrimEach | code/PostgreSQLSchemaManager.php:955-958 | every field is trimmed and none is lost |
| IndexSynth.TriggerFieldsSingle | code/PostgreSQLSchemaManager.php:944-963 | there is no result exactly for a falsy trigger text; otherwise the result holds exactly one field |
| IndexSynth.FieldsOfTriggerArgs | code/PostgreSQLSchemaManager.php:948-959 | for a shadow-column name and language without commas and a plain first column, the arguments of a `fulltext` trigger yield that column, unquoted |
| IndexSynth.TriggerFieldsOfFulltext | code/PostgreSQLSchemaManager.php:944-963 | reading the trigger `fulltext` writes gives back its first column |
| TriggerArgs.HexArgs | code/PostgreSQLSchemaManager.php:785-792 | the arguments already closed stay in front, and with no terminator none is added |
| TriggerArgs.SliceFromTwo | code/PostgreSQLSchemaManager.php:796 | the trigger and configuration names are dropped: the result is empty exactly for at most two arguments, otherwise it is everything after the first two |
| TriggerArgs.EscapeFormRoundTrip | code/PostgreSQLSchemaManager.php:776-778 | arguments written `\000`-terminated are read back exactly, the trailing empty piece popped |
| TriggerArgs.EscapeFormColumns | code/PostgreSQLSchemaManager.php:776-796 | the columns read from `\000`-form arguments are the arguments after the first two |
| TriggerArgs.HexByteValue | code/PostgreSQLSchemaManager.php:790 | `chr(hexdec(..))` of a byte's two hex digits is that byte |
| TriggerArgs.HexByteNotZero | code/PostgreSQLSchemaManager.php:786 | the hex pair of a non-zero byte is never loosely equal to `"00"` |
| TriggerArgs.ZeroPieceEndsArgument | code/PostgreSQLSchemaManager.php:786-788 | the pair `00` ends an argument |
| TriggerArgs.PieceFormArgs | code/PostgreSQLSchemaManager.php:785-792 | folding the decoded bytes of terminated arguments continues the pending argument with the first and then emits the others unchanged |
| TriggerArgs.PieceFormRoundTrip | code/PostgreSQLSchemaManager.php:783-792 | decoding the byte pieces of terminated arguments gives back the arguments |
| TriggerArgs.HexFormRoundTrip | code/PostgreSQLSchemaManager.php:781-792 | hex-encoded arguments, each ending in `00`, are read back exactly |
| TriggerArgs.HexFormColumns | code/PostgreSQLSchemaManager.php:769-797 | the columns read from hex-form arguments are the arguments after the first two |
| TriggerArgs.HexPrefixedColumns | code/PostgreSQLSchemaManager.php:769-797 | behind PostgreSQL's `\x` prefix the first pair decodes as a NUL glued to the first argument, and the columns still come out as the arguments after the first two |
| TriggerArgs.PrefixedColumns | code/PostgreSQLSchemaManager.php:769-797 | the same holds for any two-character backslash prefix that is not a hex digit |
| ColumnAlter.ClauseTexts | code/PostgreSQLSchemaManager.php:453-496 | each clause is rendered on its own and none is lost or reordered |
| ColumnAlter.ClausesOrder | code/PostgreSQLSchemaManager.php:453-497 | the statement starts by setting the type, `DROP DEFAULT` is directly followed by `SET default`, and every constraint drop comes before every constraint add. The repair `UPDATE`s are not clauses: they run before this statement, see AlterColumn |
| ColumnAlter.ClausesPresence | code/PostgreSQLSchemaManager.php:455-497 | nullity is set exactly when given, the default is dropped and set exactly when given, the old `<table>_<col>_check` is dropped exactly when it exists, and the new one is added exactly when a check is given |
| ColumnAlter.RepairTargets | code/PostgreSQLSchemaManager.php:478-484 | the table itself is repaired first, then `_Live` exactly when it exists and `_versions` exactly when it exists |
| ColumnAlter.UpdateStatements | code/PostgreSQLSchemaManager.php:478-484 | every target gets the same update and none is lost |
| ColumnAlter.Repair | code/PostgreSQLSchemaManager.php:468-486 | the repair starts by resetting the table's own rows outside the allowed values to the first value |
| ColumnAlter.AlterColumn | code/PostgreSQLSchemaManager.php:440-501 | no match or `serial8` gives no alteration and no repair. Otherwise the SQL is the rendered clause list. A repair is issued exactly when a check is given, and it starts with the table's own `UPDATE`; the source runs it at once, before the returned statement drops and adds the constraint |
| ColumnAlter.AlterColumnText | code/PostgreSQLSchemaManager.php:453-464 | the SQL starts with the type change and contains `DROP DEFAULT` immediately followed by `SET default` |
| ColumnAlter.RepairDefaultIsFirstOption | code/PostgreSQLSchemaManager.php:470-473 | for a check written by the enum formatter the repair default is the first enum value |
| ColumnAlter.CheckValues | code/PostgreSQLSchemaManager.php:470-471 | for a column name and values without `(`, the value list taken from such a check is the quoted, comma-separated values |
| ColumnAlter.EnumCheckGroup | code/PostgreSQLSchemaManager.php:1059 | the enum formatter's check clause is the group this parser reads |
| ColumnAlter.LegacyClausesAsModern | code/PostgreSQLDatabase.php:402-421 | the older clause list is the newer one with "constraint exists" replaced by "a check is given" |
| ColumnAlter.LegacyAlterColumn | code/PostgreSQLDatabase.php:386-425 | no match or `serial8` gives `''` |
| ColumnAlter.LegacyAlterAsModern | code/PostgreSQLDatabase.php:386-425 | the older SQL is the newer one computed as if the old constraint existed exactly when a check is given, so a check always emits DROP then ADD of `<table>_<col>_check` |
| QueryBuilder.BuildLimitFragment | code/PostgreSQLQueryBuilder.php:12-46 | an empty limit gives `''`; the error is raised exactly for a non-empty array without a well-formed `limit` entry; any other fragment starts with `<sep>LIMIT `, and a non-empty scalar limit gives exactly `<sep>LIMIT <limit>` |
| QueryBuilder.ParseClauseText | code/PostgreSQLQueryBuilder.php:31-38 | for a row count without a capital `O`, the clause text is read back as its count and optional offset |
| QueryBuilder.LimitArrayRoundTrip | code/PostgreSQLQueryBuilder.php:25-45 | a well-formed limit array is accepted and reads back as its count (`ALL` for null) and an offset exactly when `start` is set, numeric and not 0 |
| QueryBuilder.ScalarLimitRoundTrip | code/PostgreSQLQueryBuilder.php:20-22 | a non-empty scalar limit whose text holds no ` OFFSET ` reads back as that limit, with no offset |
| QueryBuilder.NumericScalarLimitRoundTrip | code/PostgreSQLQueryBuilder.php:20-22 | a non-empty numeric scalar limit is written as exactly `<sep>LIMIT <limit>` and reads back as that limit, with no offset |
| QueryBuilder.BuildUpdateQuery | code/PostgreSQLQueryBuilder.php:49-53 | the parent's SQL is kept whole and followed by exactly ` RETURNING *` |
| LegacyDatabase.ConvertIndexSpec | code/PostgreSQLDatabase.php:561-585 | as a catalog value it is `ix_<table>_<spec>`; a text spec or an unknown type is returned unchanged; a known type becomes text ending in `)` |
| LegacyDatabase.ConvertIndexSpecReadBack | code/PostgreSQLDatabase.php:566-580 | the text written for each known type reads back as that type and the columns it covers |
| LegacyDatabase.ModifyIndex | code/PostgreSQLDatabase.php:1114-1121 | a fulltext spec gives `ts_` and the name with no comma left; any other spec gives a name of the same length with no underscore left |
| LegacyDatabase.ReplaceCharEach | code/PostgreSQLDatabase.php:1116-1119 | replacing one character by another changes exactly the positions that held it |
| LegacyDatabase.ModifyIndexRoundTrip | code/PostgreSQLDatabase.php:1118-1119 | for a comma-free name the non-fulltext rewrite is undone by replacing `,` with `_` |
| LegacyDatabase.FulltextSpecNamesIndex | code/PostgreSQLDatabase.php:567-569 | for a name without a comma, the fulltext index spec is `modifyIndex` of its name, in parentheses |
| LegacyDatabase.LegacyInt | code/PostgreSQLDatabase.php:892-903 | the catalog form is `numeric` with the given precision; the DDL of an array column is `numeric(11)` and the array suffix, and of a scalar one `numeric(11) default <(int) default>` |
| LegacyDatabase.LegacyIntLikeInteger | code/PostgreSQLDatabase.php:892-903 | after the keyword the older `int` DDL is the same as the newer one, so ` default <int>` appears exactly when the column is not an array |
| LegacyDatabase.LegacyDecimal | code/PostgreSQLDatabase.php:831-846 | the catalog form always reports precision `9` |
| LegacyDatabase.LegacyDecimalWithoutDefault | code/PostgreSQLDatabase.php:837-845 | the older DDL is the newer one without a default, and is strictly shorter when the default is numeric |
| LegacyDatabase.LegacyYear | code/PostgreSQLDatabase.php:977-981 | the DDL is `numeric(4)` followed by the array suffix; the catalog form is `numeric` with precision `4` |
| LegacyDatabase.LegacyYearLikeYear | code/PostgreSQLDatabase.php:977-981 | after the keyword the older and newer year DDL agree |
| LegacyDatabase.LegacyEnumAsEnum | code/PostgreSQLDatabase.php:854-867 | the older enum DDL is the same text as the newer one |
| LegacyDatabase.LimitPart | code/PostgreSQLDatabase.php:1074-1096 | the error is raised exactly for a non-empty array without a `limit` key; text is produced only for a non-empty scalar limit |
| LegacyDatabase.SqlQueryToString | code/PostgreSQLDatabase.php:1059-1100 | no FROM gives `''`; the error is raised exactly when there is a FROM and the limit is a non-empty array without `limit`; otherwise the text starts with the verb and the FROM list |
| LegacyDatabase.OffsetCountLimit | code/PostgreSQLDatabase.php:1089-1092 | a limit `a,b` becomes ` OFFSET a LIMIT b` |
| LegacyDatabase.PlainCountLimit | code/PostgreSQLDatabase.php:1089-1095 | a limit with no comma, or with a comma in first position, becomes ` LIMIT <limit>` |
| LegacyDatabase.OffsetCountReadBack | code/PostgreSQLDatabase.php:1089-1092 | the offset-count clause reads back as count `b` and offset `a` |
| LegacyDatabase.PlainCountReadBack | code/PostgreSQLDatabase.php:1090-1095 | the plain clause reads back as the limit with no offset |
| LegacyDatabase.GenerationsAgree | code/PostgreSQLDatabase.php:1089-1092 | the older `OFFSET a LIMIT b` and the newer `LIMIT b OFFSET a` describe the same count and offset |
| LegacyDatabase.StatementEndsWithLimit | code/PostgreSQLDatabase.php:1059-1100 | a query with a FROM and an `a,b` limit succeeds, and its text ends with a clause that reads back as count `b`, offset `a` |
| PhpStrings.IndexOf | code/PostgreSQLConnector.php:157-166 | `strpos`: the result is the first occurrence, and there is none exactly when the text does not occur |
| PhpStrings.JoinExplode | code/PostgreSQLSchemaManager.php:1319 | `implode` undoes `explode` |
| PhpStrings.ExplodeJoin | code/PostgreSQLSchemaManager.php:777 | `explode` undoes `implode` of at least one part when no part contains the separator and the separator's first character does not recur in it |
| PhpValues.StripAddSlashes | code/PostgreSQLConnector.php:56-67 | `stripslashes` undoes `addslashes` |
| PhpStrings.ParseIntToString | code/PostgreSQLSchemaManager.php:1109-1115 | `(int)` reads back the decimal text of any integer |

## Left out

- I/O: every query, `pg_*` call and connection is left out. Catalog answers are parameters of the model:
  - the rows and constraints `fieldList` reads;
  - whether `<table>_<col>_check` exists;
  - `hasTable` for `_Live` and `_versions`;
  - `tgargs`.
  The caches (`cached_fieldlists`, the constraint cache) are left out too.
- MD5: the hash is a parameter `md5` returning 32 hex characters. Nothing about it is assumed beyond that shape.
- Regular expressions:
  - The column-spec pattern in `alterTableAlterColumn` is not modelled. Its four captures are the input `ColumnSpecParts`, and `Option.None` stands for no match.
  - `isset($matches[4])` is modelled as a non-empty check capture. A group that takes no part in the match is absent, which the model writes as `""`.
  - The `/ *:: */` split in `enumValuesFromConstraint` is modelled as a split at the first `::` followed by trimming spaces and quotes. That gives the same value for the text PostgreSQL writes.
- Connector.EscapeParameter: `addslashes` is modelled one character per byte; multibyte encodings are not modelled.
- Connector.EscapeParameter: an array value is outside the model. Under PHP 7 `addslashes` of an array warns and returns null, so the source writes `name=''`; under PHP 8 it throws a `TypeError`. The model writes the text `Array`, the array's string conversion, which matches neither.
- `parseIndexSpec`, `quoteColumnSpecString` and `implodeColumnList` are not part of this model. The index spec arrives already parsed, and the fulltext columns arrive as their quoted text.
- `getFilter` of the older `sqlQueryToString` is taken as a precomputed string.
- The older `sqlQueryToString`:
  - When the query is neither a delete nor a select, the source leaves the verb undefined; it is modelled as `""`.
  - For a well-formed limit array the source only stores the limit on the connection and writes no clause, so the model writes `""`.
  - The fatal `user_error` is the `Err` result.
- The older `getIndexSqlDefinition` shortens names with `rand()`. That is nondeterministic and is not modelled.
- The older `fieldList` enum decoder is the same code as the schema manager's. It is modelled once (`EnumCodec`) and shared.
- PHP's `(int)` cast of a numeric string in exponent form (`"1e3"`) and 64-bit integer overflow are not modelled. `(int)` reads a leading run of digits after an optional sign and whitespace.
- Floating-point values are not modelled. `PhpValue` has no float case, so `is_numeric` is decided on text and integers only.
- `Connector.ConnectionString` (the `connect` argument string) is modelled without a contract of its own and has no row.
- `getVersion`, result-row coercion in `PostgreSQLQuery`, the installer helpers, `_register_database.php` and the test-state wiring talk to the database or to the framework, and are not modelled.
- The long-alias hashing exercised by the query builder's test depends on a `MAX_TABLE` constant and shortening code that are not in `PostgreSQLQueryBuilder.php`. It is not part of this model.
- IndexSynth.TriggerFieldsOfFulltext: stated for a table name without the letter `v`, a first column that is plain (not empty, no double quote or comma, no surrounding whitespace), and a name and language without commas. With no `v` before it, the search for `tsvector_update_trigger` can only stop at the function call itself. A table name containing that word would make `strpos` stop early, and the source would then read the wrong arguments.
- QueryBuilder.ScalarLimitRoundTrip: stated for a limit whose text holds no ` OFFSET `. The builder writes such a limit verbatim (see `BuildLimitFragment`), and the reader then splits it at that keyword into a count and an offset. A numeric limit never holds it (`NumericScalarLimitRoundTrip`).
- QueryBuilder.ParseClauseText: stated for a row count without a capital `O`, so the first ` OFFSET ` in the text is the one written after the count. The counts the builder writes are numeric or `ALL` and satisfy this.
- PhpStrings.ExplodeJoin: stated for at least one part and a separator whose first character does not recur in it. Without that, a part can end with the separator's head, and `explode` then cuts earlier: `implode("aa", ["a", ""])` is `aaa`, which explodes into `["", "a"]`. The separator the trigger decoder joins and explodes with (`\000`) satisfies it.
- EnumCodec.DecodeCatalogDefault: stated for a non-empty default with no quote and no colon. The decoder cuts at the first `::` and trims quotes, so a default holding either reads back differently. The formatter does not escape them.
- ColumnAlter.CheckValues: stated for a column name and values without `(`. The source splits the check at `(` and takes the third piece, so a parenthesis inside the name or a value moves the cut.
- IndexSynth.FieldsOfTriggerArgs: stated for a shadow-column name and language without commas and a plain first column (not empty, no double quote or comma, no surrounding whitespace). The source splits the arguments at commas and takes the third piece, so a comma earlier shifts it.
- ColumnAlter.RepairDefaultIsFirstOption: stated for enum values without `(`, and a first value with no comma and no surrounding blank or quote. The source reads a value containing those differently, and the formatter does not escape them.
- LegacyDatabase.OffsetCountReadBack, LegacyDatabase.GenerationsAgree, LegacyDatabase.StatementEndsWithLimit: stated for an offset without `L` (and a count without `O`), so that the read-back parser can find the keywords. Numeric limits, the only ones the framework sends, satisfy this.
- EnumCodec.DecodeCatalogCheck, EnumCodec.EnumValuesFromCatalogCheck, EnumCodec.DecodeSingleOptionCheck, FieldList.EnumReadBack, FieldList.SingleOptionEnumReadBack: stated for values that are not empty, contain no quote, comma or colon, and have no surrounding blank, and for a column name without `=` (or `[`). The formatter does not escape quotes, so a value containing one does not survive a round trip through the database.
- EnumCodec.EnumValuesFromSingleOption: stated for a column name of at least three characters with no `[`, comma, colon, blank or quote, and an option of at least three characters with no `[` or comma. Shorter texts cut into the fixed text at other places.
- LegacyDatabase.FulltextSpecNamesIndex: stated for a name without a comma. `convertIndexSpec` writes the name as given while `modifyIndex` replaces its commas by `_`, so for a name holding a comma the two differ.

Behaviour of the code worth noting:

- Enum values are not quote-escaped by the formatter. The decoders collapse `''` into `'`, but nothing ever writes `''`.
- `triggerFieldsFromTrigger` returns only the first column. It takes the third comma-separated argument, so a multi-column fulltext index reports one field.
- A `,5` limit in the older `sqlQueryToString` takes the plain ` LIMIT ` branch. `strpos` returns 0 there, which is falsy.
- `enumValuesFromConstraint` does not read the one-option form `CHECK ("<name>"::text = '<v>'::text)`. Without `ANY (ARRAY[` it cuts 11 characters from the front and 11 from the end, so for `ClassName` it returns `ssName"`. `fieldList`'s scanner reads the same text correctly as `[v]`.
- PostgreSQL reports a negative integer default quoted and cast (`'-5'::integer`). `(int)` reads that as 0, so `fieldList` reports such an `integer` or `smallint` column with ` default 0`.

=== FILE: column_alter.dfy ===
/** `alterTableAlterColumn` in both generations of the driver
    (code/PostgreSQLSchemaManager.php and code/PostgreSQLDatabase.php): the
    `ALTER COLUMN` clauses built from the parts of a column specification,
    and the repair statements that move values outside a new CHECK list to
    its first value. The specification's parts are the capture groups of
    the column pattern; the catalog answers (does the constraint exist, do
    the `_Live` and `_versions` tables exist) are inputs. */
module ColumnAlter {
  import opened Outcome
  import opened PhpStrings
  import opened PhpValues
  import opened TypeCodec
  import opened FieldList

  /** The capture groups of the column pattern: the type, `null` or
      `not null`, `default <value>` and `check …`, each `""` when its group
      did not take part in the match. A group that takes part is never
      `""`, so `isset` on the check group is `check != ""`. */
  datatype ColumnSpecParts = ColumnSpecParts(typeName: string, nullity: string, default: string, check: string)

  /** One clause of the `ALTER TABLE` statement. */
  datatype Clause =
    | AlterType(typeName: string)
    | SetNullity(nullity: string)
    | DropDefault
    | SetDefault(default: string)
    | DropConstraint(name: string)
    | AddConstraint(name: string, check: string)

  /** The text of one clause for column `col`. */
  function ClauseText(col: string, c: Clause): string {
    var column := "ALTER COLUMN \"" + col + "\" ";
    match c
    case AlterType(t) => column + "TYPE " + t + "\n"
    case SetNullity(n) => column + "SET " + n
    case DropDefault => column + "DROP DEFAULT"
    case SetDefault(d) => column + "SET " + d
    case DropConstraint(name) => "DROP CONSTRAINT \"" + name + "\""
    case AddConstraint(name, check) => "ADD CONSTRAINT \"" + name + "\" " + check
  }

  function ClauseTexts(col: string, clauses: seq<Clause>): (r: seq<string>)
    ensures |r| == |clauses|
    ensures forall i :: 0 <= i < |r| ==> r[i] == ClauseText(col, clauses[i])
  {
    if |clauses| == 0 then [] else [ClauseText(col, clauses[0])] + ClauseTexts(col, clauses[1..])
  }

  /** The clause texts in order, separated by `,\n`, as the `.=` steps
      append them. */
  function Render(col: string, clauses: seq<Clause>): string {
    Join(ClauseTexts(col, clauses), ",\n")
  }

  /** Every clause `a` is directly followed by `b`. */
  predicate DirectlyFollowedBy(cs: seq<Clause>, a: Clause, b: Clause) {
    forall i :: 0 <= i < |cs| && cs[i] == a ==> i + 1 < |cs| && cs[i + 1] == b
  }

  /** Every dropped constraint comes before every added one. */
  predicate DropsBeforeAdds(cs: seq<Clause>) {
    forall i, j :: 0 <= i < |cs| && 0 <= j < |cs| && cs[i].DropConstraint? && cs[j].AddConstraint? ==> i < j
  }

  /** The optional clauses, each present when its condition holds. */
  function When(c: bool, cs: seq<Clause>): seq<Clause> {
    if c then cs else []
  }

  /** The clauses the schema manager builds: the type, the nullity, the
      default (dropped, then set), the old constraint dropped when it
      exists, and the new one added when one is asked for. */
  function Clauses(table: string, col: string, parts: ColumnSpecParts, constraintExists: bool): seq<Clause> {
    var name := CheckName(table, col);
    [AlterType(parts.typeName)] + When(!IsEmpty(Str(parts.nullity)), [SetNullity(parts.nullity)])
    + When(!IsEmpty(Str(parts.default)), [DropDefault, SetDefault(parts.default)])
    + When(constraintExists, [DropConstraint(name)])
    + When(!IsEmpty(Str(parts.check)), [AddConstraint(name, parts.check)])
  }

  /** The type always comes first; a dropped default is directly set
      again; the old constraint goes before the new one is added. */
  lemma ClausesOrder(table: string, col: string, parts: ColumnSpecParts, constraintExists: bool)
    ensures var r := Clauses(table, col, parts, constraintExists);
            |r| > 0 && r[0] == AlterType(parts.typeName) &&
            DirectlyFollowedBy(r, DropDefault, SetDefault(parts.default)) &&
            DropsBeforeAdds(r)
  {
    var name := CheckName(table, col);
    var head := [AlterType(parts.typeName)] + When(!IsEmpty(Str(parts.nullity)), [SetNullity(parts.nullity)]);
    var defaults := When(!IsEmpty(Str(parts.default)), [DropDefault, SetDefault(parts.default)]);
    var drop := When(constraintExists, [DropConstraint(name)]);
    var add := When(!IsEmpty(Str(parts.check)), [AddConstraint(name, parts.check)]);
    ClauseOrder(head, defaults, drop, add, SetDefault(parts.default));
  }

  /** Each optional clause is present exactly when the source's condition
      for it holds. */
  lemma ClausesPresence(table: string, col: string, parts: ColumnSpecParts, constraintExists: bool)
    ensures var r := Clauses(table, col, parts, constraintExists);
            (SetNullity(parts.nullity) in r <==> !IsEmpty(Str(parts.nullity))) &&
            (DropDefault in r <==> !IsEmpty(Str(parts.default))) &&
            (SetDefault(parts.default) in r <==> !IsEmpty(Str(parts.default))) &&
            (DropConstraint(CheckName(table, col)) in r <==> constraintExists) &&
            (AddConstraint(CheckName(table, col), parts.check) in r <==> !IsEmpty(Str(parts.check)))
  {
    var name := CheckName(table, col);
    var head := [AlterType(parts.typeName)] + When(!IsEmpty(Str(parts.nullity)), [SetNullity(parts.nullity)]);
    var defaults := When(!IsEmpty(Str(parts.default)), [DropDefault, SetDefault(parts.default)]);
    var drop := When(constraintExists, [DropConstraint(name)]);
    var add := When(!IsEmpty(Str(parts.check)), [AddConstraint(name, parts.check)]);
    InGroups(SetNullity(parts.nullity), head, defaults, drop, add);
    InGroups(DropDefault, head, defaults, drop, add);
    InGroups(SetDefault(parts.default), head, defaults, drop, add);
    InGroups(DropConstraint(name), head, defaults, drop, add);
    InGroups(AddConstraint(name, parts.check), head, defaults, drop, add);
  }

  lemma InGroups(x: Clause, a: seq<Clause>, b: seq<Clause>, c: seq<Clause>, d: seq<Clause>)
    ensures x in a + b + c + d <==> x in a || x in b || x in c || x in d
  {
  }

  /** The ordering facts of four consecutive groups of clauses. */
  lemma ClauseOrder(head: seq<Clause>, defaults: seq<Clause>, drop: seq<Clause>, add: seq<Clause>, follow: Clause)
    requires DropDefault !in head && DropDefault !in drop && DropDefault !in add
    requires follow != DropDefault
    requires defaults == [] || defaults == [DropDefault, follow]
    requires forall c :: c in head + defaults ==> !c.DropConstraint? && !c.AddConstraint?
    requires forall c :: c in drop ==> c.DropConstraint?
    requires forall c :: c in add ==> c.AddConstraint?
    ensures DirectlyFollowedBy(head + defaults + drop + add, DropDefault, follow)
    ensures DropsBeforeAdds(head + defaults + drop + add)
  {
    var front := head + defaults;
    var r := front + drop + add;
    assert forall k :: 0 <= k < |head| ==> r[k] == head[k] && head[k] in head;
    assert forall k :: |front| <= k < |front| + |drop| ==> r[k] == drop[k - |front|] && drop[k - |front|] in drop;
    assert forall k :: |front| + |drop| <= k < |r| ==> r[k] == add[k - |front| - |drop|] && add[k - |front| - |drop|] in add;
    assert forall k :: 0 <= k < |front| ==> r[k] == front[k] && front[k] in front;
    assert defaults != [] ==> r[|head|] == DropDefault && r[|head| + 1] == follow;
  }

  /** The clauses the older driver builds: the same, except that the
      constraint is dropped and re-added together, and only when a check is
      asked for. */
  function LegacyClauses(table: string, col: string, parts: ColumnSpecParts): seq<Clause> {
    var name := CheckName(table, col);
    [AlterType(parts.typeName)]
    + When(!IsEmpty(Str(parts.nullity)), [SetNullity(parts.nullity)])
    + When(!IsEmpty(Str(parts.default)), [DropDefault, SetDefault(parts.default)])
    + When(!IsEmpty(Str(parts.check)), [DropConstraint(name), AddConstraint(name, parts.check)])
  }

  /** The older driver behaves as the schema manager would if the
      constraint existed exactly when a new check is asked for. */
  lemma LegacyClausesAsModern(table: string, col: string, parts: ColumnSpecParts)
    ensures LegacyClauses(table, col, parts) == Clauses(table, col, parts, !IsEmpty(Str(parts.check)))
  {
    var name := CheckName(table, col);
    var c := !IsEmpty(Str(parts.check));
    assert When(c, [DropConstraint(name), AddConstraint(name, parts.check)])
        == When(c, [DropConstraint(name)]) + When(c, [AddConstraint(name, parts.check)]);
  }

  // ----- the repair of values outside the new CHECK list ------------------

  /** `explode('(', $check)[2]`, or `""` when there are fewer than three
      pieces (the missing entry reads as null). */
  function ThirdParenPiece(check: string): string {
    var bits := Explode(check, "(");
    if |bits| > 2 then bits[2] else ""
  }

  /** The value list of the new constraint: the third `(`-piece with `)`
      trimmed from both ends. */
  function ConstraintValues(check: string): string {
    Trim(ThirdParenPiece(check), {')'})
  }

  /** The value existing rows are repaired to: the first comma-separated
      entry of the list, trimmed of spaces and quotes. */
  function RepairDefault(check: string): string {
    Trim(Explode(ConstraintValues(check), ",")[0], {' ', '\''})
  }

  /** One repair statement for the table `target`. */
  function UpdateStatement(target: string, col: string, default: string, values: string): string {
    "UPDATE \"" + target + "\" SET \"" + col + "\"='" + default + "' WHERE \"" + col + "\" NOT IN (" + values + ");"
  }

  /** The tables repaired: the table itself, then its `_Live` and
      `_versions` copies when they exist. */
  function RepairTargets(table: string, hasLive: bool, hasVersions: bool): (r: seq<string>)
    ensures |r| > 0 && r[0] == table
    ensures table + "_Live" in r <==> hasLive
    ensures table + "_versions" in r <==> hasVersions
    ensures |r| == 1 + (if hasLive then 1 else 0) + (if hasVersions then 1 else 0)
  {
    [table] + (if hasLive then [table + "_Live"] else []) + (if hasVersions then [table + "_versions"] else [])
  }

  function UpdateStatements(targets: seq<string>, col: string, default: string, values: string): (r: seq<string>)
    ensures |r| == |targets|
    ensures forall i :: 0 <= i < |r| ==> r[i] == UpdateStatement(targets[i], col, default, values)
  {
    if |targets| == 0 then [] else [UpdateStatement(targets[0], col, default, values)] + UpdateStatements(targets[1..], col, default, values)
  }

  /** The repair statements, one per target, run as one query. */
  function Repair(table: string, col: string, check: string, hasLive: bool, hasVersions: bool): (r: string)
    ensures UpdateStatement(table, col, RepairDefault(check), ConstraintValues(check)) <= r
  {
    var statements := UpdateStatements(RepairTargets(table, hasLive, hasVersions), col, RepairDefault(check), ConstraintValues(check));
    JoinStartsWithFirst(statements, "");
    Join(statements, "")
  }

  /** What the alteration produces: the clause text, and the repair
      statements it runs first when a check is asked for. */
  datatype Alteration = Alteration(sql: string, repair: Option<string>)

  /** `alterTableAlterColumn` of the schema manager. `spec` is `None` when
      the pattern does not match; `constraintExists` is the catalog's
      answer about `<table>_<col>_check`. */
  function AlterColumn(table: string, col: string, spec: Option<ColumnSpecParts>,
                       constraintExists: bool, hasLive: bool, hasVersions: bool): (r: Alteration)
    ensures spec.None? || spec.value.typeName == "serial8" ==> r == Alteration("", None)
    ensures spec.Some? && spec.value.typeName != "serial8" ==>
              r.sql == Render(col, Clauses(table, col, spec.value, constraintExists)) &&
              (r.repair.Some? <==> spec.value.check != "") &&
              (r.repair.Some? ==> UpdateStatement(table, col, RepairDefault(spec.value.check), ConstraintValues(spec.value.check)) <= r.repair.value)
  {
    match spec
    case None => Alteration("", None)
    case Some(parts) =>
      if parts.typeName == "serial8" then Alteration("", None)
      else
        var repair := if parts.check != "" then Some(Repair(table, col, parts.check, hasLive, hasVersions)) else None;
        Alteration(Render(col, Clauses(table, col, parts, constraintExists)), repair)
  }

  /** `alterTableAlterColumn` of the older driver: no catalog reads and no
      repair. */
  function LegacyAlterColumn(table: string, col: string, spec: Option<ColumnSpecParts>): (r: string)
    ensures spec.None? || spec.value.typeName == "serial8" ==> r == ""
  {
    match spec
    case None => ""
    case Some(parts) => if parts.typeName == "serial8" then "" else Render(col, LegacyClauses(table, col, parts))
  }

  // ----- properties ---------------------------------------------------------

  /** The older driver's statement is the schema manager's for a catalog
      in which the constraint exists exactly when a new check is asked
      for; the table copies only affect the repair. */
  lemma LegacyAlterAsModern(table: string, col: string, spec: Option<ColumnSpecParts>, hasLive: bool, hasVersions: bool)
    ensures var asked := spec.Some? && !IsEmpty(Str(spec.value.check));
            LegacyAlterColumn(table, col, spec) == AlterColumn(table, col, spec, asked, hasLive, hasVersions).sql
  {
    if spec.Some? {
      LegacyClausesAsModern(table, col, spec.value);
    }
  }

  /** Rendering a concatenation of clause lists joins the two renderings
      with `,\n`: each clause's text stands where its clause stands. */
  lemma {:induction false} RenderAppend(col: string, a: seq<Clause>, b: seq<Clause>)
    requires |a| > 0 && |b| > 0
    ensures Render(col, a + b) == Render(col, a) + ",\n" + Render(col, b)
    decreases |a|
  {
    ClauseTextsAppend(col, a, b);
    JoinAppend(ClauseTexts(col, a), ClauseTexts(col, b), ",\n");
  }

  lemma {:induction false} ClauseTextsAppend(col: string, a: seq<Clause>, b: seq<Clause>)
    ensures ClauseTexts(col, a + b) == ClauseTexts(col, a) + ClauseTexts(col, b)
    decreases |a|
  {
    if |a| > 0 {
      assert (a + b)[0] == a[0];
      assert (a + b)[1..] == a[1..] + b;
      ClauseTextsAppend(col, a[1..], b);
    } else {
      assert a + b == b;
    }
  }

  lemma {:induction false} JoinAppend(a: seq<string>, b: seq<string>, sep: string)
    requires |a| > 0 && |b| > 0
    ensures Join(a + b, sep) == Join(a, sep) + sep + Join(b, sep)
    decreases |a|
  {
    if |a| == 1 {
      assert (a + b)[0] == a[0];
      assert (a + b)[1..] == b;
    } else {
      assert (a + b)[0] == a[0];
      assert (a + b)[1..] == a[1..] + b;
      JoinAppend(a[1..], b, sep);
    }
  }

  /** The statement always starts by changing the column's type; with a
      default, its `DROP DEFAULT` text comes directly before its `SET`. */
  lemma AlterColumnText(table: string, col: string, parts: ColumnSpecParts, constraintExists: bool)
    requires parts.typeName != "serial8"
    ensures ClauseText(col, AlterType(parts.typeName)) <= AlterColumn(table, col, Some(parts), constraintExists, false, false).sql
    ensures !IsEmpty(Str(parts.default)) ==>
              Contains(AlterColumn(table, col, Some(parts), constraintExists, false, false).sql,
                       ClauseText(col, DropDefault) + ",\n" + ClauseText(col, SetDefault(parts.default)))
  {
    var cs := Clauses(table, col, parts, constraintExists);
    var texts := ClauseTexts(col, cs);
    ClausesOrder(table, col, parts, constraintExists);
    ClausesPresence(table, col, parts, constraintExists);
    JoinStartsWithFirst(texts, ",\n");
    if !IsEmpty(Str(parts.default)) {
      var k :| 0 <= k < |cs| && cs[k] == DropDefault;
      assert k + 1 < |cs| && cs[k + 1] == SetDefault(parts.default);
      assert k > 0;
      JoinHasPair(texts, k, ",\n");
    }
  }

  lemma JoinStartsWithFirst(parts: seq<string>, sep: string)
    requires |parts| > 0
    ensures parts[0] <= Join(parts, sep)
  {
  }

  /** Two neighbouring parts, with the separator between them, appear
      inside the join. */
  lemma JoinHasPair(parts: seq<string>, k: nat, sep: string)
    requires 0 < k && k + 1 < |parts|
    ensures Contains(Join(parts, sep), parts[k] + sep + parts[k + 1])
  {
    var both := parts[k] + sep + parts[k + 1];
    var pre := Join(parts[..k], sep) + sep;
    var post := JoinAround(parts, k, sep);
    OccursInMiddle(pre, both, post);
  }

  /** The join around two neighbouring parts: what precedes them is the
      join of the earlier parts and a separator. */
  lemma JoinAround(parts: seq<string>, k: nat, sep: string) returns (post: string)
    requires 0 < k && k + 1 < |parts|
    ensures Join(parts, sep) == Join(parts[..k], sep) + sep + (parts[k] + sep + parts[k + 1]) + post
  {
    var pair := [parts[k], parts[k + 1]];
    var front := parts[..k];
    var after := parts[k + 2..];
    assert Join(pair, sep) == parts[k] + sep + parts[k + 1] by {
      assert pair[1..] == [parts[k + 1]];
    }
    if |after| > 0 {
      assert parts == front + pair + after;
      JoinAppend(front + pair, after, sep);
      JoinAppend(front, pair, sep);
      post := sep + Join(after, sep);
    } else {
      assert parts == front + pair;
      JoinAppend(front, pair, sep);
      post := "";
    }
  }

  lemma OccursInMiddle(a: string, b: string, c: string)
    ensures OccursAt(a + b + c, b, |a|)
  {
    assert (a + b + c)[|a|..|a| + |b|] == b;
  }

  /** The check group as the enum formatter writes it: the text after the
      leading space of its ` check (…)` clause. */
  function CheckGroup(name: string, enums: seq<string>): string {
    CheckText(name, Join(enums, OptionSeparator))
  }

  /** A check that column `name` is one of the quoted list `j`. */
  function CheckText(name: string, j: string): string {
    "check (\"" + name + "\" in ('" + j + "'))"
  }

  lemma EnumCheckGroup(name: string, enums: seq<string>)
    ensures EnumCheck(name, enums) == " " + CheckGroup(name, enums)
  {
  }

  /** When the check is the enum formatter's, rows are repaired to its
      first option, provided no option holds `(`, the first holds no comma
      and neither starts nor ends with a space or a quote. */
  lemma RepairDefaultIsFirstOption(name: string, enums: seq<string>)
    requires '(' !in name
    requires forall i :: 0 <= i < |enums| ==> '(' !in enums[i]
    requires |enums| > 0 && |enums[0]| > 0 && ',' !in enums[0]
    requires enums[0][0] !in {' ', '\''} && enums[0][|enums[0]| - 1] !in {' ', '\''}
    ensures RepairDefault(CheckGroup(name, enums)) == enums[0]
  {
    CheckValues(name, enums);
    FirstValue(enums);
    QuotesTrimmed(enums[0]);
  }

  /** The value list of an enum check group is its quoted options. */
  lemma CheckValues(name: string, enums: seq<string>)
    requires '(' !in name
    requires forall i :: 0 <= i < |enums| ==> '(' !in enums[i]
    ensures ConstraintValues(CheckGroup(name, enums)) == "'" + Join(enums, OptionSeparator) + "'"
  {
    SeparatorHasNoParen();
    JoinFreeOf(enums, OptionSeparator, '(');
    CheckTextValues(name, Join(enums, OptionSeparator));
  }

  lemma CheckTextValues(name: string, j: string)
    requires '(' !in name && '(' !in j
    ensures ConstraintValues(CheckText(name, j)) == "'" + j + "'"
  {
    ThirdPieceOfCheck(name, j);
    ValuesTrimmed("'" + j + "'");
  }

  /** Trimming spaces and quotes from a quoted option gives the option. */
  lemma QuotesTrimmed(e: string)
    requires |e| > 0 && e[0] !in {' ', '\''} && e[|e| - 1] !in {' ', '\''}
    ensures Trim("'" + e + "'", {' ', '\''}) == e
  {
    TrimWrapped("'", e, "'", {' ', '\''});
  }

  /** The third `(`-piece of a check group is the quoted list with its two
      closing parentheses. */
  lemma ThirdPieceOfCheck(name: string, j: string)
    requires '(' !in name && '(' !in j
    ensures ThirdParenPiece(CheckText(name, j)) == "'" + j + "'" + "))"
  {
    var p0 := "check ";
    var p1 := "\"" + name + "\" in ";
    var tail := "'" + j + "'" + "))";
    assert CheckText(name, j) == p0 + "(" + (p1 + "(" + tail);
    assert !Contains(p0, "(") by { ContainsChar(p0, '('); }
    assert !Contains(p1, "(") by { ContainsChar(p1, '('); }
    assert !Contains(tail, "(") by { ContainsChar(tail, '('); }
    ExplodeAfterPiece(p0, "(", p1 + "(" + tail);
    ExplodeAfterPiece(p1, "(", tail);
    ExplodeNoSeparator(tail, "(");
  }

  /** Trimming `)` from the quoted list with its closing parentheses
      leaves the quoted list. */
  lemma ValuesTrimmed(values: string)
    requires |values| > 0 && values[0] == '\'' && values[|values| - 1] == '\''
    ensures Trim(values + "))", {')'}) == values
  {
    assert TrimLeft(values + "))", {')'}) == values + "))";
    TrimRightSuffix(values, "))", {')'});
  }

  /** The first comma-separated entry of the quoted list is the first
      option in quotes. */
  lemma FirstValue(enums: seq<string>)
    requires |enums| > 0 && ',' !in enums[0]
    ensures Explode("'" + Join(enums, OptionSeparator) + "'", ",")[0] == "'" + enums[0] + "'"
  {
    var first := "'" + enums[0] + "'";
    assert !Contains(first, ",") by {
      assert ',' !in first;
      ContainsChar(first, ',');
    }
    if |enums| == 1 {
      ExplodeNoSeparator(first, ",");
    } else {
      var j1 := Join(enums[1..], OptionSeparator);
      assert Join(enums, OptionSeparator) == enums[0] + OptionSeparator + j1;
      QuoteListSplit(enums[0], j1);
      ExplodeAfterPiece(first, ",", " '" + j1 + "'");
    }
  }

  /** The separator `implode` puts between enum options. */
  const OptionSeparator := "', '"

  lemma SeparatorHasNoParen()
    ensures '(' !in OptionSeparator
  {
    assert OptionSeparator == ['\'', ',', ' ', '\''];
  }

  /** A quoted list of at least two options splits at its first comma. */
  lemma QuoteListSplit(e0: string, j1: string)
    ensures "'" + (e0 + OptionSeparator + j1) + "'" == ("'" + e0 + "'") + "," + (" '" + j1 + "'")
  {
    assert OptionSeparator == "'" + "," + " '";
  }

  /** A character in neither the parts nor the separator is not in their
      join. */
  lemma {:induction false} JoinFreeOf(parts: seq<string>, sep: string, c: char)
    requires c !in sep
    requires forall i :: 0 <= i < |parts| ==> c !in parts[i]
    ensures c !in Join(parts, sep)
    decreases |parts|
  {
    if |parts| > 1 {
      JoinFreeOf(parts[1..], sep, c);
    }
  }
}

=== FILE: connector.dfy ===
/** The connector's pure string logic: the quote-parity test that tells
    whether a stretch of SQL enters or leaves a string literal, the rewrite of
    portable `?` placeholders into PostgreSQL's `$1, $2, …`, the escaping of
    connection-string parameters, and the decision whether a statement is
    sent with parameters at all. */
module Connector {
  import opened Outcome
  import opened PhpStrings
  import opened PhpValues

  // ----- string-literal toggling ------------------------------------------

  /** Does the SQL fragment break into or out of a string literal? Pairs of
      backslashes are removed first (left to right); then the single quotes
      are counted and the backslash-escaped ones subtracted, and the fragment
      toggles when the difference is odd. The difference is never negative,
      so PHP's truncating `%` and Dafny's Euclidean `%` agree. */
  function CheckStringTogglesLiteral(input: string): bool
  {
    var t := ReplaceAll(input, "\\\\", "");
    var totalQuotes := CountOccurrences(t, "'");
    var escapedQuotes := CountOccurrences(t, "\\'");
    (totalQuotes - escapedQuotes) % 2 != 0
  }

  /** Reference scanner, written as the lexical rule for PostgreSQL string
      constants reads: walking left to right, a backslash escapes the
      following backslash or quote, and every other quote counts. */
  function UnescapedQuotes(s: string): nat
    decreases |s|
  {
    if |s| == 0 then 0
    else if s[0] == '\\' && |s| >= 2 && (s[1] == '\\' || s[1] == '\'') then UnescapedQuotes(s[2..])
    else if s[0] == '\'' then 1 + UnescapedQuotes(s[1..])
    else UnescapedQuotes(s[1..])
  }

  /** After backslash pairs are removed, quotes minus escaped quotes is the
      number of quotes the left-to-right scanner counts. */
  lemma {:induction false} RemovedPairsCount(s: string)
    ensures var t := ReplaceAll(s, "\\\\", "");
      CountOccurrences(t, "'") - CountOccurrences(t, "\\'") == UnescapedQuotes(s) as int
    decreases |s|
  {
    if |s| == 0 {
    } else if |s| >= 2 && s[0] == '\\' && s[1] == '\\' {
      PairRemoved(s);
      RemovedPairsCount(s[2..]);
    } else if |s| >= 2 && s[0] == '\\' && s[1] == '\'' {
      EscapedQuoteCounts(s);
      RemovedPairsCount(s[2..]);
    } else {
      OtherCharCounts(s);
      RemovedPairsCount(s[1..]);
    }
  }

  /** A leading backslash pair is removed and skipped by the scanner. */
  lemma PairRemoved(s: string)
    requires |s| >= 2 && s[0] == '\\' && s[1] == '\\'
    ensures ReplaceAll(s, "\\\\", "") == ReplaceAll(s[2..], "\\\\", "")
    ensures UnescapedQuotes(s) == UnescapedQuotes(s[2..])
  {
    assert s[..2] == "\\\\";
    assert "" + ReplaceAll(s[2..], "\\\\", "") == ReplaceAll(s[2..], "\\\\", "");
  }

  /** An escaped quote survives the pair removal and counts once as a
      quote and once as an escaped quote. */
  lemma EscapedQuoteCounts(s: string)
    requires |s| >= 2 && s[0] == '\\' && s[1] == '\''
    ensures var t := ReplaceAll(s, "\\\\", "");
            var t2 := ReplaceAll(s[2..], "\\\\", "");
            CountOccurrences(t, "'") == 1 + CountOccurrences(t2, "'") &&
            CountOccurrences(t, "\\'") == 1 + CountOccurrences(t2, "\\'")
  {
    var t := ReplaceAll(s, "\\\\", "");
    var t2 := ReplaceAll(s[2..], "\\\\", "");
    assert t == "\\'" + t2 by {
      assert !("\\\\" <= s);
      assert !("\\\\" <= s[1..]);
      assert s[1..][1..] == s[2..];
      assert ReplaceAll(s[1..], "\\\\", "") == ['\''] + t2;
    }
    assert CountOccurrences(t, "'") == 1 + CountOccurrences(t2, "'") by {
      NotPrefixByHead("'", t);
      assert t[1..] == "'" + t2;
      assert "'" <= t[1..];
      assert t[1..][1..] == t2;
    }
    assert CountOccurrences(t, "\\'") == 1 + CountOccurrences(t2, "\\'") by {
      assert "\\'" <= t;
      assert t[2..] == t2;
    }
  }

  /** Any other first character is kept as it is and counts as a quote
      only when it is one. */
  lemma OtherCharCounts(s: string)
    requires |s| > 0
    requires !(|s| >= 2 && s[0] == '\\' && (s[1] == '\\' || s[1] == '\''))
    ensures var t := ReplaceAll(s, "\\\\", "");
            var t1 := ReplaceAll(s[1..], "\\\\", "");
            CountOccurrences(t, "'") == (if s[0] == '\'' then 1 else 0) + CountOccurrences(t1, "'") &&
            CountOccurrences(t, "\\'") == CountOccurrences(t1, "\\'")
  {
    var t := ReplaceAll(s, "\\\\", "");
    var t1 := ReplaceAll(s[1..], "\\\\", "");
    assert t == [s[0]] + t1 && t[1..] == t1 by {
      assert !("\\\\" <= s);
    }
    if s[0] == '\\' {
      BackslashThenOther(s);
    } else if s[0] == '\'' {
      assert "'" <= t;
      NotPrefixByHead("\\'", t);
    } else {
      NotPrefixByHead("'", t);
      NotPrefixByHead("\\'", t);
    }
  }

  /** A backslash not followed by a backslash or a quote starts neither a
      quote nor an escaped quote after the pair removal. */
  lemma BackslashThenOther(s: string)
    requires |s| > 0 && s[0] == '\\'
    requires !(|s| >= 2 && (s[1] == '\\' || s[1] == '\''))
    requires ReplaceAll(s, "\\\\", "") == [s[0]] + ReplaceAll(s[1..], "\\\\", "")
    ensures var t := ReplaceAll(s, "\\\\", "");
            !("'" <= t) && !("\\'" <= t)
  {
    var t := ReplaceAll(s, "\\\\", "");
    var t1 := ReplaceAll(s[1..], "\\\\", "");
    if |s| >= 2 {
      assert t1 == [s[1]] + ReplaceAll(s[2..], "\\\\", "") by {
        assert !("\\\\" <= s[1..]);
        assert s[1..][1..] == s[2..];
      }
      assert t[1] == s[1];
    }
    if |t| >= 2 {
      assert t[1] != '\'';
      assert t[..2][1] != "\\'"[1];
    }
    NotPrefixByHead("'", t);
  }

  /** A fragment toggles the literal state exactly when the scanner counts an
      odd number of unescaped quotes in it. */
  lemma TogglesIffOddUnescapedQuotes(s: string)
    ensures CheckStringTogglesLiteral(s) <==> UnescapedQuotes(s) % 2 == 1
  {
    RemovedPairsCount(s);
  }

  /** Text with no backslash contributes its quotes independently of what
      follows it. */
  lemma {:induction false} UnescapedQuotesConcat(a: string, b: string)
    requires '\\' !in a
    ensures UnescapedQuotes(a + b) == UnescapedQuotes(a) + UnescapedQuotes(b)
    decreases |a|
  {
    if |a| > 0 {
      assert (a + b)[0] == a[0];
      assert (a + b)[1..] == a[1..] + b;
      UnescapedQuotesConcat(a[1..], b);
    } else {
      assert a + b == b;
    }
  }

  /** Text with neither quotes nor backslashes contains no unescaped quote. */
  lemma {:induction false} UnescapedQuotesPlain(a: string)
    requires '\\' !in a && '\'' !in a
    ensures UnescapedQuotes(a) == 0
    decreases |a|
  {
    if |a| > 0 {
      UnescapedQuotesPlain(a[1..]);
    }
  }

  // ----- placeholder rewriting --------------------------------------------

  /** What stands where a `?` was: the `?` itself, or the placeholder
      `$n`. */
  datatype Marker = Kept | Numbered(n: nat)

  function MarkerText(m: Marker): string {
    match m
    case Kept => "?"
    case Numbered(n) => "$" + NatToString(n)
  }

  /** The loop of `replacePlaceholders` over the `?`-split segments: append
      the segment; unless it is the last, flip the literal state when the
      segment toggles it, then append `?` inside a literal or the next `$n`
      outside one. */
  function Rewrite(segments: seq<string>, inString: bool, num: nat): string
    requires |segments| >= 1
    decreases |segments|
  {
    if |segments| == 1 then segments[0]
    else
      var inS := if CheckStringTogglesLiteral(segments[0]) then !inString else inString;
      var marker := if inS then Kept else Numbered(num + 1);
      segments[0] + MarkerText(marker) + Rewrite(segments[1..], inS, if inS then num else num + 1)
  }

  /** `replacePlaceholders($sql)`. */
  function ReplacePlaceholders(sql: string): string
  {
    Rewrite(Explode(sql, "?"), false, 0)
  }

  /** How many of the first `n` segments toggle the literal state. */
  function TogglingCount(segments: seq<string>, n: nat): nat
    requires n <= |segments|
  {
    if n == 0 then 0
    else TogglingCount(segments, n - 1) + (if CheckStringTogglesLiteral(segments[n - 1]) then 1 else 0)
  }

  /** The `?` after segment `i` lies inside a literal exactly when an odd
      number of the segments up to and including `i` toggle. */
  predicate InLiteralAt(segments: seq<string>, i: nat)
    requires i < |segments|
  {
    TogglingCount(segments, i + 1) % 2 == 1
  }

  /** How many of the first `i` placeholders lie outside a literal. */
  function NumberedBefore(segments: seq<string>, i: nat): nat
    requires i < |segments|
  {
    if i == 0 then 0
    else NumberedBefore(segments, i - 1) + (if InLiteralAt(segments, i - 1) then 0 else 1)
  }

  /** What replaces the `?` after segment `i`: itself inside a literal, and
      otherwise `$k` where `k` counts the placeholders outside literals up to
      and including this one. */
  function MarkerAt(segments: seq<string>, i: nat): Marker
    requires i < |segments|
  {
    if InLiteralAt(segments, i) then Kept else Numbered(NumberedBefore(segments, i) + 1)
  }

  /** `segments[0] + markers[0] + segments[1] + … + segments[n]`. */
  function Interleave(segments: seq<string>, markers: seq<Marker>): string
    requires |segments| == |markers| + 1
    decreases |markers|
  {
    if |markers| == 0 then segments[0]
    else segments[0] + MarkerText(markers[0]) + Interleave(segments[1..], markers[1..])
  }

  /** The markers of the placeholders after segments `k`, `k + 1`, …, in
      order. */
  function MarkersFrom(segments: seq<string>, k: nat): (ms: seq<Marker>)
    requires k <= |segments| - 1
    ensures |ms| == |segments| - 1 - k
    decreases |segments| - 1 - k
  {
    if k == |segments| - 1 then [] else [MarkerAt(segments, k)] + MarkersFrom(segments, k + 1)
  }

  /** The markers of all placeholders, in order. */
  function Markers(segments: seq<string>): (ms: seq<Marker>)
    requires |segments| >= 1
    ensures |ms| == |segments| - 1
  {
    MarkersFrom(segments, 0)
  }

  /** Entry `i` of the markers from `k` on is the marker after segment
      `k + i`. */
  lemma {:induction false} MarkersFromAt(segments: seq<string>, k: nat, i: nat)
    requires k + i < |segments| - 1
    ensures MarkersFrom(segments, k)[i] == MarkerAt(segments, k + i)
    decreases i
  {
    if i > 0 {
      MarkersFromAt(segments, k + 1, i - 1);
    }
  }

  /** Entry `i` of the markers is the marker after segment `i`. */
  lemma MarkersAt(segments: seq<string>, i: nat)
    requires i < |segments| - 1
    ensures Markers(segments)[i] == MarkerAt(segments, i)
  {
    MarkersFromAt(segments, 0, i);
  }

  lemma {:induction false} RewriteFrom(segments: seq<string>, k: nat)
    requires k < |segments|
    ensures Rewrite(segments[k..], TogglingCount(segments, k) % 2 == 1, NumberedBefore(segments, k))
         == Interleave(segments[k..], MarkersFrom(segments, k))
    decreases |segments| - k
  {
    if k < |segments| - 1 {
      RewriteFrom(segments, k + 1);
      RewriteStep(segments, k);
      InterleaveStep(segments, k);
    }
  }

  /** One step of the rewrite from segment `k`, in the reference's terms. */
  lemma RewriteStep(segments: seq<string>, k: nat)
    requires k < |segments| - 1
    ensures Rewrite(segments[k..], TogglingCount(segments, k) % 2 == 1, NumberedBefore(segments, k))
         == segments[k] + MarkerText(MarkerAt(segments, k))
            + Rewrite(segments[k + 1..], TogglingCount(segments, k + 1) % 2 == 1, NumberedBefore(segments, k + 1))
  {
    var tail := segments[k..];
    assert tail[0] == segments[k];
    assert tail[1..] == segments[k + 1..];
    var st := TogglingCount(segments, k) % 2 == 1;
    var toggles := CheckStringTogglesLiteral(segments[k]);
    var inS := if toggles then !st else st;
    assert inS == InLiteralAt(segments, k) by {
      ParityStep(TogglingCount(segments, k), toggles);
    }
    var num := NumberedBefore(segments, k);
    assert Rewrite(tail, st, num)
        == tail[0] + MarkerText(if inS then Kept else Numbered(num + 1)) + Rewrite(tail[1..], inS, if inS then num else num + 1);
  }

  /** Adding one flips the parity; adding nothing keeps it. */
  lemma ParityStep(x: nat, b: bool)
    ensures ((x + (if b then 1 else 0)) % 2 == 1) == (if b then !(x % 2 == 1) else x % 2 == 1)
  {
  }

  /** One step of the reference interleaving from segment `k`. */
  lemma InterleaveStep(segments: seq<string>, k: nat)
    requires k < |segments| - 1
    ensures Interleave(segments[k..], MarkersFrom(segments, k))
         == segments[k] + MarkerText(MarkerAt(segments, k)) + Interleave(segments[k + 1..], MarkersFrom(segments, k + 1))
  {
    var tail := segments[k..];
    assert tail[0] == segments[k];
    assert tail[1..] == segments[k + 1..];
  }

  /** Placeholders are rewritten as the reference reading says: every `?`
      inside a literal stays, and those outside are numbered `$1, $2, …`
      from left to right without gaps. */
  lemma ReplacePlaceholdersSpec(sql: string)
    ensures var segments := Explode(sql, "?");
      ReplacePlaceholders(sql) == Interleave(segments, Markers(segments))
  {
    var segments := Explode(sql, "?");
    RewriteFrom(segments, 0);
    assert segments[0..] == segments;
  }

  /** SQL without `?` is returned unchanged. */
  lemma NoPlaceholderUnchanged(sql: string)
    requires '?' !in sql
    ensures ReplacePlaceholders(sql) == sql
  {
    ContainsChar(sql, '?');
    ExplodeNoSeparator(sql, "?");
  }

  /** `substr_count` of a one-character pattern adds up over a
      concatenation. */
  lemma {:induction false} CountCharConcat(a: string, b: string, c: char)
    ensures CountOccurrences(a + b, [c]) == CountOccurrences(a, [c]) + CountOccurrences(b, [c])
    decreases |a|
  {
    if |a| > 0 {
      assert (a + b)[0] == a[0];
      assert (a + b)[1..] == a[1..] + b;
      CountCharConcat(a[1..], b, c);
    } else {
      assert a + b == b;
    }
  }

  lemma {:induction false} CountCharAbsent(a: string, c: char)
    requires c !in a
    ensures CountOccurrences(a, [c]) == 0
    decreases |a|
  {
    if |a| > 0 {
      NotPrefixByHead([c], a);
      CountCharAbsent(a[1..], c);
    }
  }

  /** A marker holds one `?` when it is kept and none when numbered. */
  lemma MarkerCount(segments: seq<string>, k: nat)
    requires k < |segments|
    ensures CountOccurrences(MarkerText(MarkerAt(segments, k)), "?") == if InLiteralAt(segments, k) then 1 else 0
  {
    var m := MarkerText(MarkerAt(segments, k));
    if InLiteralAt(segments, k) {
      assert CountOccurrences(m, "?") == 1;
    } else {
      var digits := NatToString(NumberedBefore(segments, k) + 1);
      assert '?' !in m by {
        assert m == "$" + digits;
        assert forall i :: 0 <= i < |digits| ==> IsDigit(digits[i]);
      }
      CountCharAbsent(m, '?');
    }
  }

  /** How many of the markers from position `k` on are a kept `?`. */
  function KeptFrom(segments: seq<string>, k: nat): nat
    requires k <= |segments| - 1
    decreases |segments| - 1 - k
  {
    if k == |segments| - 1 then 0
    else (if InLiteralAt(segments, k) then 1 else 0) + KeptFrom(segments, k + 1)
  }

  lemma {:induction false} InterleaveCount(segments: seq<string>, k: nat)
    requires k <= |segments| - 1
    requires forall i :: 0 <= i < |segments| ==> '?' !in segments[i]
    ensures CountOccurrences(Interleave(segments[k..], MarkersFrom(segments, k)), "?") == KeptFrom(segments, k)
    ensures KeptFrom(segments, k) + NumberedBefore(segments, |segments| - 1) - NumberedBefore(segments, k)
         == |segments| - 1 - k
    decreases |segments| - 1 - k
  {
    if k == |segments| - 1 {
      assert segments[k..][0] == segments[k];
      CountCharAbsent(segments[k], '?');
    } else {
      InterleaveCount(segments, k + 1);
      var m := MarkerText(MarkerAt(segments, k));
      var rest := Interleave(segments[k + 1..], MarkersFrom(segments, k + 1));
      InterleaveStep(segments, k);
      assert CountOccurrences(segments[k] + m + rest, "?")
          == CountOccurrences(m, "?") + CountOccurrences(rest, "?") by {
        CountCharConcat(segments[k] + m, rest, '?');
        CountCharConcat(segments[k], m, '?');
        CountCharAbsent(segments[k], '?');
      }
      MarkerCount(segments, k);
      NumberedMonotone(segments, k + 1, |segments| - 1);
    }
  }

  /** Between two placeholders the count of numbered ones grows by at most
      one per placeholder, and not at all across a run of placeholders that
      all lie inside a literal. */
  lemma {:induction false} NumberedMonotone(segments: seq<string>, i: nat, j: nat)
    requires i <= j < |segments|
    ensures NumberedBefore(segments, i) <= NumberedBefore(segments, j) <= NumberedBefore(segments, i) + (j - i)
    ensures (forall k :: i <= k < j ==> InLiteralAt(segments, k)) ==> NumberedBefore(segments, j) == NumberedBefore(segments, i)
    decreases j - i
  {
    if i < j {
      NumberedMonotone(segments, i, j - 1);
    }
  }

  /** The numbers handed out are `1, 2, 3, …` without gaps or repeats: the
      first placeholder outside a literal gets `$1`, and each later one gets
      the number after that of the previous placeholder outside a literal. */
  lemma NumberedConsecutive(segments: seq<string>, i: nat, j: nat)
    requires i < j < |segments| - 1
    requires MarkerAt(segments, i).Numbered? && MarkerAt(segments, j).Numbered?
    ensures MarkerAt(segments, i).n < MarkerAt(segments, j).n
    ensures (forall k :: i < k < j ==> InLiteralAt(segments, k)) ==> MarkerAt(segments, j).n == MarkerAt(segments, i).n + 1
  {
    NumberedMonotone(segments, i + 1, j);
  }

  /** The first placeholder outside a literal is numbered `$1`. */
  lemma NumberedFirst(segments: seq<string>, j: nat)
    requires j < |segments| - 1
    requires MarkerAt(segments, j).Numbered?
    requires forall k :: 0 <= k < j ==> InLiteralAt(segments, k)
    ensures MarkerAt(segments, j) == Numbered(1)
  {
    NumberedMonotone(segments, 0, j);
  }

  /** Count invariant: the `?` kept in the output plus the `$k` markers
      emitted equal the `?` of the input. */
  lemma PlaceholderCount(sql: string)
    ensures var segments := Explode(sql, "?");
      CountOccurrences(ReplacePlaceholders(sql), "?") + NumberedBefore(segments, |segments| - 1)
        == CountOccurrences(sql, "?")
  {
    var segments := Explode(sql, "?");
    var out := ReplacePlaceholders(sql);
    ExplodePiecesFree(sql, '?');
    assert out == Interleave(segments, MarkersFrom(segments, 0)) by {
      ReplacePlaceholdersSpec(sql);
    }
    assert CountOccurrences(out, "?") + NumberedBefore(segments, |segments| - 1) == |segments| - 1 by {
      InterleaveCount(segments, 0);
      assert segments[0..] == segments;
    }
    assert CountOccurrences(sql, "?") == |segments| - 1 by {
      JoinExplode(sql, "?");
      JoinCount(segments);
    }
  }

  lemma {:induction false} JoinCount(segments: seq<string>)
    requires |segments| >= 1
    requires forall i :: 0 <= i < |segments| ==> '?' !in segments[i]
    ensures CountOccurrences(Join(segments, "?"), "?") == |segments| - 1
    decreases |segments|
  {
    CountCharAbsent(segments[0], '?');
    if |segments| > 1 {
      JoinCount(segments[1..]);
      CountCharConcat(segments[0] + "?", Join(segments[1..], "?"), '?');
      CountCharConcat(segments[0], "?", '?');
    }
  }

  // ----- connection parameters --------------------------------------------

  /** `escapeParameter`: a `name='value'` fragment of the connection string,
      the value taken from the parameters or else from the default, or
      nothing when both are missing. */
  function EscapeParameter(parameters: map<string, PhpValue>, key: string, name: string, default: PhpValue): (r: string)
    ensures r == "" <==> IsEmpty(Lookup(parameters, key)) && default.Null?
    ensures r != "" ==>
      var value := if IsEmpty(Lookup(parameters, key)) then default else parameters[key];
      exists escaped ::
        && r == name + "='" + escaped + "'"
        && EscapeSafe(escaped)
        && StripSlashes(escaped) == ToPhpString(value)
  {
    if IsEmpty(Lookup(parameters, key)) && default.Null? then ""
    else
      var value := if IsEmpty(Lookup(parameters, key)) then default else parameters[key];
      var escaped := AddSlashes(ToPhpString(value));
      StripAddSlashes(ToPhpString(value));
      name + "='" + escaped + "'"
  }

  /** The connection string `connect` assembles: host, port and database
      fall back to `localhost`, 5432 and `postgres`; user and password are
      left out when not given. */
  function ConnectionString(parameters: map<string, PhpValue>): string
  {
    Join([
      EscapeParameter(parameters, "server", "host", Str("localhost")),
      EscapeParameter(parameters, "port", "port", Int(5432)),
      EscapeParameter(parameters, "database", "dbname", Str("postgres")),
      EscapeParameter(parameters, "username", "user", Null),
      EscapeParameter(parameters, "password", "password", Null)
    ], " ")
  }

  // ----- prepared queries -------------------------------------------------

  /** How a statement reaches the server: as plain SQL, or as SQL with
      positional placeholders plus its parameter values. */
  datatype Execution = Plain(sql: string) | WithParams(sql: string, params: seq<PhpValue>)

  /** The rewrite decision of `preparedQuery`: placeholders are rewritten
      and the parameter values extracted only when there are parameters;
      the statement is sent with values only when that extraction gave
      some. `parameterValues` (inherited from the framework's connector
      base class) is a parameter. */
  function PrepareExecution(sql: string, parameters: seq<PhpValue>, parameterValues: seq<PhpValue> -> seq<PhpValue>): (r: Execution)
    ensures |parameters| == 0 ==> r == Plain(sql)
    ensures |parameters| > 0 && |parameterValues(parameters)| > 0 ==>
              r == WithParams(ReplacePlaceholders(sql), parameterValues(parameters))
    ensures |parameters| > 0 && |parameterValues(parameters)| == 0 ==> r == Plain(ReplacePlaceholders(sql))
    ensures r.WithParams? <==> |parameters| > 0 && |parameterValues(parameters)| > 0
    ensures '?' !in sql ==> r.sql == sql
  {
    if |parameters| == 0 then Plain(sql)
    else
      assert '?' !in sql ==> ReplacePlaceholders(sql) == sql by {
        if '?' !in sql { NoPlaceholderUnchanged(sql); }
      }
      var values := parameterValues(parameters);
      if |values| > 0 then WithParams(ReplacePlaceholders(sql), values) else Plain(ReplacePlaceholders(sql))
  }
}

=== FILE: connector_tests.dfy ===
/** The statements of the connector's unit test
    (tests/PostgreSQLConnectorTest.php), rewritten exactly as the test
    expects. Each statement is written as the concatenation of its pieces up
    to and including each `?`. */
module ConnectorUnitTests {
  import opened Connector
  import opened ConnectorVectors

  /** Both ways of writing a single quote inside a literal, `'\''` and
      `''''`, open and close the literal: neither toggles it. */
  lemma QuotedLiteralsClose()
    ensures !CheckStringTogglesLiteral("'\\''")
    ensures !CheckStringTogglesLiteral("''''")
  {
    TogglesIffOddUnescapedQuotes("'\\''");
    TogglesIffOddUnescapedQuotes("''''");
    assert "'\\''"[1..] == "\\''";
    assert "\\''"[2..] == "'";
  }

  // ----- quote counting on shapes of segments ------------------------------

  /** Plain text, one quote, plain text: one unescaped quote. */
  lemma OneQuoteCount(x: string, y: string)
    requires '\\' !in x && '\'' !in x && '\\' !in y && '\'' !in y
    ensures UnescapedQuotes(x + "'" + y) == 1
  {
    assert x + "'" + y == x + ("'" + y);
    UnescapedQuotesConcat(x, "'" + y);
    UnescapedQuotesConcat("'", y);
    UnescapedQuotesPlain(x);
    UnescapedQuotesPlain(y);
  }

  /** Plain text, one quote, plain text: the literal state flips. */
  lemma OneQuoteToggles(x: string, y: string)
    requires '\\' !in x && '\'' !in x && '\\' !in y && '\'' !in y
    ensures CheckStringTogglesLiteral(x + "'" + y)
  {
    OneQuoteCount(x, y);
    TogglesIffOddUnescapedQuotes(x + "'" + y);
  }

  /** A closed literal holding a backslash-escaped quote, then an opening
      quote: the scanner counts three quotes, so the literal state flips. */
  lemma EscapedQuoteThenOpenToggles(x: string, y: string, z: string)
    requires '\\' !in x && '\'' !in x && '\\' !in y && '\'' !in y && '\\' !in z && '\'' !in z
    ensures CheckStringTogglesLiteral(x + "'\\''" + y + "'" + z)
  {
    var s := x + "'\\''" + y + "'" + z;
    var rest := "'" + (y + "'" + z);
    assert s == (x + "'" + "") + ("\\'" + rest);
    OneQuoteCount(x, "");
    UnescapedQuotesConcat(x + "'" + "", "\\'" + rest);
    EscapedQuoteSkipped(rest);
    OneQuoteCount(y, z);
    UnescapedQuotesConcat("'", y + "'" + z);
    TogglesIffOddUnescapedQuotes(s);
  }

  /** A closed literal holding a doubled quote, then an opening quote: the
      scanner counts five quotes, so the literal state flips. */
  lemma DoubledQuoteThenOpenToggles(x: string, y: string, z: string)
    requires '\\' !in x && '\'' !in x && '\\' !in y && '\'' !in y && '\\' !in z && '\'' !in z
    ensures CheckStringTogglesLiteral(x + "''''" + y + "'" + z)
  {
    var s := x + "''''" + y + "'" + z;
    assert s == x + ("''''" + (y + "'" + z));
    UnescapedQuotesPlain(x);
    UnescapedQuotesConcat(x, "''''" + (y + "'" + z));
    UnescapedQuotesConcat("''''", y + "'" + z);
    OneQuoteCount(y, z);
    TogglesIffOddUnescapedQuotes(s);
  }

  // ----- the segments of the test statements -------------------------------

  function NameKey(): string { " AND Name = " }
  function TitleKey(): string { " AND Title = " }
  function ContentKey(): string { " AND Content = " }
  function ContentText(): string { "<p>What is love" }
  function ParagraphEnd(): string { "</p>" }

  /** ` AND Content = '<p>What is love`: opens the literal of the content. */
  function ContentOpens(): string { ContentKey() + "'" + ContentText() }

  /** `</p>'`: closes it. */
  function ContentCloses(): string { ParagraphEnd() + "'" + "" }

  /** `</p>' AND Name = `: closes it, then plain SQL. */
  function LiteralThenName(): string { ParagraphEnd() + "'" + NameKey() }

  /** ` AND Title = '\'' AND Content = '<p>What is love`. */
  function TitleEscaped(): string { TitleKey() + "'\\''" + ContentKey() + "'" + ContentText() }

  /** ` AND Title = '''' AND Content = '<p>What is love`. */
  function TitleDoubled(): string { TitleKey() + "''''" + ContentKey() + "'" + ContentText() }

  lemma WordsPlain()
    ensures PlainSql(NameKey()) && PlainSql(TitleKey()) && PlainSql(ContentKey())
    ensures PlainSql(ContentText()) && PlainSql(ParagraphEnd())
  {
  }

  lemma ContentOpensToggles()
    ensures '?' !in ContentOpens() && CheckStringTogglesLiteral(ContentOpens())
  {
    WordsPlain();
    OneQuoteToggles(ContentKey(), ContentText());
  }

  lemma ContentClosesToggles()
    ensures '?' !in ContentCloses() && CheckStringTogglesLiteral(ContentCloses())
  {
    WordsPlain();
    OneQuoteToggles(ParagraphEnd(), "");
  }

  lemma LiteralThenNameToggles()
    ensures '?' !in LiteralThenName() && CheckStringTogglesLiteral(LiteralThenName())
  {
    WordsPlain();
    OneQuoteToggles(ParagraphEnd(), NameKey());
  }

  /** The segment with the backslash-escaped quote opens the literal of the
      content. */
  lemma TitleEscapedToggles()
    ensures '?' !in TitleEscaped() && CheckStringTogglesLiteral(TitleEscaped())
  {
    WordsPlain();
    EscapedQuoteThenOpenToggles(TitleKey(), ContentKey(), ContentText());
  }

  /** The segment with the doubled quote opens the literal of the content. */
  lemma TitleDoubledToggles()
    ensures '?' !in TitleDoubled() && CheckStringTogglesLiteral(TitleDoubled())
  {
    WordsPlain();
    DoubledQuoteThenOpenToggles(TitleKey(), ContentKey(), ContentText());
  }

  // ----- the pieces as written in the test --------------------------------

  lemma HeadPieces()
    ensures "SELECT * FROM Table WHERE ID = ?" == UnitTestHead + "?"
    ensures "SELECT * FROM Table WHERE ID = $1" == UnitTestHead + "$1"
  {
  }

  lemma NamePieces()
    ensures " AND Name = ?" == NameKey() + "?"
    ensures " AND Name = $2" == NameKey() + "$2"
  {
  }

  lemma ContentPieces()
    ensures " AND Content = '<p>What is love?" == ContentOpens() + "?"
    ensures "</p>'" == ContentCloses()
  {
  }

  lemma NameAfterLiteralPieces()
    ensures "</p>' AND Name = ?" == LiteralThenName() + "?"
    ensures "</p>' AND Name = $2" == LiteralThenName() + "$2"
  {
  }

  lemma TitleEscapedPieces()
    ensures " AND Title = '\\'' AND Content = '<p>What is love?" == TitleEscaped() + "?"
  {
  }

  lemma TitleDoubledPieces()
    ensures " AND Title = '''' AND Content = '<p>What is love?" == TitleDoubled() + "?"
  {
  }

  lemma Regroup(a: string, m: string, b: string, n: string, c: string, o: string, d: string)
    ensures (a + m) + (b + n) + (c + o) + d == a + m + b + n + c + o + d
  {
  }

  lemma RegroupEnd(a: string, m: string, b: string, n: string, c: string, o: string)
    ensures (a + m) + (b + n) + (c + o) == a + m + b + n + c + o + ""
  {
    assert (a + m) + (b + n) + (c + o) + "" == (a + m) + (b + n) + (c + o);
  }

  // ----- the test statements ----------------------------------------------

  /** The test statement with two placeholders. */
  lemma UnitTestTwo()
    ensures ReplacePlaceholders("SELECT * FROM Table WHERE ID = ?" + " AND Name = ?")
         == "SELECT * FROM Table WHERE ID = $1" + " AND Name = $2"
  {
    UnitTestHeadPlain();
    WordsPlain();
    TwoPlaceholders(UnitTestHead, NameKey(), "");
    HeadPieces();
    NamePieces();
    assert (UnitTestHead + "?") + (NameKey() + "?") == UnitTestHead + "?" + NameKey() + "?" + "";
    assert (UnitTestHead + "$1") + (NameKey() + "$2") == UnitTestHead + "$1" + NameKey() + "$2" + "";
  }

  /** The test statement whose last `?` stands inside a literal: that `?`
      stays. */
  lemma UnitTestLiteralKept()
    ensures ReplacePlaceholders("SELECT * FROM Table WHERE ID = ?" + " AND Name = ?" + " AND Content = '<p>What is love?" + "</p>'")
         == "SELECT * FROM Table WHERE ID = $1" + " AND Name = $2" + " AND Content = '<p>What is love?" + "</p>'"
  {
    UnitTestHeadPlain();
    WordsPlain();
    ContentOpensToggles();
    ContentClosesToggles();
    PlaceholderInLiteralKept(UnitTestHead, NameKey(), ContentOpens(), ContentCloses());
    HeadPieces();
    NamePieces();
    ContentPieces();
    Regroup(UnitTestHead, "?", NameKey(), "?", ContentOpens(), "?", ContentCloses());
    Regroup(UnitTestHead, "$1", NameKey(), "$2", ContentOpens(), "?", ContentCloses());
  }

  lemma EscapedQuoteShape()
    ensures ReplacePlaceholders(UnitTestHead + "?" + TitleEscaped() + "?" + LiteralThenName() + "?" + "")
         == UnitTestHead + "$1" + TitleEscaped() + "?" + LiteralThenName() + "$2" + ""
  {
    UnitTestHeadPlain();
    TitleEscapedToggles();
    LiteralThenNameToggles();
    LiteralSpansPlaceholder(UnitTestHead, TitleEscaped(), LiteralThenName(), "");
  }

  /** The test statement with a backslash-escaped quote before the literal
      that holds a `?`: the `?` inside the literal stays and the last one is
      `$2`. */
  lemma UnitTestEscapedQuote()
    ensures ReplacePlaceholders("SELECT * FROM Table WHERE ID = ?" + " AND Title = '\\'' AND Content = '<p>What is love?" + "</p>' AND Name = ?")
         == "SELECT * FROM Table WHERE ID = $1" + " AND Title = '\\'' AND Content = '<p>What is love?" + "</p>' AND Name = $2"
  {
    EscapedQuoteShape();
    HeadPieces();
    TitleEscapedPieces();
    NameAfterLiteralPieces();
    RegroupEnd(UnitTestHead, "?", TitleEscaped(), "?", LiteralThenName(), "?");
    RegroupEnd(UnitTestHead, "$1", TitleEscaped(), "?", LiteralThenName(), "$2");
  }

  lemma DoubledQuoteShape()
    ensures ReplacePlaceholders(UnitTestHead + "?" + TitleDoubled() + "?" + LiteralThenName() + "?" + "")
         == UnitTestHead + "$1" + TitleDoubled() + "?" + LiteralThenName() + "$2" + ""
  {
    UnitTestHeadPlain();
    TitleDoubledToggles();
    LiteralThenNameToggles();
    LiteralSpansPlaceholder(UnitTestHead, TitleDoubled(), LiteralThenName(), "");
  }

  /** The test statement with a doubled quote before the literal that holds
      a `?`: the `?` inside the literal stays and the last one is `$2`. */
  lemma UnitTestDoubledQuote()
    ensures ReplacePlaceholders("SELECT * FROM Table WHERE ID = ?" + " AND Title = '''' AND Content = '<p>What is love?" + "</p>' AND Name = ?")
         == "SELECT * FROM Table WHERE ID = $1" + " AND Title = '''' AND Content = '<p>What is love?" + "</p>' AND Name = $2"
  {
    DoubledQuoteShape();
    HeadPieces();
    TitleDoubledPieces();
    NameAfterLiteralPieces();
    RegroupEnd(UnitTestHead, "?", TitleDoubled(), "?", LiteralThenName(), "?");
    RegroupEnd(UnitTestHead, "$1", TitleDoubled(), "?", LiteralThenName(), "$2");
  }
}

=== FILE: connector_vectors.dfy ===
/** The placeholder rewrites pinned by the connector's unit test
    (tests/PostgreSQLConnectorTest.php), proved for every statement of the
    same shape. */
module ConnectorVectors {
  import opened PhpStrings
  import opened Connector

  /** Text with no `?`, no quote and no backslash: plain SQL outside any
      literal. */
  predicate PlainSql(s: string) {
    '?' !in s && '\'' !in s && '\\' !in s
  }

  /** Two `?`-free pieces joined by `?` split back into those pieces. */
  lemma SplitTwo(a: string, b: string)
    requires '?' !in a && '?' !in b
    ensures Explode(a + "?" + b, "?") == [a, b]
  {
    ContainsChar(a, '?');
    ContainsChar(b, '?');
    ExplodeAfterPiece(a, "?", b);
    ExplodeNoSeparator(b, "?");
  }

  /** Three `?`-free pieces joined by `?` split back into those pieces. */
  lemma SplitThree(a: string, b: string, c: string)
    requires '?' !in a && '?' !in b && '?' !in c
    ensures Explode(a + "?" + b + "?" + c, "?") == [a, b, c]
  {
    ContainsChar(a, '?');
    assert a + "?" + b + "?" + c == a + "?" + (b + "?" + c);
    ExplodeAfterPiece(a, "?", b + "?" + c);
    SplitTwo(b, c);
  }

  /** Four `?`-free pieces joined by `?` split back into those pieces. */
  lemma SplitFour(a: string, b: string, c: string, d: string)
    requires '?' !in a && '?' !in b && '?' !in c && '?' !in d
    ensures Explode(a + "?" + b + "?" + c + "?" + d, "?") == [a, b, c, d]
  {
    ContainsChar(a, '?');
    assert a + "?" + b + "?" + c + "?" + d == a + "?" + (b + "?" + c + "?" + d);
    ExplodeAfterPiece(a, "?", b + "?" + c + "?" + d);
    SplitThree(b, c, d);
  }

  /** Plain SQL never toggles the literal state. */
  lemma PlainDoesNotToggle(s: string)
    requires PlainSql(s)
    ensures !CheckStringTogglesLiteral(s)
  {
    UnescapedQuotesPlain(s);
    TogglesIffOddUnescapedQuotes(s);
  }

  /** A backslash-escaped quote is skipped by the scanner. */
  lemma EscapedQuoteSkipped(rest: string)
    ensures UnescapedQuotes("\\'" + rest) == UnescapedQuotes(rest)
  {
    var s := "\\'" + rest;
    assert s[0] == '\\' && s[1] == '\'';
    assert s[2..] == rest;
  }

  /** The first two placeholder numbers. */
  lemma FirstNumbers()
    ensures MarkerText(Numbered(1)) == "$1" && MarkerText(Numbered(2)) == "$2"
  {
    assert NatToString(1) == "1" && NatToString(2) == "2";
  }

  /** A segment that leaves the literal state closed is followed by the
      next numbered placeholder. */
  lemma RewriteOutside(segments: seq<string>, num: nat)
    requires |segments| >= 2 && !CheckStringTogglesLiteral(segments[0])
    ensures Rewrite(segments, false, num) == segments[0] + MarkerText(Numbered(num + 1)) + Rewrite(segments[1..], false, num + 1)
  {
  }

  /** A segment that opens a literal is followed by a kept `?`. */
  lemma RewriteOpens(segments: seq<string>, num: nat)
    requires |segments| >= 2 && CheckStringTogglesLiteral(segments[0])
    ensures Rewrite(segments, false, num) == segments[0] + "?" + Rewrite(segments[1..], true, num)
  {
  }

  /** A segment that closes a literal is followed by the next numbered
      placeholder. */
  lemma RewriteCloses(segments: seq<string>, num: nat)
    requires |segments| >= 2 && CheckStringTogglesLiteral(segments[0])
    ensures Rewrite(segments, true, num) == segments[0] + MarkerText(Numbered(num + 1)) + Rewrite(segments[1..], false, num + 1)
  {
  }

  lemma Regroup5(a: string, m: string, b: string, n: string, c: string)
    ensures a + m + (b + n + c) == a + m + b + n + c
  {
  }

  lemma Regroup7(a: string, m: string, b: string, n: string, c: string, o: string, d: string)
    ensures a + m + (b + n + (c + o + d)) == a + m + b + n + c + o + d
  {
  }

  /** One placeholder: `a?b` becomes `a$1b`. */
  lemma SinglePlaceholder(a: string, b: string)
    requires PlainSql(a) && '?' !in b
    ensures ReplacePlaceholders(a + "?" + b) == a + "$1" + b
  {
    SplitTwo(a, b);
    PlainDoesNotToggle(a);
    FirstNumbers();
    assert [a, b][1..] == [b];
    RewriteOutside([a, b], 0);
  }

  /** Two placeholders outside literals: `a?b?c` becomes `a$1b$2c`. */
  lemma TwoPlaceholders(a: string, b: string, c: string)
    requires PlainSql(a) && PlainSql(b) && '?' !in c
    ensures ReplacePlaceholders(a + "?" + b + "?" + c) == a + "$1" + b + "$2" + c
  {
    SplitThree(a, b, c);
    FirstNumbers();
    assert Rewrite([b, c], false, 1) == b + "$2" + c by {
      PlainDoesNotToggle(b);
      assert [b, c][1..] == [c];
      RewriteOutside([b, c], 1);
    }
    assert Rewrite([a, b, c], false, 0) == a + "$1" + (b + "$2" + c) by {
      PlainDoesNotToggle(a);
      assert [a, b, c][1..] == [b, c];
      RewriteOutside([a, b, c], 0);
    }
    Regroup5(a, "$1", b, "$2", c);
  }

  /** A `?` after a piece that opens a literal is kept: `a?b?c?d` with `c`
      opening a literal becomes `a$1b$2c?d`. */
  lemma PlaceholderInLiteralKept(a: string, b: string, c: string, d: string)
    requires PlainSql(a) && PlainSql(b) && '?' !in c && '?' !in d
    requires CheckStringTogglesLiteral(c)
    ensures ReplacePlaceholders(a + "?" + b + "?" + c + "?" + d) == a + "$1" + b + "$2" + c + "?" + d
  {
    SplitFour(a, b, c, d);
    FirstNumbers();
    assert Rewrite([c, d], false, 2) == c + "?" + d by {
      assert [c, d][1..] == [d];
      RewriteOpens([c, d], 2);
    }
    assert Rewrite([b, c, d], false, 1) == b + "$2" + (c + "?" + d) by {
      PlainDoesNotToggle(b);
      assert [b, c, d][1..] == [c, d];
      RewriteOutside([b, c, d], 1);
    }
    assert Rewrite([a, b, c, d], false, 0) == a + "$1" + (b + "$2" + (c + "?" + d)) by {
      PlainDoesNotToggle(a);
      assert [a, b, c, d][1..] == [b, c, d];
      RewriteOutside([a, b, c, d], 0);
    }
    Regroup7(a, "$1", b, "$2", c, "?", d);
  }

  /** A literal opened in `b` and closed in `c` hides the `?` between them:
      `a?b?c?d` becomes `a$1b?c$2d`. */
  lemma LiteralSpansPlaceholder(a: string, b: string, c: string, d: string)
    requires PlainSql(a) && '?' !in b && '?' !in c && '?' !in d
    requires CheckStringTogglesLiteral(b) && CheckStringTogglesLiteral(c)
    ensures ReplacePlaceholders(a + "?" + b + "?" + c + "?" + d) == a + "$1" + b + "?" + c + "$2" + d
  {
    SplitFour(a, b, c, d);
    FirstNumbers();
    assert Rewrite([c, d], true, 1) == c + "$2" + d by {
      assert [c, d][1..] == [d];
      RewriteCloses([c, d], 1);
    }
    assert Rewrite([b, c, d], false, 1) == b + "?" + (c + "$2" + d) by {
      assert [b, c, d][1..] == [c, d];
      RewriteOpens([b, c, d], 1);
    }
    assert Rewrite([a, b, c, d], false, 0) == a + "$1" + (b + "?" + (c + "$2" + d)) by {
      PlainDoesNotToggle(a);
      assert [a, b, c, d][1..] == [b, c, d];
      RewriteOutside([a, b, c, d], 0);
    }
    Regroup7(a, "$1", b, "?", c, "$2", d);
  }

  /** The statement of the test with one placeholder, up to the `?`. */
  const UnitTestHead := "SELECT * FROM Table WHERE ID = "

  lemma UnitTestHeadPlain()
    ensures PlainSql(UnitTestHead)
  {
    UnitTestHeadNoPlaceholder();
    UnitTestHeadNoQuote();
    UnitTestHeadNoBackslash();
  }

  lemma UnitTestHeadNoPlaceholder()
    ensures '?' !in UnitTestHead
  {
  }

  lemma UnitTestHeadNoQuote()
    ensures '\'' !in UnitTestHead
  {
  }

  lemma UnitTestHeadNoBackslash()
    ensures '\\' !in UnitTestHead
  {
  }

  /** The test statement with one placeholder. */
  lemma UnitTestSingle()
    ensures ReplacePlaceholders("SELECT * FROM Table WHERE ID = ?") == "SELECT * FROM Table WHERE ID = $1"
  {
    UnitTestHeadPlain();
    SinglePlaceholder(UnitTestHead, "");
    assert UnitTestHead + "?" + "" == "SELECT * FROM Table WHERE ID = ?";
    assert UnitTestHead + "$1" + "" == "SELECT * FROM Table WHERE ID = $1";
  }
}

=== FILE: enum_codec.dfy ===
/** Reading enum value lists back from the CHECK constraint PostgreSQL
    reports for an enum column (code/PostgreSQLSchemaManager.php: the enum
    decoding in `fieldList` and `enumValuesFromConstraint`). */
module EnumCodec {
  import opened Outcome
  import opened PhpStrings

  // ----- the quote scanner of fieldList ------------------------------------

  /** The character loop of `fieldList`: outside a value a quote opens one;
      inside, every character is collected and a quote closes the value,
      which is emitted without that quote. An unterminated value is
      dropped. */
  function ScanQuoted(s: string, inValue: bool, current: string): seq<string>
    decreases |s|
  {
    if |s| == 0 then []
    else
      var c := s[0];
      var cur := if inValue then current + [c] else current;
      if c != '\'' then ScanQuoted(s[1..], inValue, cur)
      else if !inValue then ScanQuoted(s[1..], true, cur)
      else [cur[..|cur| - 1]] + ScanQuoted(s[1..], false, "")
  }

  /** Every second piece of a quote-split text that is followed by another
      piece: the texts between the first and second quote, the third and
      fourth, and so on. */
  function ClosedQuotedPieces(pieces: seq<string>): seq<string>
    decreases |pieces|
  {
    if |pieces| < 3 then [] else [pieces[1]] + ClosedQuotedPieces(pieces[2..])
  }

  /** Outside a value, quote-free text is skipped. */
  lemma {:induction false} ScanSkipsPlain(p: string, rest: string)
    requires '\'' !in p
    ensures ScanQuoted(p + rest, false, "") == ScanQuoted(rest, false, "")
    decreases |p|
  {
    if |p| > 0 {
      assert (p + rest)[0] == p[0];
      assert (p + rest)[1..] == p[1..] + rest;
      ScanSkipsPlain(p[1..], rest);
    } else {
      assert p + rest == rest;
    }
  }

  /** Inside a value, quote-free text is collected up to the closing quote. */
  lemma {:induction false} ScanCollects(p: string, rest: string, current: string)
    requires '\'' !in p
    ensures ScanQuoted(p + "'" + rest, true, current) == [current + p] + ScanQuoted(rest, false, "")
    decreases |p|
  {
    var s := p + "'" + rest;
    if |p| > 0 {
      assert s[0] == p[0];
      assert s[1..] == p[1..] + "'" + rest;
      ScanCollects(p[1..], rest, current + [p[0]]);
      assert current + [p[0]] + p[1..] == current + p;
    } else {
      assert s[0] == '\'' && s[1..] == rest;
      assert current + p == current;
      assert (current + "'")[..|current|] == current;
    }
  }

  /** Quote-free text yields nothing, inside or outside a value. */
  lemma {:induction false} ScanPlainNothing(p: string, inValue: bool, current: string)
    requires '\'' !in p
    ensures ScanQuoted(p, inValue, current) == []
    decreases |p|
  {
    if |p| > 0 {
      ScanPlainNothing(p[1..], inValue, if inValue then current + [p[0]] else current);
    }
  }

  /** A text holding a quote splits at its first quote. */
  lemma SplitAtFirstQuote(s: string) returns (p: string, rest: string)
    requires '\'' in s
    ensures s == p + "'" + rest && '\'' !in p
    ensures Explode(s, "'") == [p] + Explode(rest, "'")
  {
    ContainsChar(s, '\'');
    var k := IndexOf(s, "'").value;
    p := s[..k];
    rest := s[k + 1..];
    assert s[k..k + 1] == "'";
    assert s == p + "'" + rest;
    forall j | 0 <= j < |p| ensures p[j] != '\'' {
      assert !OccursAt(s, "'", j);
      assert s[j..j + 1][0] == s[j];
    }
    ContainsChar(p, '\'');
    ExplodeAfterPiece(p, "'", rest);
  }

  /** Quote-free text and a quote open a value. */
  lemma ScanOpens(p: string, rest: string)
    requires '\'' !in p
    ensures ScanQuoted(p + "'" + rest, false, "") == ScanQuoted(rest, true, "")
  {
    ScanSkipsPlain(p, "'" + rest);
    assert p + ("'" + rest) == p + "'" + rest;
    assert ("'" + rest)[1..] == rest;
  }

  /** ClosedQuotedPieces on a split text, one step. */
  lemma ClosedPiecesStep(p: string, q: string, tail: seq<string>)
    requires |tail| >= 1
    ensures ClosedQuotedPieces([p, q] + tail) == [q] + ClosedQuotedPieces(tail)
  {
    assert ([p, q] + tail)[2..] == tail;
  }

  /** Two pieces in front of a list. */
  lemma PairInFront(p: string, q: string, tail: seq<string>)
    ensures [p] + ([q] + tail) == [p, q] + tail
  {
  }

  /** The scanner returns exactly the closed quoted pieces of the text. */
  lemma {:induction false} ScanIsClosedQuotedPieces(s: string)
    ensures ScanQuoted(s, false, "") == ClosedQuotedPieces(Explode(s, "'"))
    decreases |s|
  {
    if '\'' !in s {
      ScanNoQuote(s);
    } else {
      var p, rest := SplitAtFirstQuote(s);
      if '\'' !in rest {
        ScanOneQuote(s, p, rest);
      } else {
        var q, rest2 := SplitAtFirstQuote(rest);
        var pieces := Explode(rest2, "'");
        assert ScanQuoted(s, false, "") == [q] + ScanQuoted(rest2, false, "") by {
          ScanOpens(p, rest);
          ScanCollects(q, rest2, "");
          assert "" + q == q;
        }
        PairInFront(p, q, pieces);
        ClosedPiecesStep(p, q, pieces);
        ScanIsClosedQuotedPieces(rest2);
      }
    }
  }

  /** A text without quotes yields nothing either way. */
  lemma ScanNoQuote(s: string)
    requires '\'' !in s
    ensures ScanQuoted(s, false, "") == [] == ClosedQuotedPieces(Explode(s, "'"))
  {
    ContainsChar(s, '\'');
    ScanPlainNothing(s, false, "");
    ExplodeNoSeparator(s, "'");
  }

  /** A text with a single quote opens a value that is never closed. */
  lemma ScanOneQuote(s: string, p: string, rest: string)
    requires s == p + "'" + rest && '\'' !in p && '\'' !in rest
    requires Explode(s, "'") == [p] + Explode(rest, "'")
    ensures ScanQuoted(s, false, "") == [] == ClosedQuotedPieces(Explode(s, "'"))
  {
    assert ScanQuoted(s, false, "") == [] by {
      ScanOpens(p, rest);
      ScanPlainNothing(rest, true, "");
    }
    assert Explode(s, "'") == [p, rest] by {
      ContainsChar(rest, '\'');
      ExplodeNoSeparator(rest, "'");
    }
  }

  // ----- the constraint text PostgreSQL reports ----------------------------

  /** The cast PostgreSQL shows after each quoted option. */
  const CastSuffix: string := "::character varying"

  /** One enum option as `pg_get_constraintdef` shows it inside the array. */
  function CatalogItem(v: string): string {
    "'" + v + "'" + CastSuffix
  }

  /** The options, comma-separated, as they appear inside `ARRAY[…]`. */
  function CatalogItems(enums: seq<string>): string
    decreases |enums|
  {
    if |enums| == 0 then ""
    else if |enums| == 1 then CatalogItem(enums[0])
    else CatalogItem(enums[0]) + ", " + CatalogItems(enums[1..])
  }

  const ArrayOpen: string := "ANY (ARRAY["
  const ArrayClose: string := "]::text[]))"

  /** The reported text before the `=`: the column name cast to text. */
  function CastHead(name: string): string {
    "CHECK (\"" + name + "\"::text "
  }

  /** The reported text before `ANY (ARRAY[`. */
  function CheckHead(name: string): string {
    CastHead(name) + "=" + " "
  }

  /** The characters the fixed text of the head leaves out. */
  lemma HeadTextFree()
    ensures '[' !in "CHECK (\"\"::text " && '=' !in "CHECK (\"\"::text "
  {
  }

  /** A character that is in neither the column name nor the fixed text
      around it is not in the head. */
  lemma CastHeadFree(name: string, c: char)
    requires c !in name && c !in "CHECK (\"\"::text "
    ensures c !in CastHead(name)
  {
    var a := "CHECK (\"";
    var b := "\"::text ";
    var h := a + name + b;
    forall i | 0 <= i < |h| ensures h[i] != c {
      if i < |a| { assert h[i] == a[i] == (a + b)[i]; }
      else if i < |a| + |name| { assert h[i] == name[i - |a|]; }
      else { assert h[i] == b[i - |a| - |name|] == (a + b)[i - |name|]; }
    }
  }

  /** The definition PostgreSQL reports for the check constraint
      `check ("<name>" in ('v1', …))` that the enum formatter declares, in
      the form shown at code/PostgreSQLSchemaManager.php:563. */
  function CatalogCheck(name: string, enums: seq<string>): string {
    CheckHead(name) + ArrayOpen + CatalogItems(enums) + ArrayClose
  }

  /** An option both decoders recover: non-empty, no quote, comma or colon,
      no space at either end. */
  predicate PlainOption(v: string) {
    |v| > 0 && '\'' !in v && ',' !in v && ':' !in v && v[0] != ' ' && v[|v| - 1] != ' '
  }

  predicate PlainOptions(enums: seq<string>) {
    forall i :: 0 <= i < |enums| ==> PlainOption(enums[i])
  }

  // ----- fieldList's decoding ----------------------------------------------

  /** The enum options `fieldList` reads from a constraint definition: the
      text from the first `=` (all of it when there is none), with doubled
      quotes collapsed, scanned for quoted values. */
  function DecodeCheckValues(def: string): seq<string>
  {
    var value := def[IndexOf(def, "=").GetOr(0)..];
    ScanQuoted(ReplaceAll(value, "''", "'"), false, "")
  }

  /** The default `fieldList` reads from `column_default`: the text before
      `::` trimmed of quotes; empty when there is no `::` (a length of
      `false`) or no default. */
  function DecodeDefault(columnDefault: Option<string>): string
  {
    match columnDefault
    case None => ""
    case Some(cd) =>
      match IndexOf(cd, "::")
      case None => ""
      case Some(k) => Trim(cd[..k], {'\''})
  }

  /** The default as PostgreSQL reports it for `default '<d>'` on a
      character varying column. */
  function CatalogDefault(d: string): string {
    "'" + d + "'" + CastSuffix
  }

  /** A quoted default with no quote or colon inside reads back as itself. */
  lemma DecodeCatalogDefault(d: string)
    requires |d| > 0 && '\'' !in d && ':' !in d
    ensures DecodeDefault(Some(CatalogDefault(d))) == d
  {
    var pre := "'" + d + "'";
    var cd := CatalogDefault(d);
    assert cd == pre + "::" + CastSuffix[2..];
    assert ':' !in pre;
    IndexOfAfterHeadFree(pre, "::", CastSuffix[2..]);
    assert cd[..|pre|] == pre;
    QuoteTrimmed(d);
  }

  lemma QuoteTrimmed(d: string)
    requires |d| > 0 && '\'' !in d
    ensures Trim("'" + d + "'", {'\''}) == d
  {
    assert d[0] != '\'' && d[|d| - 1] != '\'';
    TrimWrapped("'", d, "'", {'\''});
  }

  /** Quote-free text passes through the collapsing of doubled quotes. */
  lemma {:induction false} CollapseSkipsPlain(p: string, rest: string)
    requires '\'' !in p
    ensures ReplaceAll(p + rest, "''", "'") == p + ReplaceAll(rest, "''", "'")
    decreases |p|
  {
    if |p| > 0 {
      var s := p + rest;
      assert ReplaceAll(s, "''", "'") == [p[0]] + ReplaceAll(p[1..] + rest, "''", "'") by {
        ConcatHeadTail(p, rest);
        NotPrefixByHead("''", s);
        ReplaceAllNoMatch(s, "''", "'");
      }
      CollapseSkipsPlain(p[1..], rest);
      ConcatHeadTail(p, ReplaceAll(rest, "''", "'"));
    } else {
      assert p + rest == rest;
    }
  }

  /** A quote not followed by another passes through the collapsing. */
  lemma CollapseKeepsLoneQuote(rest: string)
    requires |rest| > 0 && rest[0] != '\''
    ensures ReplaceAll("'" + rest, "''", "'") == "'" + ReplaceAll(rest, "''", "'")
  {
    var s := "'" + rest;
    assert s[..2][1] == rest[0];
    assert !("''" <= s);
    assert s[1..] == rest;
  }

  /** One reported option passes through the collapsing unchanged. */
  lemma {:induction false} CollapseItem(v: string, after: string)
    requires PlainOption(v)
    ensures ReplaceAll(CatalogItem(v) + after, "''", "'") == CatalogItem(v) + ReplaceAll(after, "''", "'")
  {
    var r := ReplaceAll(after, "''", "'");
    CollapseCast(after);
    CollapseQuoted(v, CastSuffix + after, CastSuffix + r);
    RightAssoc5("'", v, "'", CastSuffix, after);
    RightAssoc5("'", v, "'", CastSuffix, r);
  }

  /** The cast passes through the collapsing. */
  lemma CollapseCast(after: string)
    ensures ReplaceAll(CastSuffix + after, "''", "'") == CastSuffix + ReplaceAll(after, "''", "'")
    ensures (CastSuffix + after)[0] == ':'
  {
    assert '\'' !in CastSuffix;
    CollapseSkipsPlain(CastSuffix, after);
  }

  /** A quoted plain option passes through the collapsing when what
      follows its closing quote does not start with a quote. */
  lemma CollapseQuoted(v: string, t: string, rt: string)
    requires PlainOption(v)
    requires |t| > 0 && t[0] != '\''
    requires ReplaceAll(t, "''", "'") == rt
    ensures ReplaceAll("'" + (v + ("'" + t)), "''", "'") == "'" + (v + ("'" + rt))
  {
    assert ReplaceAll("'" + t, "''", "'") == "'" + rt by {
      CollapseKeepsLoneQuote(t);
    }
    assert ReplaceAll(v + ("'" + t), "''", "'") == v + ("'" + rt) by {
      CollapseSkipsPlain(v, "'" + t);
    }
    assert (v + ("'" + t))[0] == v[0];
    CollapseKeepsLoneQuote(v + ("'" + t));
  }

  /** The options as listed inside the array, one step. */
  lemma {:induction false} CatalogItemsCons(enums: seq<string>, tail: string)
    requires |enums| > 0
    ensures CatalogItems(enums) + tail
         == CatalogItem(enums[0]) + (if |enums| == 1 then tail else ", " + (CatalogItems(enums[1..]) + tail))
  {
    var a := CatalogItem(enums[0]);
    if |enums| > 1 {
      var b := CatalogItems(enums[1..]);
      assert CatalogItems(enums) == a + ", " + b;
      assert a + ", " + b + tail == a + (", " + (b + tail));
    } else {
      assert CatalogItems(enums) == a;
    }
  }

  lemma PlainOptionsTail(enums: seq<string>)
    requires |enums| > 0 && PlainOptions(enums)
    ensures PlainOption(enums[0]) && PlainOptions(enums[1..])
  {
    forall i | 0 <= i < |enums[1..]| ensures PlainOption(enums[1..][i]) {
      assert enums[1..][i] == enums[i + 1];
    }
  }

  /** The reported options hold no doubled quote. */
  lemma {:induction false} CollapseItems(enums: seq<string>, tail: string)
    requires PlainOptions(enums)
    ensures ReplaceAll(CatalogItems(enums) + tail, "''", "'") == CatalogItems(enums) + ReplaceAll(tail, "''", "'")
    decreases |enums|
  {
    if |enums| == 0 {
      assert CatalogItems(enums) + tail == tail;
    } else {
      PlainOptionsTail(enums);
      var v := enums[0];
      var r := ReplaceAll(tail, "''", "'");
      if |enums| == 1 {
        assert CatalogItems(enums) + tail == CatalogItem(v) + tail by {
          CatalogItemsCons(enums, tail);
        }
        assert CatalogItems(enums) + r == CatalogItem(v) + r by {
          CatalogItemsCons(enums, r);
        }
        CollapseItem(v, tail);
      } else {
        var more := CatalogItems(enums[1..]);
        assert CatalogItems(enums) + tail == CatalogItem(v) + (", " + (more + tail)) by {
          CatalogItemsCons(enums, tail);
        }
        assert CatalogItems(enums) + r == CatalogItem(v) + (", " + (more + r)) by {
          CatalogItemsCons(enums, r);
        }
        assert ReplaceAll(", " + (more + tail), "''", "'") == ", " + (more + r) by {
          CollapseItems(enums[1..], tail);
          CollapseSkipsPlain(", ", more + tail);
        }
        CollapseItem(v, ", " + (more + tail));
      }
    }
  }

  /** A quote opens a value. */
  lemma ScanOpenQuote(rest: string)
    ensures ScanQuoted("'" + rest, false, "") == ScanQuoted(rest, true, "")
  {
    assert ("'" + rest)[0] == '\'';
    assert ("'" + rest)[1..] == rest;
  }

  /** Scanning one reported option yields the option. */
  lemma {:induction false} ScanItem(v: string, after: string)
    requires PlainOption(v)
    ensures ScanQuoted(CatalogItem(v) + after, false, "") == [v] + ScanQuoted(after, false, "")
  {
    var t := CastSuffix + after;
    assert ScanQuoted(t, false, "") == ScanQuoted(after, false, "") by {
      assert '\'' !in CastSuffix;
      ScanSkipsPlain(CastSuffix, after);
    }
    assert ScanQuoted(v + "'" + t, true, "") == [v] + ScanQuoted(t, false, "") by {
      ScanCollects(v, t, "");
      assert "" + v == v;
    }
    assert CatalogItem(v) + after == "'" + (v + "'" + t);
    ScanOpenQuote(v + "'" + t);
  }

  /** Scanning the reported options yields the options, in order. */
  lemma {:induction false} ScanItems(enums: seq<string>, tail: string)
    requires PlainOptions(enums)
    ensures ScanQuoted(CatalogItems(enums) + tail, false, "") == enums + ScanQuoted(tail, false, "")
    decreases |enums|
  {
    if |enums| == 0 {
      assert CatalogItems(enums) + tail == tail;
    } else if |enums| == 1 {
      ScanLastItem(enums, tail);
    } else {
      PlainOptionsTail(enums);
      ScanItems(enums[1..], tail);
      ScanItemsStep(enums, tail);
    }
  }

  /** The last option scans to itself. */
  lemma ScanLastItem(enums: seq<string>, tail: string)
    requires |enums| == 1 && PlainOptions(enums)
    ensures ScanQuoted(CatalogItems(enums) + tail, false, "") == enums + ScanQuoted(tail, false, "")
  {
    var v := enums[0];
    assert PlainOption(v);
    assert CatalogItems(enums) + tail == CatalogItem(v) + tail by {
      CatalogItemsCons(enums, tail);
    }
    ScanItem(v, tail);
    assert enums == [v];
  }

  /** One option in front of the others adds itself to what they scan to. */
  lemma ScanItemsStep(enums: seq<string>, tail: string)
    requires |enums| > 1 && PlainOption(enums[0])
    requires ScanQuoted(CatalogItems(enums[1..]) + tail, false, "") == enums[1..] + ScanQuoted(tail, false, "")
    ensures ScanQuoted(CatalogItems(enums) + tail, false, "") == enums + ScanQuoted(tail, false, "")
  {
    var v := enums[0];
    var more := CatalogItems(enums[1..]);
    var rest := ScanQuoted(tail, false, "");
    assert CatalogItems(enums) + tail == CatalogItem(v) + (", " + (more + tail)) by {
      CatalogItemsCons(enums, tail);
    }
    ScanNextItem(v, more + tail, enums[1..] + rest);
    assert [v] + (enums[1..] + rest) == enums + rest;
  }

  /** An option followed by `, ` and more text scans to the option and
      what the text scans to. */
  lemma ScanNextItem(v: string, after: string, found: seq<string>)
    requires PlainOption(v)
    requires ScanQuoted(after, false, "") == found
    ensures ScanQuoted(CatalogItem(v) + (", " + after), false, "") == [v] + found
  {
    ScanSkipsPlain(", ", after);
    ScanItem(v, ", " + after);
  }

  /** Only the text from the first `=` on is decoded. */
  lemma CheckValuesFromEquals(pre: string, rest: string)
    requires '=' !in pre
    ensures DecodeCheckValues(pre + "=" + rest) == ScanQuoted(ReplaceAll("=" + rest, "''", "'"), false, "")
  {
    IndexOfAfterHeadFree(pre, "=", rest);
    assert (pre + "=" + rest)[|pre|..] == "=" + rest;
  }

  /** The reported array of options, from the `=` on, scans to the options. */
  lemma ScanCatalogArray(enums: seq<string>)
    requires PlainOptions(enums)
    ensures ScanQuoted(ReplaceAll("=" + (" " + ArrayOpen + CatalogItems(enums) + ArrayClose), "''", "'"), false, "") == enums
  {
    var lead := "=" + " " + ArrayOpen;
    var body := CatalogItems(enums) + ArrayClose;
    RegroupAfterThird("=", " ", ArrayOpen, CatalogItems(enums), ArrayClose);
    assert '\'' !in lead;
    CollapseCatalogArray(lead, enums);
    ScanCatalogBody(lead, enums);
  }

  /** The reported array holds no doubled quote. */
  lemma CollapseCatalogArray(lead: string, enums: seq<string>)
    requires PlainOptions(enums) && '\'' !in lead
    ensures ReplaceAll(lead + (CatalogItems(enums) + ArrayClose), "''", "'") == lead + (CatalogItems(enums) + ArrayClose)
  {
    var body := CatalogItems(enums) + ArrayClose;
    assert ReplaceAll(body, "''", "'") == body by {
      assert '\'' !in ArrayClose;
      CollapseItems(enums, ArrayClose);
      CollapseSkipsPlain(ArrayClose, "");
      assert ArrayClose + "" == ArrayClose;
    }
    CollapseSkipsPlain(lead, body);
  }

  /** The reported array scans to its options. */
  lemma ScanCatalogBody(lead: string, enums: seq<string>)
    requires PlainOptions(enums) && '\'' !in lead
    ensures ScanQuoted(lead + (CatalogItems(enums) + ArrayClose), false, "") == enums
  {
    var body := CatalogItems(enums) + ArrayClose;
    assert ScanQuoted(body, false, "") == enums by {
      assert '\'' !in ArrayClose;
      ScanItems(enums, ArrayClose);
      ScanPlainNothing(ArrayClose, false, "");
      assert enums + [] == enums;
    }
    ScanSkipsPlain(lead, body);
  }

  /** `fieldList` reads back the options of the constraint PostgreSQL
      reports for an enum column, in order, provided the column name holds
      no `=` and every option is plain. */
  lemma DecodeCatalogCheck(name: string, enums: seq<string>)
    requires '=' !in name
    requires PlainOptions(enums)
    ensures DecodeCheckValues(CatalogCheck(name, enums)) == enums
  {
    var pre := CastHead(name);
    var rest := " " + ArrayOpen + CatalogItems(enums) + ArrayClose;
    HeadTextFree();
    CastHeadFree(name, '=');
    assert CatalogCheck(name, enums) == pre + "=" + rest;
    CheckValuesFromEquals(pre, rest);
    ScanCatalogArray(enums);
  }

  /** The definition PostgreSQL reports when the list holds a single
      option: `CHECK ("<name>"::text = '<v>'::text)`, the form shown at
      code/PostgreSQLSchemaManager.php:564. */
  function SingleOptionCheck(name: string, v: string): string {
    CastHead(name) + "=" + " " + "'" + v + "'" + TextCastClose
  }

  /** The cast and the closing parenthesis after the single option. */
  const TextCastClose: string := "::text)"

  /** `fieldList` reads the single option back from that form too. */
  lemma DecodeSingleOptionCheck(name: string, v: string)
    requires '=' !in name
    requires PlainOption(v)
    ensures DecodeCheckValues(SingleOptionCheck(name, v)) == [v]
  {
    var pre := CastHead(name);
    var item := "'" + (v + ("'" + TextCastClose));
    HeadTextFree();
    CastHeadFree(name, '=');
    assert SingleOptionCheck(name, v) == pre + "=" + (" " + item);
    CheckValuesFromEquals(pre, " " + item);
    assert "=" + (" " + item) == "= " + item;
    assert ReplaceAll("= " + item, "''", "'") == "= " + item by {
      assert ReplaceAll(TextCastClose, "''", "'") == TextCastClose by {
        CollapseSkipsPlain(TextCastClose, "");
        assert TextCastClose + "" == TextCastClose;
      }
      CollapseQuoted(v, TextCastClose, TextCastClose);
      CollapseSkipsPlain("= ", item);
    }
    assert ScanQuoted("= " + item, false, "") == [v] by {
      ScanSkipsPlain("= ", item);
      ScanOpenQuote(v + ("'" + TextCastClose));
      assert v + ("'" + TextCastClose) == v + "'" + TextCastClose;
      ScanCollects(v, TextCastClose, "");
      ScanPlainNothing(TextCastClose, false, "");
      assert "" + v == v && [v] + [] == [v];
    }
  }

  // ----- enumValuesFromConstraint ------------------------------------------

  /** The first piece of `preg_split` on a `::` with any spaces around it: the text before the first `::`,
      less the spaces just before it; the whole text when there is none. */
  function BeforeCast(seg: string): string {
    match IndexOf(seg, "::")
    case None => seg
    case Some(q) => TrimRight(seg[..q], {' '})
  }

  /** One segment's value: `trim($bits[0], " '")`. */
  function DecodeSegment(seg: string): string {
    Trim(BeforeCast(seg), {' ', '\''})
  }

  /** The `foreach` with `array_unshift`: each item is put in front of
      those before it. */
  function Unshift<T>(acc: seq<T>, items: seq<T>): seq<T>
    decreases |items|
  {
    if |items| == 0 then acc else Unshift([items[0]] + acc, items[1..])
  }

  /** `enumValuesFromConstraint`: the text after `ANY (ARRAY[` (after the
      11th character when that is missing, as `false + 11` is 11), less its
      last 11 characters, split at commas and decoded segment by segment. */
  function EnumValuesFromConstraint(constraint: string): seq<string>
  {
    Unshift([], DecodeAll(Explode(ArrayBody(constraint), ",")))
  }

  /** The text between `ANY (ARRAY[` and the last 11 characters. */
  function ArrayBody(constraint: string): string {
    var start := match IndexOf(constraint, ArrayOpen) case None => 0 case Some(i) => i;
    DropLast(SubstrFrom(constraint, start + |ArrayOpen|), |ArrayClose|)
  }

  /** The segments decoded one by one, in order. */
  function DecodeAll(segments: seq<string>): (r: seq<string>)
    ensures |r| == |segments|
    decreases |segments|
  {
    if |segments| == 0 then [] else [DecodeSegment(segments[0])] + DecodeAll(segments[1..])
  }

  function Reverse<T>(xs: seq<T>): (r: seq<T>)
    ensures |r| == |xs|
    decreases |xs|
  {
    if |xs| == 0 then [] else Reverse(xs[1..]) + [xs[0]]
  }

  /** `Reverse` puts the i-th element from the end at position i. */
  lemma {:induction false} ReverseIndex<T>(xs: seq<T>, i: nat)
    requires i < |xs|
    ensures Reverse(xs)[i] == xs[|xs| - 1 - i]
    decreases |xs|
  {
    if i < |xs| - 1 {
      ReverseIndex(xs[1..], i);
    }
  }

  /** Reversing a list with a new head puts that head last. */
  lemma ReverseCons<T>(x: T, xs: seq<T>)
    ensures Reverse([x] + xs) == Reverse(xs) + [x]
  {
    assert ([x] + xs)[1..] == xs;
  }

  /** The unshifting loop returns the items in reverse order, ahead of
      what it started with. */
  lemma {:induction false} UnshiftReverses<T>(acc: seq<T>, items: seq<T>)
    ensures Unshift(acc, items) == Reverse(items) + acc
    decreases |items|
  {
    if |items| > 0 {
      UnshiftReverses([items[0]] + acc, items[1..]);
      assert items == [items[0]] + items[1..];
      ReverseCons(items[0], items[1..]);
      assert Reverse(items[1..]) + ([items[0]] + acc) == (Reverse(items[1..]) + [items[0]]) + acc;
    } else {
      assert Reverse(items) + acc == acc;
    }
  }

  /** The comma-split segments of the reported options: each option, the
      ones after the first with the space that followed the comma. */
  function CatalogSegments(lead: string, enums: seq<string>): seq<string>
    decreases |enums|
  {
    if |enums| == 0 then [] else [lead + CatalogItem(enums[0])] + CatalogSegments(" ", enums[1..])
  }

  /** Splitting the reported options at commas gives their segments. */
  lemma {:induction false} ExplodeCatalogItems(lead: string, enums: seq<string>)
    requires |enums| > 0 && PlainOptions(enums) && ',' !in lead
    ensures Explode(lead + CatalogItems(enums), ",") == CatalogSegments(lead, enums)
    decreases |enums|
  {
    PlainOptionsTail(enums);
    var first := lead + CatalogItem(enums[0]);
    assert ',' !in first by {
      assert first == lead + "'" + enums[0] + "'" + CastSuffix;
      assert ',' !in CastSuffix;
    }
    ContainsChar(first, ',');
    if |enums| == 1 {
      assert lead + CatalogItems(enums) == first;
      ExplodeNoSeparator(first, ",");
      assert CatalogSegments(" ", enums[1..]) == [];
    } else {
      var more := CatalogItems(enums[1..]);
      assert lead + CatalogItems(enums) == first + "," + (" " + more);
      ExplodeAfterPiece(first, ",", " " + more);
      ExplodeCatalogItems(" ", enums[1..]);
    }
  }

  /** One reported segment decodes to its option. */
  lemma DecodeCatalogSegment(lead: string, v: string)
    requires lead == "" || lead == " "
    requires PlainOption(v)
    ensures DecodeSegment(lead + CatalogItem(v)) == v
  {
    SegmentBeforeCast(lead, v);
    TrimQuotedOption(lead, v);
  }

  /** The text before the cast of a segment is the quoted option. */
  lemma SegmentBeforeCast(lead: string, v: string)
    requires lead == "" || lead == " "
    requires PlainOption(v)
    ensures BeforeCast(lead + CatalogItem(v)) == lead + "'" + v + "'"
  {
    var pre := lead + "'" + v + "'";
    SegmentShape(lead, v);
    assert ':' !in pre && pre[|pre| - 1] == '\'';
    BeforeCastAt(pre, CastSuffix[2..]);
  }

  /** A segment is the quoted option, `::` and the rest of the cast. */
  lemma SegmentShape(lead: string, v: string)
    ensures lead + CatalogItem(v) == lead + "'" + v + "'" + "::" + CastSuffix[2..]
  {
    var rest := CastSuffix[2..];
    assert CastSuffix == "::" + rest;
    RightAssoc5(lead, "'", v, "'", CastSuffix);
    RightAssoc5(lead, "'", v, "'", "::" + rest);
  }

  /** The text before a first `::` that no space precedes. */
  lemma BeforeCastAt(pre: string, rest: string)
    requires ':' !in pre && |pre| > 0 && pre[|pre| - 1] != ' '
    ensures BeforeCast(pre + "::" + rest) == pre
  {
    var seg := pre + "::" + rest;
    assert IndexOf(seg, "::") == Some(|pre|) by {
      IndexOfAfterHeadFree(pre, "::", rest);
    }
    assert seg[..|pre|] == pre;
  }

  /** Trimming spaces and quotes off a quoted plain option leaves the option. */
  lemma TrimQuotedOption(lead: string, v: string)
    requires lead == "" || lead == " "
    requires PlainOption(v)
    ensures Trim(lead + "'" + v + "'", {' ', '\''}) == v
  {
    var open := lead + "'";
    assert forall i :: 0 <= i < |open| ==> open[i] in {' ', '\''};
    assert forall i :: 0 <= i < |"'"| ==> "'"[i] in {' ', '\''};
    assert v[0] !in {' ', '\''} && v[|v| - 1] !in {' ', '\''};
    assert lead + "'" + v + "'" == open + v + "'";
    TrimWrapped(open, v, "'", {' ', '\''});
  }

  /** Decoding the segments of the reported options recovers the options. */
  lemma {:induction false} DecodeCatalogSegments(lead: string, enums: seq<string>)
    requires lead == "" || lead == " "
    requires PlainOptions(enums)
    ensures DecodeAll(CatalogSegments(lead, enums)) == enums
    decreases |enums|
  {
    if |enums| > 0 {
      PlainOptionsTail(enums);
      var segs := CatalogSegments(lead, enums);
      assert DecodeAll(segs) == [DecodeSegment(lead + CatalogItem(enums[0]))] + DecodeAll(CatalogSegments(" ", enums[1..])) by {
        assert segs[0] == lead + CatalogItem(enums[0]);
        assert segs[1..] == CatalogSegments(" ", enums[1..]);
      }
      DecodeCatalogSegment(lead, enums[0]);
      DecodeCatalogSegments(" ", enums[1..]);
      HeadAndTail(enums);
    }
  }

  /** A non-empty list is its head followed by its tail. */
  lemma HeadAndTail<T>(xs: seq<T>)
    requires |xs| > 0
    ensures xs == [xs[0]] + xs[1..]
  {
  }

  /** Whatever follows `ANY (ARRAY[` and precedes the closing text is what
      gets split, provided no `[` comes before the opening. */
  lemma ConstraintInner(pre: string, items: string)
    requires '[' !in pre
    ensures ArrayBody(pre + ArrayOpen + items + ArrayClose) == items
  {
    var rest := items + ArrayClose;
    var c := pre + ArrayOpen + rest;
    assert pre + ArrayOpen + items + ArrayClose == c;
    assert ArrayOpen[|ArrayOpen| - 1] == '[' && '[' !in ArrayOpen[..|ArrayOpen| - 1];
    IndexOfAfterFree(pre, ArrayOpen, rest);
    assert c[|pre| + |ArrayOpen|..] == rest;
    assert rest[..|rest| - |ArrayClose|] == items;
  }

  /** The reported option list, split at commas and decoded, gives back the
      options in order. */
  lemma DecodeCatalogItems(enums: seq<string>)
    requires |enums| > 0 && PlainOptions(enums)
    ensures DecodeAll(Explode(CatalogItems(enums), ",")) == enums
  {
    ExplodeCatalogItems("", enums);
    assert "" + CatalogItems(enums) == CatalogItems(enums);
    DecodeCatalogSegments("", enums);
  }

  /** Only the option list between `ANY (ARRAY[` and the closing text is
      split and decoded. */
  lemma CatalogCheckBody(name: string, enums: seq<string>)
    requires '[' !in name
    ensures EnumValuesFromConstraint(CatalogCheck(name, enums)) == Unshift([], DecodeAll(Explode(CatalogItems(enums), ",")))
  {
    var pre := CheckHead(name);
    HeadTextFree();
    CastHeadFree(name, '[');
    assert '[' !in pre;
    ConstraintInner(pre, CatalogItems(enums));
  }

  /** An empty option list splits into one empty segment. */
  lemma EmptyItemsDecode()
    ensures Unshift([], DecodeAll(Explode(CatalogItems([]), ","))) == [""]
  {
    ContainsChar("", ',');
    ExplodeNoSeparator("", ",");
    assert DecodeSegment("") == "" by {
      assert !Contains("", "::");
    }
    assert DecodeAll([""]) == [""];
    assert Unshift([], [""]) == Unshift([""], []);
  }

  /** A text free of `[` holds no `ANY (ARRAY[`. */
  lemma NoArrayOpen(c: string)
    requires '[' !in c
    ensures IndexOf(c, ArrayOpen) == None
  {
    assert ArrayOpen[10] == '[';
  }

  /** What `enumValuesFromConstraint` splits when the definition has no
      `ANY (ARRAY[`: the text from its 12th character up to the last 11,
      which for the single-option form cuts three characters off the
      front of the column name and three off the end of the option. */
  lemma SingleOptionBody(name: string, v: string)
    requires '[' !in name && '[' !in v
    requires |name| >= 3 && |v| >= 3
    ensures ArrayBody(SingleOptionCheck(name, v)) == name[3..] + "\"::text = '" + v[..|v| - 3]
  {
    var c := SingleOptionCheck(name, v);
    var inner := name[3..] + "\"::text = '" + v[..|v| - 3];
    assert c == "CHECK (\"" + name[..3] + inner + v[|v| - 3..] + "'" + TextCastClose;
    assert '[' !in c;
    NoArrayOpen(c);
    var from := c[|ArrayOpen|..];
    assert from == inner + v[|v| - 3..] + "'" + TextCastClose;
    assert from[..|from| - |ArrayClose|] == inner;
  }

  /** `enumValuesFromConstraint` does not read the single-option form: it
      returns one value, the column name less its first three characters
      followed by a double quote (`ssName"` for `ClassName`). */
  lemma EnumValuesFromSingleOption(name: string, v: string)
    requires |name| >= 3 && |v| >= 3
    requires forall c :: c in name ==> c !in {'[', ',', ':', ' ', '\''}
    requires '[' !in v && ',' !in v
    ensures EnumValuesFromConstraint(SingleOptionCheck(name, v)) == [name[3..] + "\""]
  {
    SingleOptionSplit(name, v);
    SingleOptionDecode(name, v);
    OneSegment(SingleOptionCheck(name, v), SingleOptionSegment(name, v));
  }

  /** The one segment split from the single-option form. */
  function SingleOptionSegment(name: string, v: string): string
    requires |name| >= 3 && |v| >= 3
  {
    name[3..] + "\"" + "::" + ("text = '" + v[..|v| - 3])
  }

  lemma SingleOptionSplit(name: string, v: string)
    requires |name| >= 3 && |v| >= 3
    requires '[' !in name && ',' !in name && '[' !in v && ',' !in v
    ensures Explode(ArrayBody(SingleOptionCheck(name, v)), ",") == [SingleOptionSegment(name, v)]
  {
    var body := SingleOptionSegment(name, v);
    SingleOptionBody(name, v);
    assert name[3..] + "\"::text = '" + v[..|v| - 3] == body;
    SingleOptionCommaFree(name, v);
    ContainsChar(body, ',');
    ExplodeNoSeparator(body, ",");
  }

  lemma SingleOptionDecode(name: string, v: string)
    requires |name| >= 3 && |v| >= 3
    requires forall c :: c in name ==> c !in {'[', ',', ':', ' ', '\''}
    ensures DecodeSegment(SingleOptionSegment(name, v)) == name[3..] + "\""
  {
    NameTailFree(name);
    DecodeQuoteFreeSegment(name[3..] + "\"", "text = '" + v[..|v| - 3]);
  }

  /** A definition whose split text is a single segment yields that
      segment's value alone. */
  lemma OneSegment(c: string, body: string)
    requires Explode(ArrayBody(c), ",") == [body]
    ensures EnumValuesFromConstraint(c) == [DecodeSegment(body)]
  {
    assert DecodeAll([body]) == [DecodeSegment(body)];
    assert Unshift([], [DecodeSegment(body)]) == Unshift([DecodeSegment(body)], []);
  }

  /** The column name less three characters, and a double quote, has no
      colon, space or quote. */
  lemma NameTailFree(name: string)
    requires |name| >= 3 && forall c :: c in name ==> c !in {'[', ',', ':', ' ', '\''}
    ensures forall c :: c in name[3..] + "\"" ==> c !in {':', ' ', '\''}
  {
    forall c | c in name[3..] + "\"" ensures c !in {':', ' ', '\''} {
      if c in name[3..] { assert c in name; }
    }
  }

  /** The text split for the single-option form holds no comma. */
  lemma SingleOptionCommaFree(name: string, v: string)
    requires |name| >= 3 && |v| >= 3 && ',' !in name && ',' !in v
    ensures ',' !in name[3..] + "\"" + "::" + ("text = '" + v[..|v| - 3])
  {
    assert forall i :: 0 <= i < |v| - 3 ==> v[..|v| - 3][i] == v[i];
    assert forall i :: 3 <= i < |name| ==> name[3..][i - 3] == name[i];
  }

  /** A segment whose text before `::` has no colon and no space or quote
      at either end decodes to that text. */
  lemma DecodeQuoteFreeSegment(pre: string, rest: string)
    requires |pre| > 0 && forall c :: c in pre ==> c !in {':', ' ', '\''}
    ensures DecodeSegment(pre + "::" + rest) == pre
  {
    assert pre[|pre| - 1] in pre && pre[0] in pre;
    BeforeCastAt(pre, rest);
    TrimUntouched(pre, {' ', '\''});
  }

  /** `enumValuesFromConstraint` reads the options of the reported
      constraint back in REVERSE order, provided the column name holds no
      `[` and every option is plain; an empty list, reported as `ARRAY[]`,
      reads as a single empty option. */
  lemma EnumValuesFromCatalogCheck(name: string, enums: seq<string>)
    requires '[' !in name
    requires PlainOptions(enums)
    ensures EnumValuesFromConstraint(CatalogCheck(name, enums)) == if |enums| == 0 then [""] else Reverse(enums)
  {
    CatalogCheckBody(name, enums);
    if |enums| == 0 {
      EmptyItemsDecode();
    } else {
      DecodeCatalogItems(enums);
      UnshiftReverses([], enums);
      assert Reverse(enums) + [] == Reverse(enums);
    }
  }

}

=== FILE: field_list.dfy ===
/** The pure part of `fieldList` (code/PostgreSQLSchemaManager.php): how
    each row of `information_schema.columns`, together with the check
    constraint found for it, becomes the column specification the schema
    comparison works with. The catalog queries themselves are inputs. */
module FieldList {
  import opened Outcome
  import opened PhpStrings
  import opened PhpValues
  import opened TypeCodec
  import opened EnumCodec

  /** One row of `information_schema.columns`, as far as `fieldList` reads
      it; `columnDefault` is `None` when the column has no default. */
  datatype ColumnRow = ColumnRow(
    name: string,
    dataType: string,
    columnDefault: Option<string>,
    maxLength: PhpValue,
    numericPrecision: PhpValue,
    numericScale: PhpValue)

  /** What `fieldList` records for a column: a DDL specification, or the
      catalog row itself for a type it does not translate. */
  datatype FieldSpec = Spec(sql: string) | Row(row: ColumnRow)

  /** `$field['column_default']` as a PHP value. */
  function DefaultValue(row: ColumnRow): PhpValue {
    match row.columnDefault
    case None => Null
    case Some(d) => Str(d)
  }

  /** The name of the check constraint the enum formatter's column gets:
      `<table>_<column>_check`. */
  function CheckName(table: string, column: string): string {
    table + "_" + column + "_check"
  }

  /** A `character varying` column with a check constraint: the options
      and default are decoded and fed back to the enum formatter; nothing
      is recorded when the constraint holds no quoted value. */
  function EnumEntry(row: ColumnRow, definition: string): (r: Option<FieldSpec>)
    ensures r.None? <==> DecodeCheckValues(definition) == []
    ensures r.Some? ==>
              r.value == Spec(Enum(FieldValues(Str(DecodeDefault(row.columnDefault)), None, Null, row.name, DecodeCheckValues(definition))).sql)
  {
    var enums := DecodeCheckValues(definition);
    if |enums| > 0 then
      Some(Spec(Enum(FieldValues(Str(DecodeDefault(row.columnDefault)), None, Null, row.name, enums)).sql))
    else None
  }

  /** The `data_type` values `fieldList` distinguishes. */
  datatype ColumnType =
    | CharacterVarying | Numeric | IntegerType | Timestamp | SmallInt | TimeOfDay | DoublePrecision
    | Untranslated

  /** The `case` label a `data_type` matches (PHP's `switch` compares
      loosely, which for these non-numeric labels is string equality). */
  function Classify(dataType: string): ColumnType {
    if dataType == "character varying" then CharacterVarying
    else if dataType == "numeric" then Numeric
    else if dataType == "integer" then IntegerType
    else if dataType == "timestamp without time zone" then Timestamp
    else if dataType == "smallint" then SmallInt
    else if dataType == "time without time zone" then TimeOfDay
    else if dataType == "double precision" then DoublePrecision
    else Untranslated
  }

  /** ` default <(int) column_default>`. */
  function IntDefault(row: ColumnRow): string {
    DefaultKeyword + IntToString(IntCast(DefaultValue(row)))
  }

  /** The `switch` on `data_type` for one column, given the definition of
      its `<table>_<column>_check` constraint when one exists. */
  function FieldEntry(row: ColumnRow, constraint: Option<string>): Option<FieldSpec>
  {
    match Classify(row.dataType)
    case CharacterVarying =>
      (match constraint
       case Some(definition) => EnumEntry(row, definition)
       case None => Some(Spec("varchar(" + ToPhpString(row.maxLength) + ")")))
    case Numeric =>
      Some(Spec("decimal(" + ToPhpString(row.numericPrecision) + "," + ToPhpString(row.numericScale) + ")" + IntDefault(row)))
    case IntegerType => Some(Spec("integer" + IntDefault(row)))
    case Timestamp => Some(Spec("timestamp"))
    case SmallInt => Some(Spec("smallint" + IntDefault(row)))
    case TimeOfDay => Some(Spec("time"))
    case DoublePrecision => Some(Spec("float"))
    case Untranslated => Some(Row(row))
  }

  /** Every column gets an entry except a constrained `character varying`
      one whose constraint holds no quoted value; a column of a type not
      listed keeps its catalog row. */
  lemma FieldEntryShape(row: ColumnRow, constraint: Option<string>)
    ensures FieldEntry(row, constraint).None? <==>
              Classify(row.dataType) == CharacterVarying && constraint.Some? && DecodeCheckValues(constraint.value) == []
    ensures FieldEntry(row, constraint) == Some(Row(row)) <==> Classify(row.dataType) == Untranslated
  {
  }

  /** The whole loop: rows in ordinal order, each stored under its column
      name, a later row of the same name replacing an earlier one. */
  function FieldList(table: string, rows: seq<ColumnRow>, constraints: map<string, string>): (r: map<string, FieldSpec>)
    ensures forall k :: k in r ==> exists i :: 0 <= i < |rows| && rows[i].name == k
    decreases |rows|
  {
    if |rows| == 0 then map[]
    else
      var last := rows[|rows| - 1];
      var before := FieldList(table, rows[..|rows| - 1], constraints);
      var key := CheckName(table, last.name);
      var constraint := if key in constraints then Some(constraints[key]) else None;
      match FieldEntry(last, constraint)
      case None => before
      case Some(spec) => before[last.name := spec]
  }

  /** The constraint `fieldList` finds for a row. */
  function ConstraintFor(table: string, row: ColumnRow, constraints: map<string, string>): Option<string> {
    var key := CheckName(table, row.name);
    if key in constraints then Some(constraints[key]) else None
  }

  /** The entry for a column is the one the last row of that name produced. */
  lemma {:induction false} FieldListLastRow(table: string, rows: seq<ColumnRow>, constraints: map<string, string>, i: nat)
    requires i < |rows|
    requires FieldEntry(rows[i], ConstraintFor(table, rows[i], constraints)).Some?
    requires forall j :: i < j < |rows| ==> rows[j].name != rows[i].name
    ensures var r := FieldList(table, rows, constraints);
            rows[i].name in r && r[rows[i].name] == FieldEntry(rows[i], ConstraintFor(table, rows[i], constraints)).value
    decreases |rows|
  {
    if i < |rows| - 1 {
      var init := rows[..|rows| - 1];
      assert init[i] == rows[i];
      forall j | i < j < |init| ensures init[j].name != init[i].name {
        assert init[j] == rows[j];
      }
      FieldListLastRow(table, init, constraints, i);
      FieldListKeepsOthers(table, rows, constraints, rows[i].name);
    } else {
      FieldListStoresLast(table, rows, constraints);
    }
  }

  /** The last row's entry is stored under its name. */
  lemma FieldListStoresLast(table: string, rows: seq<ColumnRow>, constraints: map<string, string>)
    requires |rows| > 0
    requires var last := rows[|rows| - 1];
             FieldEntry(last, ConstraintFor(table, last, constraints)).Some?
    ensures var last := rows[|rows| - 1];
            var r := FieldList(table, rows, constraints);
            last.name in r && r[last.name] == FieldEntry(last, ConstraintFor(table, last, constraints)).value
  {
  }

  /** The last row leaves the entries of other names as they were. */
  lemma FieldListKeepsOthers(table: string, rows: seq<ColumnRow>, constraints: map<string, string>, k: string)
    requires |rows| > 0 && k != rows[|rows| - 1].name
    requires k in FieldList(table, rows[..|rows| - 1], constraints)
    ensures var r := FieldList(table, rows, constraints);
            k in r && r[k] == FieldList(table, rows[..|rows| - 1], constraints)[k]
  {
  }

  // ----- round trips with the type formatters ------------------------------

  /** A declaration without an array suffix. */
  predicate ScalarDeclaration(v: FieldValues) {
    v.arrayValue.None?
  }

  /** The catalog row of a column with the given data type and default
      text, and no length, precision or scale. */
  function Reported(name: string, dataType: string, columnDefault: Option<string>): ColumnRow {
    ColumnRow(name, dataType, columnDefault, Null, Null, Null)
  }

  /** The `column_default` PostgreSQL reports for `default <n>` on a column
      of the given integer type: the bare number, and for a negative number
      the number quoted and cast (`'-5'::integer`). */
  function CatalogIntDefault(keyword: string, n: int): string {
    if n < 0 then "'" + IntToString(n) + "'::" + keyword else IntToString(n)
  }

  /** `(int)` reads a reported default back as the number when it is not
      negative, and as 0 when it is: the quote comes first. */
  lemma IntDefaultReadBack(name: string, keyword: string, n: int)
    ensures n >= 0 ==> IntDefault(Reported(name, keyword, Some(CatalogIntDefault(keyword, n)))) == DefaultKeyword + IntToString(n)
    ensures n < 0 ==> IntDefault(Reported(name, keyword, Some(CatalogIntDefault(keyword, n)))) == DefaultKeyword + "0"
  {
    var text := CatalogIntDefault(keyword, n);
    if n >= 0 {
      ParseIntToString(n);
    } else {
      assert text[0] == '\'';
      assert TrimLeft(text, NumericWhitespace) == text;
      assert LeadingDigits(text) == 0;
      assert text[..0] == "";
    }
  }

  /** An `int` column reads back as the DDL the `int` formatter wrote when
      the default is not negative; a negative default reads back as 0. */
  lemma IntegerReadBack(name: string, v: FieldValues, c: Option<string>)
    requires ScalarDeclaration(v)
    ensures var n := IntCast(v.default);
            var entry := FieldEntry(Reported(name, Integer(v, true).dataType, Some(CatalogIntDefault("integer", n))), c);
            (n >= 0 ==> entry == Some(Spec(Integer(v, false).sql))) &&
            (n < 0 ==> entry == Some(Spec("integer" + DefaultKeyword + "0")))
  {
    IntColumnReadBack(name, "integer", v, c);
  }

  /** A `boolean` column reads back as the DDL the `boolean` formatter wrote
      when the default is not negative; a negative default reads back as 0. */
  lemma BooleanReadBack(name: string, v: FieldValues, c: Option<string>)
    requires ScalarDeclaration(v)
    ensures var n := IntCast(v.default);
            var entry := FieldEntry(Reported(name, Boolean(v, true).dataType, Some(CatalogIntDefault("smallint", n))), c);
            (n >= 0 ==> entry == Some(Spec(Boolean(v, false).sql))) &&
            (n < 0 ==> entry == Some(Spec("smallint" + DefaultKeyword + "0")))
  {
    IntColumnReadBack(name, "smallint", v, c);
  }

  /** An `integer` or `smallint` column whose default is reported for the
      number the formatter wrote reads back as the formatter's declaration
      when that number is not negative, and with default 0 when it is. */
  lemma IntColumnReadBack(name: string, keyword: string, v: FieldValues, c: Option<string>)
    requires ScalarDeclaration(v)
    requires keyword == "integer" || keyword == "smallint"
    ensures var n := IntCast(v.default);
            var entry := FieldEntry(Reported(name, keyword, Some(CatalogIntDefault(keyword, n))), c);
            (n >= 0 ==> entry == Some(Spec(IntegerLike(keyword, v)))) &&
            (n < 0 ==> entry == Some(Spec(keyword + DefaultKeyword + "0")))
  {
    var n := IntCast(v.default);
    var row := Reported(name, keyword, Some(CatalogIntDefault(keyword, n)));
    IntegerEntry(row, c);
    IntDefaultReadBack(name, keyword, n);
    if n >= 0 {
      IntegerLikeScalar(keyword, v);
    } else {
      Assoc3(keyword, DefaultKeyword, "0");
    }
  }

  lemma Assoc3(a: string, b: string, c: string)
    ensures a + (b + c) == a + b + c
  {
  }

  /** An `integer` or `smallint` row gets its keyword and `(int)` default. */
  lemma IntegerEntry(row: ColumnRow, c: Option<string>)
    requires row.dataType == "integer" || row.dataType == "smallint"
    ensures FieldEntry(row, c) == Some(Spec(row.dataType + IntDefault(row)))
  {
    ClassifyIntegers();
  }

  lemma ClassifyIntegers()
    ensures Classify("integer") == IntegerType && Classify("smallint") == SmallInt
  {
  }

  /** Without an array suffix an integer declaration is the keyword and its
      default. */
  lemma IntegerLikeScalar(keyword: string, v: FieldValues)
    requires ScalarDeclaration(v)
    ensures IntegerLike(keyword, v) == keyword + (DefaultKeyword + IntToString(IntCast(v.default)))
  {
    assert ArraySuffix(v) == "";
    assert keyword + "" == keyword;
  }

  /** A `SS_Datetime` column reads back as `timestamp`. */
  lemma DatetimeReadBack(name: string, v: FieldValues, d: Option<string>, c: Option<string>)
    requires ScalarDeclaration(v)
    ensures var dataType := Datetime(v, true).dataType;
            FieldEntry(Reported(name, dataType, d), c) == Some(Spec(Datetime(v, false).sql))
  {
    assert Classify("timestamp without time zone") == Timestamp;
    assert Datetime(v, false).sql == "timestamp" + "" == "timestamp";
  }

  /** A `float` column reads back as `float`. */
  lemma FloatReadBack(name: string, v: FieldValues, d: Option<string>, c: Option<string>)
    requires ScalarDeclaration(v)
    ensures var dataType := Float(v, true).dataType;
            FieldEntry(Reported(name, dataType, d), c) == Some(Spec(Float(v, false).sql))
  {
    assert Classify("double precision") == DoublePrecision;
    assert Float(v, false).sql == "float" + "" == "float";
  }

  /** A `time` column, reported as `time without time zone`, reads back as
      `time`. */
  lemma TimeReadBack(name: string, v: FieldValues, d: Option<string>, c: Option<string>)
    requires ScalarDeclaration(v)
    ensures FieldEntry(Reported(name, "time without time zone", d), c) == Some(Spec(Time(v).sql))
  {
    assert Classify("time without time zone") == TimeOfDay;
    assert Time(v).sql == "time" + "" == "time";
  }

  /** An unconstrained `varchar` column whose catalog length is the
      formatter's precision reads back as the same DDL. */
  lemma VarcharReadBack(name: string, v: FieldValues, d: Option<string>)
    requires ScalarDeclaration(v)
    ensures var row := ColumnRow(name, "character varying", d, VarcharPrecision(v), Null, Null);
            FieldEntry(row, None) == Some(Spec(Varchar(v, false).sql))
  {
    assert Classify("character varying") == CharacterVarying;
    var text := "varchar(" + ToPhpString(VarcharPrecision(v)) + ")";
    assert Varchar(v, false).sql == text + "" == text;
  }

  /** A `bigint` column is not translated: its catalog row is kept. */
  lemma BigintKeepsRow(name: string, v: FieldValues, d: Option<string>, c: Option<string>)
    ensures var row := Reported(name, Bigint(v, true).dataType, d);
            FieldEntry(row, c) == Some(Row(row))
  {
    assert Classify("bigint") == Untranslated;
  }

  /** An enum column with a single option, whose constraint PostgreSQL
      reports in the `= '<v>'::text` form, reads back as the DDL the enum
      formatter wrote for it. */
  lemma SingleOptionEnumReadBack(name: string, v: string, d: string)
    requires '=' !in name
    requires PlainOption(v)
    requires |d| > 0 && '\'' !in d && ':' !in d
    ensures var row := Reported(name, "character varying", Some(CatalogDefault(d)));
            FieldEntry(row, Some(SingleOptionCheck(name, v))) == Some(Spec(Enum(FieldValues(Str(d), None, Null, name, [v])).sql))
  {
    DecodeSingleOptionCheck(name, v);
    DecodeCatalogDefault(d);
    assert Classify("character varying") == CharacterVarying;
  }

  /** An enum column reads back as the DDL the enum formatter wrote, given
      the constraint and default as PostgreSQL reports them, provided the
      column name holds no `=`, the options are plain and the default is
      non-empty text without a quote or colon. */
  lemma EnumReadBack(name: string, enums: seq<string>, d: string)
    requires '=' !in name
    requires |enums| > 0 && PlainOptions(enums)
    requires |d| > 0 && '\'' !in d && ':' !in d
    ensures var row := Reported(name, "character varying", Some(CatalogDefault(d)));
            FieldEntry(row, Some(CatalogCheck(name, enums))) == Some(Spec(Enum(FieldValues(Str(d), None, Null, name, enums)).sql))
  {
    DecodeCatalogCheck(name, enums);
    DecodeCatalogDefault(d);
    assert Classify("character varying") == CharacterVarying;
  }
}

=== FILE: index_synth.dfy ===
/** Index DDL and the fulltext machinery of the schema manager
    (code/PostgreSQLSchemaManager.php): `getIndexSqlDefinition`, the
    shadow column and trigger `fulltext` declares, and
    `triggerFieldsFromTrigger`, which reads the indexed column back out of
    such a trigger. */
module IndexSynth {
  import opened Outcome
  import opened PhpStrings
  import opened Naming

  /** The index types `getIndexSqlDefinition` distinguishes; `index` and
      every type it does not know fall to `PlainIndex`. */
  datatype IndexKind = FulltextIndex | UniqueIndex | BtreeIndex | HashIndex | PlainIndex

  /** An index specification as `parseIndexSpec` leaves it: the type, the
      column list, and the optional `fillfactor` and `where` entries. */
  datatype IndexSpec = IndexSpec(kind: IndexKind, value: string, fillfactor: Option<string>, where: Option<string>)

  const Parens: set<char> := {'(', ')'}

  /** `create index` or, for a unique index, `create unique index`. */
  function CreateVerb(kind: IndexKind): string {
    if kind == UniqueIndex then "create unique index " else "create index "
  }

  /** The statement up to the table: the verb, the quoted hashed index
      name and the quoted table name. */
  function IndexTarget(kind: IndexKind, indexId: string, tableName: string): string {
    CreateVerb(kind) + "\"" + indexId + "\" ON \"" + tableName + "\""
  }

  /** The `tsvector` column that backs the fulltext index `name`. */
  function ShadowColumn(name: string): string {
    "ts_" + name
  }

  /** What the index covers: the `ts_<name>` shadow column through the
      fulltext access method, or the column list through the method the
      type names. */
  function IndexColumns(kind: IndexKind, indexName: string, value: string, clusterMethod: string): (r: string)
    ensures |r| > 0 && r[|r| - 1] == ')'
  {
    match kind
    case FulltextIndex => " USING " + clusterMethod + "(\"" + ShadowColumn(indexName) + "\")"
    case UniqueIndex => " (" + value + ")"
    case BtreeIndex => " USING btree (" + value + ")"
    case HashIndex => " USING hash (" + value + ")"
    case PlainIndex => " (" + value + ")"
  }

  /** The statement before its options. */
  function IndexHead(md5: string -> Digest, clusterMethod: string, tableName: string, indexName: string, spec: IndexSpec): (r: string)
    ensures |r| > 0 && r[0] == 'c' && r[|r| - 1] == ')'
  {
    var target := IndexTarget(spec.kind, BuildIndexName(md5, tableName, indexName, IndexPrefix), tableName);
    var columns := IndexColumns(spec.kind, indexName, spec.value, clusterMethod);
    assert (target + columns)[|target + columns| - 1] == columns[|columns| - 1];
    target + columns
  }

  /** `WITH (FILLFACTOR = <f>)` when a fill factor is set. */
  function FillfactorClause(spec: IndexSpec): string {
    match spec.fillfactor
    case None => ""
    case Some(f) => "WITH (FILLFACTOR = " + f + ")"
  }

  /** `WHERE <condition>` when a condition is set. */
  function WhereClause(spec: IndexSpec): string {
    match spec.where
    case None => ""
    case Some(w) => "WHERE " + w
  }

  /** A statement head followed by its option clauses, each after a
      space, trimmed of whitespace and ended by `;`. */
  function Statement(head: string, fill: string, where: string): (r: string)
    ensures |r| > 0 && r[|r| - 1] == ';'
  {
    Trim(head + " " + fill + " " + where, Whitespace) + ";"
  }

  /** `trim($indexName, '()')`: the name less the runs of parentheses at
      both ends. */
  function UnwrappedName(indexName: string): (r: string)
    ensures |r| <= |indexName| && (|r| > 0 ==> r[0] !in Parens && r[|r| - 1] !in Parens)
    ensures var k := |indexName| - |TrimLeft(indexName, Parens)|;
            && k + |r| <= |indexName| && r == indexName[k..k + |r|]
            && (forall i :: 0 <= i < k ==> indexName[i] in Parens)
            && (forall i :: k + |r| <= i < |indexName| ==> indexName[i] in Parens)
  {
    var l := TrimLeft(indexName, Parens);
    TrimmedParts(indexName, l, TrimRight(l, Parens), Parens);
    Trim(indexName, Parens)
  }

  /** `getIndexSqlDefinition`: with `asDbValue` the index name stripped of
      parentheses; otherwise the `create … index` statement with the
      options that are set. */
  function GetIndexSqlDefinition(md5: string -> Digest, clusterMethod: string, tableName: string, indexName: string,
                                 spec: IndexSpec, asDbValue: bool): (r: string)
    ensures asDbValue ==> |r| <= |indexName| && (|r| > 0 ==> r[0] !in Parens && r[|r| - 1] !in Parens)
    ensures asDbValue ==>
              var k := |indexName| - |TrimLeft(indexName, Parens)|;
              && k + |r| <= |indexName| && r == indexName[k..k + |r|]
              && (forall i :: 0 <= i < k ==> indexName[i] in Parens)
              && (forall i :: k + |r| <= i < |indexName| ==> indexName[i] in Parens)
    ensures !asDbValue ==> |r| > 0 && r[|r| - 1] == ';'
  {
    if asDbValue then UnwrappedName(indexName)
    else Statement(IndexHead(md5, clusterMethod, tableName, indexName, spec), FillfactorClause(spec), WhereClause(spec))
  }

  /** Regrouping a statement around its head. */
  lemma Regroup(head: string, sp: string, fill: string, where: string)
    ensures head + sp + fill + sp + where == head + (sp + fill + sp + where)
  {
  }

  /** Regrouping a statement around the first character of its condition. */
  lemma RegroupWhere(sp: string, fill: string, where: string)
    requires |where| > 0
    ensures sp + fill + sp + where == (sp + fill + sp + [where[0]]) + where[1..]
    ensures where == [where[0]] + where[1..]
  {
  }

  /** Regrouping a trimmed statement. */
  lemma RegroupTrimmed(head: string, sp: string, fill: string, tw: string, end: string)
    ensures head + (sp + fill + sp + tw) + end == head + sp + fill + sp + tw + end
  {
  }

  /** Regrouping a statement with only a fill factor. */
  lemma RegroupFill(head: string, sp: string, fill: string, end: string)
    ensures head + (sp + fill) + end == head + sp + fill + end
  {
  }

  /** Trimming a text that starts with a kept head only trims after it. */
  lemma TrimAfterHead(head: string, tail: string, cs: set<char>)
    requires |head| > 0 && head[0] !in cs && head[|head| - 1] !in cs
    ensures Trim(head + tail, cs) == head + TrimRight(tail, cs)
  {
    var s := head + tail;
    assert s[0] == head[0];
    assert "" + s == s;
    TrimLeftPrefix("", s, cs);
    TrimRightAppend(head, tail, cs);
  }

  /** The blanks after a head with no option are all trimmed. */
  lemma TrimBlankTail(sp: string, cs: set<char>)
    requires sp == " " && ' ' in cs
    ensures TrimRight(sp + "" + sp + "", cs) == ""
  {
    assert sp + "" + sp + "" == [' ', ' '];
    assert TrimRight([' '], cs) == "";
  }

  /** After a fill factor only the last blank is trimmed. */
  lemma TrimFillTail(sp: string, fill: string, cs: set<char>)
    requires sp == " " && ' ' in cs
    requires |fill| > 0 && fill[|fill| - 1] !in cs
    ensures TrimRight(sp + fill + sp + "", cs) == sp + fill
  {
    assert sp + fill + sp + "" == (sp + fill) + sp;
    TrimRightAppend(sp + fill, sp, cs);
    assert TrimRight(sp, cs) == "";
    assert sp + fill + "" == sp + fill;
  }

  /** With a condition only the condition's own trailing blanks go. */
  lemma TrimWhereTail(sp: string, fill: string, where: string, cs: set<char>)
    requires |where| > 0 && where[0] !in cs
    ensures TrimRight(sp + fill + sp + where, cs) == sp + fill + sp + TrimRight(where, cs)
  {
    RegroupWhere(sp, fill, where);
    TrimRightAppend(sp + fill + sp + [where[0]], where[1..], cs);
    TrimRightAppend([where[0]], where[1..], cs);
    assert sp + fill + sp + [where[0]] + TrimRight(where[1..], cs) == sp + fill + sp + ([where[0]] + TrimRight(where[1..], cs));
  }

  /** Trimming `<head> <fill> <where>` only ever removes the blanks
      around a missing clause and the trailing blanks of the last one. */
  lemma TrimClauses(head: string, fill: string, where: string, cs: set<char>)
    requires ' ' in cs
    requires |head| > 0 && head[0] !in cs && head[|head| - 1] !in cs
    requires |fill| > 0 ==> fill[|fill| - 1] !in cs
    requires |where| > 0 ==> where[0] !in cs
    ensures fill == "" && where == "" ==> Trim(head + " " + fill + " " + where, cs) + ";" == head + ";"
    ensures fill != "" && where == "" ==> Trim(head + " " + fill + " " + where, cs) + ";" == head + " " + fill + ";"
    ensures where != "" ==> Trim(head + " " + fill + " " + where, cs) + ";" == head + " " + fill + " " + TrimRight(where, cs) + ";"
  {
    var sp := " ";
    var tail := sp + fill + sp + where;
    Regroup(head, sp, fill, where);
    TrimAfterHead(head, tail, cs);
    if where == "" && fill == "" {
      TrimBlankTail(sp, cs);
      assert head + "" == head;
    } else if where == "" {
      TrimFillTail(sp, fill, cs);
      RegroupFill(head, sp, fill, ";");
      assert head + sp + fill + sp + where == head + " " + fill + " " + where;
    } else {
      TrimWhereTail(sp, fill, where, cs);
      RegroupTrimmed(head, sp, fill, TrimRight(where, cs), ";");
    }
  }

  /** The statement text when neither option, only the fill factor, or
      the condition is set. */
  lemma StatementClauses(head: string, fill: string, where: string)
    requires |head| > 0 && head[0] !in Whitespace && head[|head| - 1] !in Whitespace
    requires |fill| > 0 ==> fill[|fill| - 1] !in Whitespace
    requires |where| > 0 ==> where[0] !in Whitespace
    ensures fill == "" && where == "" ==> Statement(head, fill, where) == head + ";"
    ensures fill != "" && where == "" ==> Statement(head, fill, where) == head + " " + fill + ";"
    ensures where != "" ==> Statement(head, fill, where) == head + " " + fill + " " + TrimRight(where, Whitespace) + ";"
  {
    TrimClauses(head, fill, where, Whitespace);
  }

  /** The statement is the head followed by exactly the options that are
      set: nothing else when neither is, the fill factor alone, or both
      clauses with trailing whitespace of the condition removed. */
  lemma IndexSqlClauses(md5: string -> Digest, clusterMethod: string, tableName: string, indexName: string, spec: IndexSpec)
    ensures var r := GetIndexSqlDefinition(md5, clusterMethod, tableName, indexName, spec, false);
            var head := IndexHead(md5, clusterMethod, tableName, indexName, spec);
            (spec.fillfactor.None? && spec.where.None? ==> r == head + ";") &&
            (spec.fillfactor.Some? && spec.where.None? ==> r == head + " " + FillfactorClause(spec) + ";") &&
            (spec.where.Some? ==> r == head + " " + FillfactorClause(spec) + " " + TrimRight(WhereClause(spec), Whitespace) + ";")
  {
    var head := IndexHead(md5, clusterMethod, tableName, indexName, spec);
    var ff := FillfactorClause(spec);
    var wh := WhereClause(spec);
    assert ff != "" ==> ff[|ff| - 1] == ')';
    assert wh != "" ==> wh[0] == 'W';
    assert spec.fillfactor.Some? ==> ff != "";
    assert spec.where.Some? ==> wh != "";
    StatementClauses(head, ff, wh);
  }

  /** The statement starts with the verb, the hashed index name and the
      table, all quoted. */
  lemma IndexSqlNamesHashedIndex(md5: string -> Digest, clusterMethod: string, tableName: string, indexName: string, spec: IndexSpec)
    ensures IndexTarget(spec.kind, BuildIndexName(md5, tableName, indexName, IndexPrefix), tableName)
         <= GetIndexSqlDefinition(md5, clusterMethod, tableName, indexName, spec, false)
  {
    var head := IndexHead(md5, clusterMethod, tableName, indexName, spec);
    var target := IndexTarget(spec.kind, BuildIndexName(md5, tableName, indexName, IndexPrefix), tableName);
    var ff := FillfactorClause(spec);
    var wh := WhereClause(spec);
    assert head <= Statement(head, ff, wh) by {
      assert ff != "" ==> ff[|ff| - 1] == ')';
      assert wh != "" ==> wh[0] == 'W';
      HeadBeginsStatement(head, ff, wh);
    }
    assert target <= head by {
      ConcatPrefix(target, IndexColumns(spec.kind, indexName, spec.value, clusterMethod));
    }
    PrefixTransitive(target, head, Statement(head, ff, wh));
  }

  /** A statement starts with its head. */
  lemma HeadBeginsStatement(head: string, fill: string, where: string)
    requires |head| > 0 && head[0] !in Whitespace && head[|head| - 1] !in Whitespace
    requires |fill| > 0 ==> fill[|fill| - 1] !in Whitespace
    requires |where| > 0 ==> where[0] !in Whitespace
    ensures head <= Statement(head, fill, where)
  {
    var tail := StatementTail(fill, where);
    assert Statement(head, fill, where) == head + tail by {
      StatementClauses(head, fill, where);
      var sp := " ";
      var w := TrimRight(where, Whitespace);
      if where != "" {
        RegroupTail(head, sp, fill, w, ";");
      } else if fill != "" {
        RegroupFillTail(head, sp, fill, ";");
      }
    }
    ConcatPrefix(head, tail);
  }

  /** Regrouping a statement with a condition around its head. */
  lemma RegroupTail(head: string, sp: string, fill: string, tw: string, end: string)
    ensures head + sp + fill + sp + tw + end == head + (sp + fill + sp + tw + end)
  {
  }

  /** Regrouping a statement with only a fill factor around its head. */
  lemma RegroupFillTail(head: string, sp: string, fill: string, end: string)
    ensures head + sp + fill + end == head + (sp + fill + end)
  {
  }

  /** What follows the head of a statement. */
  function StatementTail(fill: string, where: string): string {
    if where != "" then " " + fill + " " + TrimRight(where, Whitespace) + ";"
    else if fill != "" then " " + fill + ";"
    else ";"
  }

  /** A text is a prefix of itself followed by anything. */
  lemma ConcatPrefix(a: string, b: string)
    ensures a <= a + b
  {
    assert (a + b)[..|a|] == a;
  }

  /** Being a prefix is transitive. */
  lemma PrefixTransitive(a: string, b: string, c: string)
    requires a <= b && b <= c
    ensures a <= c
  {
    assert c[..|b|] == b;
    assert c[..|a|] == b[..|a|];
  }

  /** A parenthesised index name is reported without its parentheses. */
  lemma IndexNameUnwrapped(md5: string -> Digest, clusterMethod: string, tableName: string, name: string, spec: IndexSpec)
    requires |name| > 0 && name[0] !in Parens && name[|name| - 1] !in Parens
    ensures GetIndexSqlDefinition(md5, clusterMethod, tableName, "(" + name + ")", spec, true) == name
  {
    TrimWrapped("(", name, ")", Parens);
  }

  // ----- fulltext ----------------------------------------------------------

  /** What `fulltext` returns: the name, the shadow column's name, its
      declaration, and the trigger that keeps it up to date. */
  datatype FulltextParts = FulltextParts(name: string, tsName: string, fulltexts: string, triggers: string)

  const TsVectorFunction: string := "tsvector_update_trigger"

  /** The trigger statement up to the procedure call. */
  function TriggerHead(triggerName: string, tableName: string): string {
    TriggerOpen + triggerName + TriggerOn + tableName + TriggerExecute
  }

  const TriggerOpen: string := "CREATE TRIGGER \""
  const TriggerOn: string := "\" BEFORE INSERT OR UPDATE\n\t\t\t\t\tON \""
  const TriggerExecute: string := "\" FOR EACH ROW EXECUTE PROCEDURE\n\t\t\t\t\t"

  /** The arguments of `tsvector_update_trigger`: the shadow column, the
      text search configuration, and the indexed columns. */
  function TriggerArgs(name: string, language: string, columns: string): string {
    "\"" + ShadowColumn(name) + "\"" + "," + (" 'pg_catalog." + language + "'" + "," + (" " + columns))
  }

  /** `fulltext`: a `tsvector` column `ts_<name>` and a trigger named by
      `buildPostgresTriggerName` that fills it from the columns, for the
      given search language. */
  function Fulltext(md5: string -> Digest, language: string, columns: string, tableName: string, name: string): (r: FulltextParts)
    ensures r.name == name && r.tsName == ShadowColumn(name)
    ensures r.fulltexts == "\"" + r.tsName + "\" tsvector"
    ensures TriggerHead(BuildTriggerName(md5, tableName, name), tableName) <= r.triggers
    ensures |r.triggers| > 0 && r.triggers[|r.triggers| - 1] == ';'
  {
    var head := TriggerHead(BuildTriggerName(md5, tableName, name), tableName);
    var call := TsVectorFunction + "(" + TriggerArgs(name, language, columns) + ")";
    assert head + call + ";" == head + (call + ";");
    FulltextParts(name, ShadowColumn(name), "\"" + ShadowColumn(name) + "\" tsvector", head + call + ";")
  }

  /** A fulltext index covers exactly the shadow column `fulltext`
      declares. */
  lemma FulltextIndexCoversShadowColumn(md5: string -> Digest, clusterMethod: string, language: string, columns: string,
                                        tableName: string, name: string, value: string)
    ensures var f := Fulltext(md5, language, columns, tableName, name);
            var spec := IndexSpec(FulltextIndex, value, None, None);
            GetIndexSqlDefinition(md5, clusterMethod, tableName, name, spec, false)
              == IndexTarget(FulltextIndex, BuildIndexName(md5, tableName, name, IndexPrefix), tableName)
                 + (" USING " + clusterMethod + "(\"" + f.tsName + "\")") + ";"
  {
    IndexSqlClauses(md5, clusterMethod, tableName, name, IndexSpec(FulltextIndex, value, None, None));
  }

  // ----- triggerFieldsFromTrigger ------------------------------------------

  /** The characters trimmed around the procedure's argument list. */
  const CallPunctuation: set<char> := {'(', ')', ';'}

  /** Each piece trimmed of whitespace. */
  function TrimEach(parts: seq<string>): (r: seq<string>)
    ensures |r| == |parts|
    ensures forall i :: 0 <= i < |parts| ==> r[i] == Trim(parts[i], Whitespace)
  {
    if |parts| == 0 then [] else [Trim(parts[0], Whitespace)] + TrimEach(parts[1..])
  }

  /** `triggerFieldsFromTrigger`: false for a falsy statement; otherwise
      the third argument of the `tsvector_update_trigger` call, unquoted
      and trimmed, as a one-element list. Without the call the text after
      its 23rd character is read, as `strpos` yields false, that is 0. */
  function TriggerFieldsFromTrigger(trigger: string): Option<seq<string>>
  {
    if trigger == "" || trigger == "0" then None
    else Some(FieldsOfCall(CallDetails(trigger)))
  }

  /** The text after `tsvector_update_trigger`, without the surrounding
      parentheses and `;`. */
  function CallDetails(trigger: string): string {
    var pos := IndexOf(trigger, TsVectorFunction).GetOr(0);
    Trim(SubstrFrom(trigger, pos + |TsVectorFunction|), CallPunctuation)
  }

  /** The third argument, unquoted, split at commas and trimmed. */
  function FieldsOfCall(details: string): seq<string> {
    var bits := Explode(details, ",");
    var fields := if |bits| > 2 then bits[2] else "";
    TrimEach(Explode(ReplaceAll(fields, "\"", ""), ","))
  }

  /** Deleting a character never introduces another one. */
  lemma {:induction false} DeleteKeepsAbsent(s: string, a: char, c: char)
    requires c !in s
    ensures c !in ReplaceAll(s, [a], "")
    decreases |s|
  {
    if |s| > 0 {
      DeleteKeepsAbsent(s[1..], a, c);
    }
  }

  /** Only one field ever comes back: the argument list is split at commas
      before the columns are, so the third piece holds at most one. */
  lemma TriggerFieldsSingle(trigger: string)
    ensures TriggerFieldsFromTrigger(trigger).None? <==> trigger == "" || trigger == "0"
    ensures TriggerFieldsFromTrigger(trigger).Some? ==> |TriggerFieldsFromTrigger(trigger).value| == 1
  {
    if trigger != "" && trigger != "0" {
      var details := CallDetails(trigger);
      var bits := Explode(details, ",");
      var fields := if |bits| > 2 then bits[2] else "";
      ExplodePiecesFree(details, ',');
      assert ',' !in fields;
      DeleteKeepsAbsent(fields, '"', ',');
      ContainsChar(ReplaceAll(fields, "\"", ""), ',');
      ExplodeNoSeparator(ReplaceAll(fields, "\"", ""), ",");
    }
  }

  /** A column name as it sits, double-quoted, in a column list. */
  predicate PlainColumn(col: string) {
    |col| > 0 && '"' !in col && ',' !in col && col[0] !in Whitespace && col[|col| - 1] !in Whitespace
  }

  /** Deleting quotes adds up over a concatenation. */
  lemma {:induction false} DeleteConcat(a: string, b: string, q: char)
    ensures ReplaceAll(a + b, [q], "") == ReplaceAll(a, [q], "") + ReplaceAll(b, [q], "")
    decreases |a|
  {
    if |a| > 0 {
      DeleteConcat(a[1..], b, q);
      assert (a + b)[1..] == a[1..] + b;
      assert [q] <= a + b <==> [q] <= a;
      if !([q] <= a) {
        assert ReplaceAll(a + b, [q], "") == [a[0]] + ReplaceAll(a[1..] + b, [q], "");
      }
    } else {
      assert a + b == b;
    }
  }

  /** Deleting `q` from one character. */
  lemma DeleteCons(c: char, s: string, q: char)
    ensures ReplaceAll([c] + s, [q], "") == (if c == q then "" else [c]) + ReplaceAll(s, [q], "")
  {
    var t := [c] + s;
    assert t[1..] == s && t[0] == c;
    if c == q {
      assert [q] <= t;
    } else {
      assert !([q] <= t);
    }
  }

  /** Deleting `q` from `<sp><q><col><q>` leaves `<sp><col>`. */
  lemma UnquoteWrapped(sp: char, q: char, col: string)
    requires sp != q && q !in col
    ensures ReplaceAll([sp] + ([q] + (col + [q])), [q], "") == [sp] + col
  {
    assert ReplaceAll(col + [q], [q], "") == col by {
      DeleteConcat(col, [q], q);
      ReplaceAbsentChar(col, q, "");
      DeleteCons(q, [], q);
      assert [q] + [] == [q];
      assert ReplaceAll([], [q], "") == [];
      assert col + "" == col;
    }
    assert ReplaceAll([q] + (col + [q]), [q], "") == col by {
      DeleteCons(q, col + [q], q);
      assert "" + col == col;
    }
    DeleteCons(sp, [q] + (col + [q]), q);
  }

  /** Unquoting ` "<col>"` leaves ` <col>`. */
  lemma UnquoteColumn(col: string)
    requires '"' !in col
    ensures ReplaceAll(" \"" + col + "\"", "\"", "") == " " + col
  {
    assert " \"" + col + "\"" == [' '] + (['"'] + (col + ['"']));
    UnquoteWrapped(' ', '"', col);
  }

  /** The fixed text of a trigger head holds no `v`, so the first `v` of
      `tsvector_update_trigger` cannot start inside it. */
  lemma TriggerHeadFreeOfV(md5: string -> Digest, tableName: string, name: string)
    requires 'v' !in tableName
    ensures 'v' !in TriggerHead(BuildTriggerName(md5, tableName, name), tableName)
  {
    var tn := BuildTriggerName(md5, tableName, name);
    assert 'v' !in tn by {
      TriggerNameFreeOfV(tn, md5(tableName + "_" + name));
    }
    OpenFreeOfV();
    OnFreeOfV();
    ExecuteFreeOfV();
    CharFreeConcat('v', TriggerOpen, tn, TriggerOn, tableName, TriggerExecute);
  }

  /** The fixed texts of a trigger head hold no `v`. */
  lemma OpenFreeOfV()
    ensures 'v' !in TriggerOpen
  {
  }

  lemma OnFreeOfV()
    ensures 'v' !in TriggerOn
  {
  }

  lemma ExecuteFreeOfV()
    ensures 'v' !in TriggerExecute
  {
  }

  /** A trigger name is `ts_` and a digest, neither of which holds a `v`. */
  lemma TriggerNameFreeOfV(tn: string, d: Digest)
    requires |tn| == 35 && tn[..3] == "ts_" && tn[3..] == d
    ensures 'v' !in tn
  {
    forall i | 0 <= i < |tn| ensures tn[i] != 'v' {
      if i < 3 {
        assert tn[i] == tn[..3][i];
      } else {
        assert tn[i] == d[i - 3];
        assert IsHexDigit(d[i - 3]);
      }
    }
  }

  /** A character absent from five texts is absent from their concatenation. */
  lemma CharFreeConcat(x: char, a: string, b: string, c: string, d: string, e: string)
    requires x !in a && x !in b && x !in c && x !in d && x !in e
    ensures x !in a + b + c + d + e
  {
  }

  /** The argument list splits into the shadow column, the configuration
      and the first column at the commas. */
  lemma SplitTriggerArgs(name: string, language: string, col: string, more: string)
    requires ',' !in name && ',' !in language && ',' !in col
    requires |more| == 0 || more[0] == ','
    ensures var bits := Explode(TriggerArgs(name, language, "\"" + col + "\"" + more), ",");
            |bits| > 2 && bits[2] == " \"" + col + "\""
  {
    var p0 := "\"" + ShadowColumn(name) + "\"";
    var p1 := " 'pg_catalog." + language + "'";
    var p2 := " \"" + col + "\"";
    assert ',' !in p0 && ',' !in p1 && ',' !in p2;
    ContainsChar(p0, ',');
    ContainsChar(p1, ',');
    ContainsChar(p2, ',');
    var tail := p2 + more;
    assert " " + ("\"" + col + "\"" + more) == tail;
    ExplodeAfterPiece(p0, ",", p1 + "," + tail);
    ExplodeAfterPiece(p1, ",", tail);
    if |more| == 0 {
      assert tail == p2;
      ExplodeNoSeparator(p2, ",");
    } else {
      assert tail == p2 + "," + more[1..];
      ExplodeAfterPiece(p2, ",", more[1..]);
    }
  }

  /** The argument list is found after a head in which the `v` of
      `tsvector_update_trigger` does not occur. */
  lemma CallDetailsAfterHead(head: string, args: string)
    requires 'v' !in head
    requires |args| > 0 && args[0] !in CallPunctuation && args[|args| - 1] !in CallPunctuation
    ensures CallDetails(head + TsVectorFunction + ("(" + args + ")")) == args
  {
    var call := "(" + args + ")";
    assert TsVectorFunction[2] == 'v' && 'v' !in TsVectorFunction[..2];
    IndexOfAfterCharFree(head, TsVectorFunction, call, 2);
    assert SubstrFrom(head + TsVectorFunction + call, |head| + |TsVectorFunction|) == call;
    WrappedTrim('(', args, ')', CallPunctuation);
  }

  /** Trimming one character from each end. */
  lemma WrappedTrim(a: char, core: string, b: char, cs: set<char>)
    requires a in cs && b in cs
    requires |core| > 0 && core[0] !in cs && core[|core| - 1] !in cs
    ensures Trim([a] + core + [b], cs) == core
  {
    TrimWrapped([a], core, [b], cs);
  }

  /** The argument list `fulltext` writes yields its first column. */
  lemma FieldsOfTriggerArgs(name: string, language: string, col: string, more: string)
    requires ',' !in name && ',' !in language
    requires PlainColumn(col)
    requires |more| == 0 || more[0] == ','
    ensures FieldsOfCall(TriggerArgs(name, language, "\"" + col + "\"" + more)) == [col]
  {
    SplitTriggerArgs(name, language, col, more);
    UnquoteColumn(col);
    ContainsChar(" " + col, ',');
    ExplodeNoSeparator(" " + col, ",");
    LeadingBlankTrim(col, Whitespace);
  }

  /** Trimming a single leading blank. */
  lemma LeadingBlankTrim(col: string, cs: set<char>)
    requires ' ' in cs
    requires |col| > 0 && col[0] !in cs && col[|col| - 1] !in cs
    ensures Trim(" " + col, cs) == col
  {
    TrimWrapped([' '], col, [], cs);
    assert [' '] + col + [] == " " + col;
  }

  /** The trigger `fulltext` declares, without its closing `;` (the caller
      splits the statements at `;`), yields the first indexed column,
      provided the table name holds no `v`, neither the index name nor the
      language holds a comma, and the column list starts with a plain
      double-quoted column. */
  lemma TriggerFieldsOfFulltext(md5: string -> Digest, language: string, col: string, more: string,
                                tableName: string, name: string)
    requires 'v' !in tableName
    requires ',' !in name && ',' !in language
    requires PlainColumn(col)
    requires |more| == 0 || (more[0] == ',' && more[|more| - 1] !in CallPunctuation)
    ensures var t := Fulltext(md5, language, "\"" + col + "\"" + more, tableName, name).triggers;
            TriggerFieldsFromTrigger(t[..|t| - 1]) == Some([col])
  {
    var columns := "\"" + col + "\"" + more;
    var head := TriggerHead(BuildTriggerName(md5, tableName, name), tableName);
    var args := TriggerArgs(name, language, columns);
    var stmt := head + TsVectorFunction + ("(" + args + ")");
    TriggerStatement(md5, language, columns, tableName, name);
    assert 'v' !in head by {
      TriggerHeadFreeOfV(md5, tableName, name);
    }
    ArgsEnds(name, language, col, more);
    FieldsOfFulltextCall(head, args);
    FieldsOfTriggerArgs(name, language, col, more);
  }

  /** The arguments of the update call begin with a quote and end where
      the column list does. */
  lemma ArgsEnds(name: string, language: string, col: string, more: string)
    requires |more| == 0 || more[|more| - 1] !in CallPunctuation
    ensures var args := TriggerArgs(name, language, "\"" + col + "\"" + more);
            |args| > 0 && args[0] !in CallPunctuation && args[|args| - 1] !in CallPunctuation
  {
    var columns := "\"" + col + "\"" + more;
    var args := TriggerArgs(name, language, columns);
    assert args[0] == '"';
    assert args[|args| - 1] == columns[|columns| - 1];
  }

  /** The fields read from a statement that calls the update function
      after a head without `v` are those of the call's arguments. */
  lemma FieldsOfFulltextCall(head: string, args: string)
    requires 'v' !in head
    requires |args| > 0 && args[0] !in CallPunctuation && args[|args| - 1] !in CallPunctuation
    ensures TriggerFieldsFromTrigger(head + TsVectorFunction + ("(" + args + ")")) == Some(FieldsOfCall(args))
  {
    var stmt := head + TsVectorFunction + ("(" + args + ")");
    CallDetailsAfterHead(head, args);
    assert |stmt| > 1;
  }


  /** The trigger text is the head, the call and a closing `;`. */
  lemma TriggerStatement(md5: string -> Digest, language: string, columns: string, tableName: string, name: string)
    ensures var t := Fulltext(md5, language, columns, tableName, name).triggers;
            var head := TriggerHead(BuildTriggerName(md5, tableName, name), tableName);
            t[..|t| - 1] == head + TsVectorFunction + ("(" + TriggerArgs(name, language, columns) + ")")
  {
  }
}

=== FILE: legacy_database.dfy ===
/** The older driver class (code/PostgreSQLDatabase.php): its index spec
    conversion and index renaming, the column formatters that differ from
    the schema manager's, and the SELECT/DELETE statement it builds from a
    query object, with its MySQL-style `offset,count` limit. */
module LegacyDatabase {
  import opened Outcome
  import opened PhpStrings
  import opened PhpValues
  import opened TypeCodec
  import opened QueryBuilder

  // ----- index specifications ----------------------------------------------

  /** An index spec as a class declares it: plain text, or an array with
      keys such as `type`, `name` and `value`. */
  datatype IndexSpecValue = Text(s: string) | Parsed(fields: map<string, string>)

  /** `$spec[$key]`, which reads as `''` when the key is missing. */
  function Field(m: map<string, string>, key: string): string {
    if key in m then m[key] else ""
  }

  /** The text PHP interpolates for a spec: an array becomes `Array`. */
  function SpecText(spec: IndexSpecValue): string {
    match spec
    case Text(s) => s
    case Parsed(_) => "Array"
  }

  /** The index types the converter knows. */
  const KnownIndexTypes: set<string> := {"fulltext", "unique", "btree", "hash"}

  const FulltextOpen: string := "(ts_"
  const UniqueOpen: string := "unique ("
  const BtreeOpen: string := "using btree ("
  const HashOpen: string := "using hash ("

  /** `convertIndexSpec`: with `asDbValue`, the catalog name
      `ix_<table>_<spec>`; otherwise an array spec of a known type becomes
      its SQL text and anything else is returned unchanged. */
  function ConvertIndexSpec(spec: IndexSpecValue, asDbValue: bool, table: string): (r: IndexSpecValue)
    ensures asDbValue ==> r == Text("ix_" + table + "_" + SpecText(spec))
    ensures !asDbValue && (spec.Text? || Field(spec.fields, "type") !in KnownIndexTypes) ==> r == spec
    ensures !asDbValue && spec.Parsed? && Field(spec.fields, "type") in KnownIndexTypes ==>
              r.Text? && |r.s| > 0 && r.s[|r.s| - 1] == ')'
  {
    if asDbValue then Text("ix_" + table + "_" + SpecText(spec))
    else match spec
      case Text(_) => spec
      case Parsed(m) =>
        var kind := Field(m, "type");
        if kind == "fulltext" then Text(FulltextOpen + Field(m, "name") + ")")
        else if kind == "unique" then Text(UniqueOpen + Field(m, "value") + ")")
        else if kind == "btree" then Text(BtreeOpen + Field(m, "value") + ")")
        else if kind == "hash" then Text(HashOpen + Field(m, "value") + ")")
        else spec
  }

  /** An index definition read back from its SQL text: its type and what
      it covers (the shadow column's suffix for a fulltext index, the
      column list otherwise). */
  datatype IndexDefinition = IndexDefinition(kind: string, covers: string)

  /** Reads the SQL text `convertIndexSpec` writes for a known type. */
  function ReadIndexSpec(s: string): Option<IndexDefinition> {
    if |s| == 0 || s[|s| - 1] != ')' then None
    else if FulltextOpen <= s[..|s| - 1] then Some(IndexDefinition("fulltext", s[|FulltextOpen|..|s| - 1]))
    else if UniqueOpen <= s[..|s| - 1] then Some(IndexDefinition("unique", s[|UniqueOpen|..|s| - 1]))
    else if BtreeOpen <= s[..|s| - 1] then Some(IndexDefinition("btree", s[|BtreeOpen|..|s| - 1]))
    else if HashOpen <= s[..|s| - 1] then Some(IndexDefinition("hash", s[|HashOpen|..|s| - 1]))
    else None
  }

  /** What a spec array of a known type covers. */
  function Covered(m: map<string, string>): string {
    if Field(m, "type") == "fulltext" then Field(m, "name") else Field(m, "value")
  }

  /** The converted text of a known spec array reads back as its type and
      what it covers. */
  lemma ConvertIndexSpecReadBack(m: map<string, string>, table: string)
    requires Field(m, "type") in KnownIndexTypes
    ensures ConvertIndexSpec(Parsed(m), false, table).Text?
    ensures ReadIndexSpec(ConvertIndexSpec(Parsed(m), false, table).s)
            == Some(IndexDefinition(Field(m, "type"), Covered(m)))
  {
    var kind := Field(m, "type");
    var c := Covered(m);
    if kind == "fulltext" {
      ReadWrapped(FulltextOpen, c, "fulltext");
    } else if kind == "unique" {
      NotFulltextOpen(UniqueOpen + c);
      ReadWrapped(UniqueOpen, c, "unique");
    } else if kind == "btree" {
      NotFulltextOpen(BtreeOpen + c);
      NotUniqueOpen(BtreeOpen + c);
      ReadWrapped(BtreeOpen, c, "btree");
    } else {
      NotFulltextOpen(HashOpen + c);
      NotUniqueOpen(HashOpen + c);
      NotBtreeOpen(HashOpen + c);
      ReadWrapped(HashOpen, c, "hash");
    }
  }

  /** The reader takes the opening apart from the body when the opening
      is the first one it tries that matches. */
  lemma ReadWrapped(open: string, c: string, kind: string)
    requires open in {FulltextOpen, UniqueOpen, BtreeOpen, HashOpen}
    requires open != FulltextOpen ==> !(FulltextOpen <= open + c)
    requires open == BtreeOpen || open == HashOpen ==> !(UniqueOpen <= open + c)
    requires open == HashOpen ==> !(BtreeOpen <= open + c)
    requires kind == (if open == FulltextOpen then "fulltext" else if open == UniqueOpen then "unique"
                      else if open == BtreeOpen then "btree" else "hash")
    ensures ReadIndexSpec(open + c + ")") == Some(IndexDefinition(kind, c))
  {
    var s := open + c + ")";
    assert s[..|s| - 1] == open + c;
    assert open <= open + c;
    assert s[|open|..|s| - 1] == c;
  }

  /** The later openings do not start with the fulltext one. */
  lemma NotFulltextOpen(s: string)
    requires |s| > 0 && s[0] == 'u'
    ensures !(FulltextOpen <= s)
  {
    assert FulltextOpen[0] == '(';
  }

  /** The `using` openings do not start with the unique one. */
  lemma NotUniqueOpen(s: string)
    requires |s| > 1 && s[1] == 's'
    ensures !(UniqueOpen <= s)
  {
    assert UniqueOpen[1] == 'n';
  }

  /** The hash opening does not start with the btree one. */
  lemma NotBtreeOpen(s: string)
    requires |s| > 6 && s[6] == 'h'
    ensures !(BtreeOpen <= s)
  {
    assert BtreeOpen[6] == 'b';
  }

  // ----- index names -------------------------------------------------------

  /** Whether a spec is an array of type `fulltext`. */
  predicate IsFulltext(spec: IndexSpecValue) {
    spec.Parsed? && Field(spec.fields, "type") == "fulltext"
  }

  /** `modifyIndex`: a fulltext index is named `ts_` with its commas
      turned into underscores; any other index has its underscores turned
      back into the commas of its column list. */
  function ModifyIndex(index: string, spec: IndexSpecValue): (r: string)
    ensures IsFulltext(spec) ==> |r| == |index| + 3 && r[..3] == "ts_" && ',' !in r[3..]
    ensures !IsFulltext(spec) ==> |r| == |index| && '_' !in r
  {
    if IsFulltext(spec) then
      ReplaceCharEach(index, ',', '_');
      "ts_" + ReplaceAll(index, ",", "_")
    else
      ReplaceCharEach(index, '_', ',');
      ReplaceAll(index, "_", ",")
  }

  /** `str_replace` of one character by another, character by character. */
  lemma {:induction false} ReplaceCharEach(s: string, a: char, b: char)
    ensures var r := ReplaceAll(s, [a], [b]);
            |r| == |s| && forall i :: 0 <= i < |s| ==> r[i] == (if s[i] == a then b else s[i])
    ensures a != b ==> a !in ReplaceAll(s, [a], [b])
    decreases |s|
  {
    if |s| > 0 {
      ReplaceCharEach(s[1..], a, b);
      var t := ReplaceAll(s[1..], [a], [b]);
      if s[0] == a {
        assert [a] <= s;
        assert ReplaceAll(s, [a], [b]) == [b] + t;
      } else {
        assert !([a] <= s);
        assert ReplaceAll(s, [a], [b]) == [s[0]] + t;
      }
    }
  }

  /** A column-list index name without underscores survives the trip to
      its comma form and back. */
  lemma ModifyIndexRoundTrip(index: string, spec: IndexSpecValue)
    requires !IsFulltext(spec) && ',' !in index
    ensures ReplaceAll(ModifyIndex(index, spec), ",", "_") == index
  {
    ReplaceCharRoundTrip(index, '_', ',');
  }

  /** A fulltext spec whose name holds no comma is converted to its index
      name in parentheses: the shadow column the renamed index covers. */
  lemma FulltextSpecNamesIndex(m: map<string, string>, table: string)
    requires Field(m, "type") == "fulltext" && ',' !in Field(m, "name")
    ensures ConvertIndexSpec(Parsed(m), false, table) == Text("(" + ModifyIndex(Field(m, "name"), Parsed(m)) + ")")
  {
    ReplaceAbsentChar(Field(m, "name"), ',', "_");
    assert FulltextOpen == "(" + "ts_";
  }

  // ----- column formatters -------------------------------------------------

  /** The older `int`: `numeric(11)`, and the catalog precision taken from
      the descriptor. */
  function LegacyInt(v: FieldValues, asDbValue: bool): (r: Formatted)
    ensures asDbValue <==> r.DbValue?
    ensures asDbValue ==> r == DbValue("numeric", Some(v.precision))
    ensures !asDbValue && ArraySuffix(v) != "" ==> r.sql == "numeric(11)" + ArraySuffix(v)
    ensures !asDbValue && ArraySuffix(v) == "" ==>
              r.sql == "numeric(11)" + DefaultKeyword + IntToString(IntCast(v.default))
  {
    if asDbValue then DbValue("numeric", Some(v.precision)) else Ddl(IntegerLike("numeric(11)", v))
  }

  /** The older `int` DDL differs from the schema manager's only in its
      keyword: array suffix and default are the same. */
  lemma LegacyIntLikeInteger(v: FieldValues)
    ensures LegacyInt(v, false).sql[|"numeric(11)"|..] == Integer(v, false).sql[|"integer"|..]
  {
    IntegerLikeTail("numeric(11)", v);
    IntegerLikeTail("integer", v);
  }

  /** What follows the keyword of an integer-like DDL. */
  function IntegerTail(v: FieldValues): string {
    ArraySuffix(v) + (if ArraySuffix(v) != "" then "" else DefaultKeyword + IntToString(IntCast(v.default)))
  }

  lemma IntegerLikeTail(keyword: string, v: FieldValues)
    ensures |keyword| <= |IntegerLike(keyword, v)|
    ensures IntegerLike(keyword, v)[|keyword|..] == IntegerTail(v)
  {
    var av := ArraySuffix(v);
    assert IntegerLike(keyword, v) == keyword + IntegerTail(v) by {
      assert keyword + av + (if av != "" then "" else DefaultKeyword + IntToString(IntCast(v.default)))
          == keyword + (av + (if av != "" then "" else DefaultKeyword + IntToString(IntCast(v.default))));
    }
  }

  /** The older `decimal`: no default clause, and the catalog precision
      is always 9. */
  function LegacyDecimal(v: FieldValues, asDbValue: bool): (r: Formatted)
    ensures asDbValue <==> r.DbValue?
    ensures asDbValue ==> r == DbValue("numeric", Some(Str("9")))
  {
    if asDbValue then DbValue("numeric", Some(Str("9")))
    else Ddl("decimal(" + ToPhpString(DecimalPrecision(v)) + ")" + ArraySuffix(v))
  }

  /** The older `decimal` DDL is the schema manager's for the same column
      without a default. */
  lemma LegacyDecimalWithoutDefault(v: FieldValues)
    ensures LegacyDecimal(v, false).sql == Decimal(v.(default := Null), false).sql
    ensures IsNumeric(v.default) ==> |LegacyDecimal(v, false).sql| < |Decimal(v, false).sql|
  {
    assert !IsNumeric(Null);
  }

  /** The older `year`: `numeric(4)` with the array suffix. */
  function LegacyYear(v: FieldValues, asDbValue: bool): (r: Formatted)
    ensures asDbValue <==> r.DbValue?
    ensures asDbValue ==> r == DbValue("numeric", Some(Str("4")))
    ensures !asDbValue ==> |r.sql| >= 10 && r.sql[..10] == "numeric(4)" && r.sql[10..] == ArraySuffix(v)
  {
    if asDbValue then DbValue("numeric", Some(Str("4"))) else Ddl("numeric(4)" + ArraySuffix(v))
  }

  /** The older and newer `year` columns differ only in their type
      keyword. */
  lemma LegacyYearLikeYear(v: FieldValues)
    ensures LegacyYear(v, false).sql[10..] == Year(v, false).sql[12..]
  {
  }

  /** The older `enum`: a `varchar(255)` with the array suffix, the
      quoted default when the column is not an array, and the check on
      its options. */
  function LegacyEnum(v: FieldValues): string {
    var av := ArraySuffix(v);
    var default := if av != "" then "" else " default '" + ToPhpString(v.default) + "'";
    "varchar(255)" + av + default + " check (\"" + v.name + "\" in ('" + Join(v.enums, "', '") + "'))"
  }

  /** The two copies of the enum formatter write the same DDL, so the
      schema manager's read-back properties hold for the older one too. */
  lemma LegacyEnumAsEnum(v: FieldValues)
    ensures Enum(v) == Ddl(LegacyEnum(v))
  {
    var av := ArraySuffix(v);
    var default := if av != "" then "" else " default '" + ToPhpString(v.default) + "'";
    assert "varchar(255)" + av + default + EnumCheck(v.name, v.enums)
        == "varchar(255)" + av + default + " check (\"" + v.name + "\" in ('" + Join(v.enums, "', '") + "'))";
  }

  // ----- SELECT and DELETE statements --------------------------------------

  /** The parts of a query object the statement is built from. `filter`
      is what its `getFilter()` returns; `limit` is a scalar or an array. */
  datatype SqlQuery = SqlQuery(
    select: seq<string>,
    from: seq<string>,
    distinct: bool,
    delete: bool,
    where: seq<string>,
    filter: string,
    groupby: seq<string>,
    having: seq<string>,
    orderby: string,
    limit: PhpValue)

  /** The fatal `user_error` raised for a limit array without a `limit`
      key. */
  datatype QueryError = LimitKeyMissing(limit: map<string, PhpValue>)

  const LimitKeyword: string := " LIMIT "

  /** The clause for a scalar limit: `a,b` (a comma after the first
      character) is MySQL's `offset,count` and becomes
      ` OFFSET a LIMIT b`; anything else is written after ` LIMIT `. */
  function LegacyLimitSuffix(l: string): (r: string)
    ensures OffsetKeyword <= r || LimitKeyword <= r
  {
    match IndexOf(l, ",")
    case Some(p) =>
      if p > 0 then OffsetKeyword + ReplaceAll(l, ",", LimitKeyword)
      else LimitKeyword + l
    case None => LimitKeyword + l
  }

  /** The limit's contribution: nothing for an empty limit or an accepted
      array (which only sets the connection's limit), the error for an
      array without a `limit` key, the clause for a scalar. */
  function LimitPart(limit: PhpValue): (r: Result<string, QueryError>)
    ensures r.Err? <==> !IsEmpty(limit) && limit.Arr? && "limit" !in limit.entries
    ensures r.Ok? && r.value != "" ==> !IsEmpty(limit) && !limit.Arr?
  {
    if IsEmpty(limit) then Ok("")
    else if limit.Arr? then
      if "limit" in limit.entries then Ok("") else Err(LimitKeyMissing(limit.entries))
    else Ok(LegacyLimitSuffix(ToPhpString(limit)))
  }

  /** The statement's opening: `DELETE `, or `SELECT [DISTINCT ]` and the
      column list, or nothing when neither is asked for. */
  function Verb(q: SqlQuery): string {
    if q.delete then "DELETE "
    else if |q.select| > 0 then "SELECT " + (if q.distinct then "DISTINCT " else "") + Join(q.select, ", ")
    else ""
  }

  /** The optional clauses between the FROM list and the limit, each
      written when its part is non-empty. */
  function MiddleClauses(q: SqlQuery): string {
    (if |q.where| > 0 then " WHERE (" + q.filter + ")" else "")
    + (if |q.groupby| > 0 then " GROUP BY " + Join(q.groupby, ", ") else "")
    + (if |q.having| > 0 then " HAVING ( " + Join(q.having, " ) AND ( ") + " )" else "")
    + (if !IsEmpty(Str(q.orderby)) then " ORDER BY " + q.orderby else "")
  }

  /** `sqlQueryToString`: empty without a FROM list, the fatal error for a
      limit array without `limit`, and otherwise the statement whose head
      is the verb and the FROM list. */
  function SqlQueryToString(q: SqlQuery): (r: Result<string, QueryError>)
    ensures |q.from| == 0 ==> r == Ok("")
    ensures r.Err? <==> |q.from| > 0 && !IsEmpty(q.limit) && q.limit.Arr? && "limit" !in q.limit.entries
    ensures r.Ok? && |q.from| > 0 ==> Verb(q) + " FROM " + Join(q.from, " ") <= r.value
  {
    if |q.from| == 0 then Ok("")
    else
      var head := Verb(q) + " FROM " + Join(q.from, " ");
      match LimitPart(q.limit)
      case Err(e) => Err(e)
      case Ok(suffix) =>
        assert head <= head + (MiddleClauses(q) + suffix);
        assert head + MiddleClauses(q) + suffix == head + (MiddleClauses(q) + suffix);
        Ok(head + MiddleClauses(q) + suffix)
  }

  /** Reads a legacy limit clause back: ` OFFSET a LIMIT b` as count `b`
      at offset `a` (split at the first ` LIMIT `), ` LIMIT b` as count
      `b` alone. */
  function ParseLegacyLimit(t: string): Option<LimitClause> {
    if OffsetKeyword <= t then
      var rest := t[|OffsetKeyword|..];
      match IndexOf(rest, LimitKeyword)
      case Some(p) => Some(LimitClause(rest[p + |LimitKeyword|..], Some(rest[..p])))
      case None => None
    else if LimitKeyword <= t then Some(LimitClause(t[|LimitKeyword|..], None))
    else None
  }

  /** Replacing the only occurrence of a character. */
  lemma {:induction false} ReplaceOnlyChar(a: string, c: char, b: string, rep: string)
    requires c !in a && c !in b
    ensures ReplaceAll(a + [c] + b, [c], rep) == a + rep + b
    decreases |a|
  {
    var s := a + [c] + b;
    if |a| == 0 {
      assert a == [];
      ReplaceFirstChar(c, b, rep);
    } else {
      assert s == [a[0]] + (a[1..] + [c] + b);
      ConsNoMatch(a[0], a[1..] + [c] + b, c, rep);
      ReplaceOnlyChar(a[1..], c, b, rep);
      assert [a[0]] + (a[1..] + rep + b) == a + rep + b;
    }
  }

  lemma ReplaceFirstChar(c: char, b: string, rep: string)
    requires c !in b
    ensures ReplaceAll([] + [c] + b, [c], rep) == [] + rep + b
  {
    assert [] + [c] + b == [c] + b;
    ConsMatch(b, c, rep);
    ReplaceAbsentChar(b, c, rep);
  }

  lemma ConsNoMatch(x: char, t: string, c: char, rep: string)
    requires x != c
    ensures ReplaceAll([x] + t, [c], rep) == [x] + ReplaceAll(t, [c], rep)
  {
    assert ([x] + t)[0] == x;
    assert !([c] <= [x] + t);
    assert ([x] + t)[1..] == t;
  }

  lemma ConsMatch(t: string, c: char, rep: string)
    ensures ReplaceAll([c] + t, [c], rep) == rep + ReplaceAll(t, [c], rep)
  {
    assert [c] <= [c] + t;
    assert ([c] + t)[1..] == t;
  }

  /** An `offset,count` limit becomes ` OFFSET offset LIMIT count`. */
  lemma OffsetCountLimit(a: string, b: string)
    requires |a| > 0 && ',' !in a && ',' !in b
    ensures LegacyLimitSuffix(a + "," + b) == OffsetKeyword + a + LimitKeyword + b
  {
    IndexOfAfterHeadFree(a, ",", b);
    ReplaceOnlyChar(a, ',', b, LimitKeyword);
  }

  /** A limit without a comma, or with one only in front, is a plain row
      count: `strpos` finding the comma at position 0 reads as false. */
  lemma PlainCountLimit(l: string)
    requires ',' !in l || (|l| > 0 && l[0] == ',')
    ensures LegacyLimitSuffix(l) == LimitKeyword + l
  {
    if ',' !in l {
      ContainsChar(l, ',');
    } else {
      assert l == "" + "," + l[1..];
      IndexOfAfterHeadFree("", ",", l[1..]);
    }
  }

  /** An `offset,count` limit reads back as its count at its offset, when
      the offset holds no capital L. */
  lemma OffsetCountReadBack(a: string, b: string)
    requires |a| > 0 && ',' !in a && ',' !in b && 'L' !in a
    ensures ParseLegacyLimit(LegacyLimitSuffix(a + "," + b)) == Some(LimitClause(b, Some(a)))
  {
    OffsetCountLimit(a, b);
    var t := OffsetKeyword + a + LimitKeyword + b;
    assert t[|OffsetKeyword|..] == a + LimitKeyword + b;
    assert LimitKeyword[1] == 'L' && LimitKeyword[..1] == " ";
    IndexOfAfterCharFree(a, LimitKeyword, b, 1);
    var rest := a + LimitKeyword + b;
    assert rest[..|a|] == a;
    assert rest[|a| + |LimitKeyword|..] == b;
  }

  /** A plain row count reads back as itself with no offset. */
  lemma PlainCountReadBack(l: string)
    requires ',' !in l || (|l| > 0 && l[0] == ',')
    ensures ParseLegacyLimit(LegacyLimitSuffix(l)) == Some(LimitClause(l, None))
  {
    PlainCountLimit(l);
    var t := LimitKeyword + l;
    assert t[1] == 'L' && OffsetKeyword[1] == 'O';
    assert t[|LimitKeyword|..] == l;
  }

  /** The older driver's ` OFFSET a LIMIT b` and the query builder's
      ` LIMIT b OFFSET a` stand for the same clause. */
  lemma GenerationsAgree(a: string, b: string)
    requires |a| > 0 && ',' !in a && ',' !in b && 'L' !in a && 'O' !in b
    ensures ParseLegacyLimit(LegacyLimitSuffix(a + "," + b))
         == ParseLimitFragment(ClauseText(" ", LimitClause(b, Some(a))), " ")
  {
    OffsetCountReadBack(a, b);
    ParseClauseText(" ", LimitClause(b, Some(a)));
  }

  /** With a FROM list and a scalar limit, the statement ends with the
      limit's clause, which reads back as the limit's count and offset. */
  lemma StatementEndsWithLimit(q: SqlQuery, a: string, b: string)
    requires |q.from| > 0 && q.limit == Str(a + "," + b)
    requires |a| > 0 && ',' !in a && ',' !in b && 'L' !in a
    ensures SqlQueryToString(q).Ok?
    ensures var t := SqlQueryToString(q).value;
            var suffix := LegacyLimitSuffix(a + "," + b);
            |suffix| <= |t| && ParseLegacyLimit(t[|t| - |suffix|..]) == Some(LimitClause(b, Some(a)))
  {
    var l := a + "," + b;
    assert !IsEmpty(q.limit) by {
      assert l[|a|] == ',';
    }
    var head := Verb(q) + " FROM " + Join(q.from, " ") + MiddleClauses(q);
    var suffix := LegacyLimitSuffix(l);
    assert SqlQueryToString(q).value == head + suffix;
    assert (head + suffix)[|head + suffix| - |suffix|..] == suffix;
    OffsetCountReadBack(a, b);
  }
}

=== FILE: naming.dfy ===
/** Index and trigger identifiers (code/PostgreSQLSchemaManager.php,
    buildPostgresIndexName and buildPostgresTriggerName). MD5 is not
    modelled: it is a parameter returning 32 lower-case hex digits. */
module Naming {

  /** PostgreSQL's identifier length limit (NAMEDATALEN - 1). */
  const MaxIdentifierLength: nat := 63

  predicate IsHexDigit(c: char) {
    '0' <= c <= '9' || 'a' <= c <= 'f'
  }

  /** An MD5 digest as PHP's `md5()` returns it. */
  type Digest = s: string | |s| == 32 && forall i :: 0 <= i < |s| ==> IsHexDigit(s[i])
    witness "00000000000000000000000000000000"

  /** The default index prefix and the trigger prefix. */
  const IndexPrefix: string := "ix"
  const TriggerPrefix: string := "ts"

  /** `buildPostgresIndexName`: `<prefix>_` followed by the MD5 of
      `<table>_<index>`, cut to 63 characters. */
  function BuildIndexName(md5: string -> Digest, tableName: string, indexName: string, prefix: string): (r: string)
    ensures |r| <= MaxIdentifierLength
    ensures r <= prefix + "_" + md5(tableName + "_" + indexName)
    ensures |prefix| <= 30 ==> r == prefix + "_" + md5(tableName + "_" + indexName)
    ensures |prefix| > 30 ==> |r| == MaxIdentifierLength
  {
    var full := prefix + "_" + md5(tableName + "_" + indexName);
    if |full| > MaxIdentifierLength then full[..MaxIdentifierLength] else full
  }

  /** `buildPostgresTriggerName`: the index-name construction with prefix
      `ts`. */
  function BuildTriggerName(md5: string -> Digest, tableName: string, triggerName: string): (r: string)
    ensures |r| == 35 && r[..3] == "ts_"
    ensures r[3..] == md5(tableName + "_" + triggerName)
  {
    BuildIndexName(md5, tableName, triggerName, TriggerPrefix)
  }

  /** `preg_replace('/^ix_/', 'ts_', $name)`, as `indexList` derives a
      fulltext index's trigger name. */
  function IndexToTriggerName(name: string): (r: string)
    ensures |r| == |name|
    ensures "ix_" <= name ==> r[..3] == "ts_" && r[3..] == name[3..]
    ensures !("ix_" <= name) ==> r == name
  {
    if "ix_" <= name then "ts_" + name[3..] else name
  }

  /** A default-prefixed index name is `ix_` and the 32-digit hash; it is
      never truncated. */
  lemma IndexNameShape(md5: string -> Digest, tableName: string, indexName: string)
    ensures var r := BuildIndexName(md5, tableName, indexName, IndexPrefix);
            |r| == 35 && r[..3] == "ix_" && r[3..] == md5(tableName + "_" + indexName)
  {
  }

  /** Rewriting the leading `ix_` of an index name to `ts_` gives the name
      of the trigger built for the same table and index. */
  lemma TriggerNameFromIndexName(md5: string -> Digest, tableName: string, indexName: string)
    ensures IndexToTriggerName(BuildIndexName(md5, tableName, indexName, IndexPrefix))
         == BuildTriggerName(md5, tableName, indexName)
  {
    var ix := BuildIndexName(md5, tableName, indexName, IndexPrefix);
    var ts := BuildTriggerName(md5, tableName, indexName);
    assert ix[..3] == "ix_";
    assert "ix_" <= ix;
    assert ts == ts[..3] + ts[3..];
  }

  /** Index names and trigger names never coincide, whatever the tables and
      names they are built from. */
  lemma IndexAndTriggerNamesDiffer(md5: string -> Digest, t1: string, i1: string, t2: string, i2: string)
    ensures BuildIndexName(md5, t1, i1, IndexPrefix) != BuildTriggerName(md5, t2, i2)
  {
    var ix := BuildIndexName(md5, t1, i1, IndexPrefix);
    var ts := BuildTriggerName(md5, t2, i2);
    assert ix[0] == 'i' && ts[0] == 't';
  }

  /** The hash covers `<table>_<index>` only, so moving an underscore-joined
      part from the table name to the index name gives the same identifier. */
  lemma UnderscoreAmbiguity(md5: string -> Digest, table: string, middle: string, index: string, prefix: string)
    ensures BuildIndexName(md5, table + "_" + middle, index, prefix)
         == BuildIndexName(md5, table, middle + "_" + index, prefix)
  {
    assert (table + "_" + middle) + "_" + index == table + "_" + (middle + "_" + index);
  }
}

=== FILE: outcome.dfy ===
/** Optional values and error-carrying results, used wherever the PHP code
    returns `false`, raises an exception or leaves an array entry unset. */
module Outcome {

  /** A value that may be absent (PHP `false`/`null` returns, unset keys). */
  datatype Option<+T> = None | Some(value: T) {

    /** The wrapped value, or `default` when there is none. */
    function GetOr(default: T): T {
      match this
      case Some(v) => v
      case None => default
    }
  }

  /** Either a successful value or an error. */
  datatype Result<+T, +E> = Ok(value: T) | Err(error: E)
}

=== FILE: php_strings.dfy ===
/** The PHP string primitives the driver is built from (`strpos`, `explode`,
    `implode`, `str_replace`, `substr_count`, `trim`, integer printing and
    the integer-prefix parse behind `(int)`), stated over `seq<char>`.
    PHP strings are byte strings; here one `char` stands for one byte. */
module PhpStrings {
  import opened Outcome

  /** `p` occurs in `s` starting at position `i`. */
  predicate OccursAt(s: string, p: string, i: nat) {
    i + |p| <= |s| && s[i..i + |p|] == p
  }

  /** A text whose first character differs from the pattern's does not
      start with the pattern. */
  lemma NotPrefixByHead(p: string, t: string)
    requires |p| > 0 && |t| > 0 && p[0] != t[0]
    ensures !(p <= t)
  {
    if |p| <= |t| {
      assert t[..|p|][0] != p[0];
    }
  }

  /** `p` occurs somewhere in `s`. */
  ghost predicate Contains(s: string, p: string) {
    exists i: nat :: OccursAt(s, p, i)
  }

  /** The first character of `sep` never reappears later in `sep`, so two
      occurrences of `sep` cannot overlap and no occurrence can start inside
      a text that does not itself contain `sep` and end after it. */
  predicate HeadIsUnique(sep: string) {
    |sep| > 0 && sep[0] !in sep[1..]
  }

  lemma OccursAtShift(s: string, p: string, j: nat)
    requires |s| > 0
    ensures OccursAt(s, p, j + 1) <==> OccursAt(s[1..], p, j)
  {
    if j + 1 + |p| <= |s| {
      assert s[j + 1..j + 1 + |p|] == s[1..][j..j + |p|];
    }
  }

  /** `strpos($s, $p)`: the first position at which `p` occurs. */
  function IndexOf(s: string, p: string): (r: Option<nat>)
    requires |p| > 0
    ensures r.Some? ==> OccursAt(s, p, r.value)
    ensures r.Some? ==> forall j: nat :: j < r.value ==> !OccursAt(s, p, j)
    ensures r.None? <==> !Contains(s, p)
    decreases |s|
  {
    if |s| < |p| then
      None
    else if p <= s then
      assert OccursAt(s, p, 0) by {
        assert s[0..|p|] == p;
      }
      Some(0)
    else
      assert !OccursAt(s, p, 0);
      match IndexOf(s[1..], p)
      case None =>
        ShiftedAbsent(s, p);
        None
      case Some(k) =>
        ShiftedFirst(s, p, k);
        Some(k + 1)
  }

  /** Absent from the tail and not at the start: absent. */
  lemma ShiftedAbsent(s: string, p: string)
    requires |s| > 0 && !OccursAt(s, p, 0) && !Contains(s[1..], p)
    ensures !Contains(s, p)
  {
    forall j: nat ensures !OccursAt(s, p, j) {
      if j > 0 { OccursAtShift(s, p, j - 1); }
    }
  }

  /** The first occurrence in the tail, when the text does not start with
      the pattern, is the first occurrence in the text, one further on. */
  lemma ShiftedFirst(s: string, p: string, k: nat)
    requires |s| > 0 && !OccursAt(s, p, 0)
    requires OccursAt(s[1..], p, k) && forall j: nat :: j < k ==> !OccursAt(s[1..], p, j)
    ensures OccursAt(s, p, k + 1) && forall j: nat :: j < k + 1 ==> !OccursAt(s, p, j)
    ensures Contains(s, p)
  {
    OccursAtShift(s, p, k);
    forall j: nat | j < k + 1 ensures !OccursAt(s, p, j) {
      if j > 0 { OccursAtShift(s, p, j - 1); }
    }
  }

  /** `explode($sep, $s)`: the pieces of `s` between occurrences of `sep`,
      found left to right. */
  function Explode(s: string, sep: string): (parts: seq<string>)
    requires |sep| > 0
    ensures |parts| >= 1
    decreases |s|
  {
    if sep <= s then
      [""] + Explode(s[|sep|..], sep)
    else if |s| == 0 then
      [""]
    else
      var rest := Explode(s[1..], sep);
      [[s[0]] + rest[0]] + rest[1..]
  }

  /** `implode($sep, $parts)`. */
  function Join(parts: seq<string>, sep: string): string
  {
    if |parts| == 0 then ""
    else if |parts| == 1 then parts[0]
    else parts[0] + sep + Join(parts[1..], sep)
  }

  /** Exploding and imploding again gives back the original text. */
  lemma {:induction false} JoinExplode(s: string, sep: string)
    requires |sep| > 0
    ensures Join(Explode(s, sep), sep) == s
    decreases |s|
  {
    if sep <= s {
      var t := s[|sep|..];
      assert Explode(s, sep) == [""] + Explode(t, sep);
      JoinExplode(t, sep);
      JoinCons("", Explode(t, sep), sep);
      assert "" + sep + t == s by {
        assert s[..|sep|] == sep;
      }
    } else if |s| > 0 {
      var t := s[1..];
      var e := Explode(t, sep);
      assert Explode(s, sep) == [[s[0]] + e[0]] + e[1..];
      JoinExplode(t, sep);
      JoinExtendHead(s[0], e, sep);
      assert [s[0]] + t == s;
    }
  }

  lemma JoinCons(x: string, rest: seq<string>, sep: string)
    requires |rest| >= 1
    ensures Join([x] + rest, sep) == x + sep + Join(rest, sep)
  {
    assert ([x] + rest)[1..] == rest;
  }

  lemma JoinExtendHead(c: char, parts: seq<string>, sep: string)
    requires |parts| >= 1
    ensures Join([[c] + parts[0]] + parts[1..], sep) == [c] + Join(parts, sep)
  {
    var q := [[c] + parts[0]] + parts[1..];
    if |parts| > 1 {
      assert q[1..] == parts[1..];
    }
  }

  /** When `sep` cannot straddle the end of `p`, `explode` stops exactly
      after `p`. */
  lemma {:induction false} ExplodeAfterPiece(p: string, sep: string, rest: string)
    requires HeadIsUnique(sep)
    requires !Contains(p, sep)
    ensures Explode(p + sep + rest, sep) == [p] + Explode(rest, sep)
    decreases |p|
  {
    var s := p + sep + rest;
    if |p| == 0 {
      assert s == sep + rest;
      assert s[|sep|..] == rest;
    } else {
      var s1 := p[1..] + sep + rest;
      var e := Explode(s1, sep);
      assert Explode(s, sep) == [[p[0]] + e[0]] + e[1..] by {
        assert !(sep <= s) by {
          if |sep| <= |p| {
            assert !OccursAt(p, sep, 0);
            assert s[..|sep|] == p[..|sep|];
          } else {
            assert sep[1..][|p| - 1] == sep[|p|];
            assert s[|p|] == sep[0];
            assert s[|p|] != sep[|p|];
          }
        }
        assert s[0] == p[0] && s[1..] == s1;
      }
      assert !Contains(p[1..], sep) by {
        forall j: nat ensures !OccursAt(p[1..], sep, j) {
          OccursAtShift(p, sep, j);
        }
      }
      ExplodeAfterPiece(p[1..], sep, rest);
      assert [p[0]] + p[1..] == p;
      assert ([p[1..]] + Explode(rest, sep))[1..] == Explode(rest, sep);
    }
  }

  /** Joining pieces that do not contain the separator and exploding again
      recovers the pieces. */
  lemma {:induction false} ExplodeJoin(parts: seq<string>, sep: string)
    requires HeadIsUnique(sep)
    requires |parts| >= 1
    requires forall i :: 0 <= i < |parts| ==> !Contains(parts[i], sep)
    ensures Explode(Join(parts, sep), sep) == parts
    decreases |parts|
  {
    if |parts| == 1 {
      ExplodeNoSeparator(parts[0], sep);
    } else {
      ExplodeJoin(parts[1..], sep);
      ExplodeAfterPiece(parts[0], sep, Join(parts[1..], sep));
      assert Join(parts, sep) == parts[0] + sep + Join(parts[1..], sep);
      assert parts == [parts[0]] + parts[1..];
    }
  }

  /** A text without the separator explodes into itself. */
  lemma {:induction false} ExplodeNoSeparator(s: string, sep: string)
    requires |sep| > 0
    requires !Contains(s, sep)
    ensures Explode(s, sep) == [s]
    decreases |s|
  {
    if sep <= s {
      assert s[0..|sep|] == sep;
      assert OccursAt(s, sep, 0);
    } else if |s| > 0 {
      assert !Contains(s[1..], sep) by {
        forall j: nat ensures !OccursAt(s[1..], sep, j) {
          OccursAtShift(s, sep, j);
        }
      }
      ExplodeNoSeparator(s[1..], sep);
      assert [s[0]] + s[1..] == s;
    }
  }

  /** A single character `c` is contained in `s` exactly when it is an
      element of it. */
  lemma ContainsChar(s: string, c: char)
    ensures Contains(s, [c]) <==> c in s
  {
    if c in s {
      var i :| 0 <= i < |s| && s[i] == c;
      assert OccursAt(s, [c], i);
    }
    if Contains(s, [c]) {
      var i: nat :| OccursAt(s, [c], i);
      assert s[i..i + 1][0] == s[i];
    }
  }

  /** When the last character of `p` occurs neither earlier in `p` nor in
      `pre`, the first occurrence of `p` in `pre + p + post` is right after
      `pre`. */
  lemma IndexOfAfterFree(pre: string, p: string, post: string)
    requires |p| > 0 && p[|p| - 1] !in pre && p[|p| - 1] !in p[..|p| - 1]
    ensures IndexOf(pre + p + post, p) == Some(|pre|)
  {
    IndexOfAfterCharFree(pre, p, post, |p| - 1);
  }

  /** When the first character of `p` does not occur in `pre`, the first
      occurrence of `p` in `pre + p + post` is right after `pre`. */
  lemma IndexOfAfterHeadFree(pre: string, p: string, post: string)
    requires |p| > 0 && p[0] !in pre
    ensures IndexOf(pre + p + post, p) == Some(|pre|)
  {
    IndexOfAfterCharFree(pre, p, post, 0);
  }

  /** The pieces `explode` produces never contain a one-character
      separator. */
  lemma {:induction false} ExplodePiecesFree(s: string, c: char)
    ensures forall i :: 0 <= i < |Explode(s, [c])| ==> c !in Explode(s, [c])[i]
    decreases |s|
  {
    if [c] <= s {
      ExplodePiecesFree(s[1..], c);
    } else if |s| > 0 {
      ExplodePiecesFree(s[1..], c);
      assert s[0] != c;
    }
  }

  /** `substr($s, $start)`: empty when the start lies past the end. */
  function SubstrFrom(s: string, start: nat): (r: string)
    ensures start <= |s| ==> s == s[..start] + r
    ensures start > |s| ==> r == ""
  {
    if start <= |s| then s[start..] else ""
  }

  /** `substr($s, 0, -$n)`: empty when the text is shorter than `n`. */
  function DropLast(s: string, n: nat): (r: string)
    ensures n <= |s| ==> s == r + s[|s| - n..]
    ensures n > |s| ==> r == ""
  {
    if n <= |s| then s[..|s| - n] else ""
  }

  /** When `p[k]` occurs neither in `pre` nor earlier in `p`, the first
      occurrence of `p` in `pre + p + post` is right after `pre`. */
  lemma IndexOfAfterCharFree(pre: string, p: string, post: string, k: nat)
    requires k < |p| && p[k] !in pre && p[k] !in p[..k]
    ensures IndexOf(pre + p + post, p) == Some(|pre|)
  {
    var s := pre + p + post;
    assert s[|pre|..|pre| + |p|] == p;
    assert OccursAt(s, p, |pre|);
    forall j: nat | j < |pre| ensures !OccursAt(s, p, j) {
      if j + |p| <= |s| {
        assert s[j..j + |p|][k] == s[j + k];
        if j + k < |pre| {
          assert s[j + k] == pre[j + k];
        } else {
          assert s[j + k] == p[j + k - |pre|] == p[..k][j + k - |pre|];
        }
      }
    }
  }

  /** `str_replace($p, $r, $s)`: every occurrence of `p`, found left to
      right without overlap, replaced by `r`. */
  function ReplaceAll(s: string, p: string, r: string): string
    requires |p| > 0
    decreases |s|
  {
    if p <= s then r + ReplaceAll(s[|p|..], p, r)
    else if |s| == 0 then ""
    else [s[0]] + ReplaceAll(s[1..], p, r)
  }

  /** A non-empty text followed by more: its head, then its tail and the more. */
  lemma ConcatHeadTail(p: string, rest: string)
    requires |p| > 0
    ensures (p + rest)[0] == p[0] && (p + rest)[1..] == p[1..] + rest
    ensures [p[0]] + (p[1..] + rest) == p + rest
  {
    assert (p + rest)[1..] == p[1..] + rest;
  }

  /** Regrouping a concatenation of five texts to the right. */
  lemma RightAssoc5(a: string, b: string, c: string, d: string, e: string)
    ensures a + b + c + d + e == a + (b + (c + (d + e)))
  {
  }

  /** Regrouping five texts around the third. */
  lemma RegroupAfterThird(a: string, b: string, c: string, d: string, e: string)
    ensures a + (b + c + d + e) == (a + b + c) + (d + e)
  {
  }

  /** Where the pattern does not start, the first character is kept. */
  lemma ReplaceAllNoMatch(s: string, p: string, r: string)
    requires |p| > 0 && |s| > 0 && !(p <= s)
    ensures ReplaceAll(s, p, r) == [s[0]] + ReplaceAll(s[1..], p, r)
  {
  }

  /** Replacing a character that does not occur changes nothing. */
  lemma {:induction false} ReplaceAbsentChar(s: string, a: char, b: string)
    requires a !in s
    ensures ReplaceAll(s, [a], b) == s
    decreases |s|
  {
    if |s| > 0 {
      assert s[0] != a;
      assert !([a] <= s);
      ReplaceAbsentChar(s[1..], a, b);
      assert [s[0]] + s[1..] == s;
    }
  }

  /** Replacing `a` by `b` and then `b` by `a` restores a text in which `b`
      did not occur. */
  lemma {:induction false} ReplaceCharRoundTrip(s: string, a: char, b: char)
    requires b !in s
    ensures ReplaceAll(ReplaceAll(s, [a], [b]), [b], [a]) == s
    decreases |s|
  {
    if |s| > 0 {
      ReplaceCharRoundTrip(s[1..], a, b);
      if s[0] == a {
        assert [a] <= s;
        assert ReplaceAll(s, [a], [b]) == [b] + ReplaceAll(s[1..], [a], [b]);
      } else {
        assert !([a] <= s);
        assert ReplaceAll(s, [a], [b]) == [s[0]] + ReplaceAll(s[1..], [a], [b]);
      }
      assert s == [s[0]] + s[1..];
    }
  }

  /** `substr_count($s, $p)`: non-overlapping occurrences, left to right. */
  function CountOccurrences(s: string, p: string): nat
    requires |p| > 0
    decreases |s|
  {
    if p <= s then 1 + CountOccurrences(s[|p|..], p)
    else if |s| == 0 then 0
    else CountOccurrences(s[1..], p)
  }

  /** The characters PHP's `trim` removes when given no character list. */
  const Whitespace: set<char> := {' ', '\t', '\n', '\r', '\0', '\U{000B}'}

  /** `ltrim($s, $cs)`. */
  function TrimLeft(s: string, cs: set<char>): (r: string)
    ensures |r| <= |s| && r == s[|s| - |r|..]
    ensures |r| > 0 ==> r[0] !in cs
    ensures forall i :: 0 <= i < |s| - |r| ==> s[i] in cs
    decreases |s|
  {
    if |s| > 0 && s[0] in cs then
      var r := TrimLeft(s[1..], cs);
      assert s[1..][|s| - 1 - |r|..] == s[|s| - |r|..];
      assert forall i :: 0 < i < |s| - |r| ==> s[i] == s[1..][i - 1];
      r
    else s
  }

  /** `rtrim($s, $cs)`. */
  function TrimRight(s: string, cs: set<char>): (r: string)
    ensures r <= s
    ensures |r| > 0 ==> r[|r| - 1] !in cs
    ensures forall i :: |r| <= i < |s| ==> s[i] in cs
    decreases |s|
  {
    if |s| > 0 && s[|s| - 1] in cs then TrimRight(s[..|s| - 1], cs) else s
  }

  /** `trim($s, $cs)`. */
  function Trim(s: string, cs: set<char>): string
  {
    TrimRight(TrimLeft(s, cs), cs)
  }

  /** A suffix `l` of `s` whose prefix `r` leaves only trimmed characters
      after it sits in `s` between the cut-off front and those characters. */
  lemma TrimmedParts(s: string, l: string, r: string, cs: set<char>)
    requires |l| <= |s| && l == s[|s| - |l|..]
    requires forall i :: 0 <= i < |s| - |l| ==> s[i] in cs
    requires r <= l && forall i :: |r| <= i < |l| ==> l[i] in cs
    ensures var k := |s| - |l|;
            && k + |r| <= |s| && r == s[k..k + |r|]
            && (forall i :: 0 <= i < k ==> s[i] in cs)
            && (forall i :: k + |r| <= i < |s| ==> s[i] in cs)
  {
    var k := |s| - |l|;
    assert r == l[..|r|];
    assert s[k..][..|r|] == s[k..k + |r|];
    forall i | k + |r| <= i < |s| ensures s[i] in cs {
      assert s[i] == l[i - k];
    }
  }

  /** A text that neither starts nor ends with a trimmed character is left
      as it is by `trim`. */
  lemma TrimUntouched(s: string, cs: set<char>)
    requires |s| > 0 ==> s[0] !in cs && s[|s| - 1] !in cs
    ensures Trim(s, cs) == s
  {
  }

  /** Trimming a text wrapped in trimmed characters around a core that
      neither starts nor ends with one recovers the core. */
  lemma {:induction false} TrimWrapped(pre: string, core: string, post: string, cs: set<char>)
    requires forall i :: 0 <= i < |pre| ==> pre[i] in cs
    requires forall i :: 0 <= i < |post| ==> post[i] in cs
    requires |core| > 0 && core[0] !in cs && core[|core| - 1] !in cs
    ensures Trim(pre + core + post, cs) == core
  {
    TrimLeftPrefix(pre, core + post, cs);
    assert pre + core + post == pre + (core + post);
    TrimRightSuffix(core, post, cs);
  }

  lemma {:induction false} TrimLeftPrefix(pre: string, s: string, cs: set<char>)
    requires forall i :: 0 <= i < |pre| ==> pre[i] in cs
    requires |s| > 0 && s[0] !in cs
    ensures TrimLeft(pre + s, cs) == s
    decreases |pre|
  {
    if |pre| > 0 {
      assert (pre + s)[1..] == pre[1..] + s;
      TrimLeftPrefix(pre[1..], s, cs);
    } else {
      assert pre + s == s;
    }
  }

  lemma {:induction false} TrimRightSuffix(s: string, post: string, cs: set<char>)
    requires forall i :: 0 <= i < |post| ==> post[i] in cs
    requires |s| > 0 && s[|s| - 1] !in cs
    ensures TrimRight(s + post, cs) == s
    decreases |post|
  {
    if |post| > 0 {
      assert (s + post)[..|s + post| - 1] == s + post[..|post| - 1];
      TrimRightSuffix(s, post[..|post| - 1], cs);
    } else {
      assert s + post == s;
    }
  }

  /** Right-trimming a text whose head ends in a kept character only
      touches what follows the head. */
  lemma {:induction false} TrimRightAppend(a: string, b: string, cs: set<char>)
    requires |a| > 0 && a[|a| - 1] !in cs
    ensures TrimRight(a + b, cs) == a + TrimRight(b, cs)
    decreases |b|
  {
    if |b| > 0 && b[|b| - 1] in cs {
      assert (a + b)[..|a + b| - 1] == a + b[..|b| - 1];
      TrimRightAppend(a, b[..|b| - 1], cs);
    } else if |b| == 0 {
      assert a + b == a;
    }
  }

  // ----- integers as text -------------------------------------------------

  predicate IsDigit(c: char) { '0' <= c <= '9' }

  function DigitChar(d: nat): (c: char)
    requires d < 10
    ensures IsDigit(c)
  {
    "0123456789"[d]
  }

  function DigitValue(c: char): (d: nat)
    requires IsDigit(c)
    ensures d < 10
  {
    (c as int - '0' as int) as nat
  }

  /** Decimal rendering of a natural number, as PHP prints an integer. */
  function NatToString(n: nat): (r: string)
    ensures |r| > 0
    ensures forall i :: 0 <= i < |r| ==> IsDigit(r[i])
    decreases n
  {
    if n < 10 then [DigitChar(n)] else NatToString(n / 10) + [DigitChar(n % 10)]
  }

  /** Decimal rendering of an integer, with a leading `-` when negative. */
  function IntToString(i: int): (r: string)
    ensures |r| > 0
  {
    if i < 0 then "-" + NatToString(-i) else NatToString(i)
  }

  /** The number of leading decimal digits of `s`. */
  function LeadingDigits(s: string): (n: nat)
    ensures n <= |s|
    ensures forall i :: 0 <= i < n ==> IsDigit(s[i])
    ensures n < |s| ==> !IsDigit(s[n])
    decreases |s|
  {
    if |s| > 0 && IsDigit(s[0]) then 1 + LeadingDigits(s[1..]) else 0
  }

  /** The value of a run of decimal digits. */
  function DigitsValue(ds: string): nat
    requires forall i :: 0 <= i < |ds| ==> IsDigit(ds[i])
    decreases |ds|
  {
    if |ds| == 0 then 0 else DigitsValue(ds[..|ds| - 1]) * 10 + DigitValue(ds[|ds| - 1])
  }

  /** The whitespace PHP skips before a number. */
  const NumericWhitespace: set<char> := {' ', '\t', '\n', '\r', '\U{000B}', '\U{000C}'}

  /** The integer-prefix parse behind PHP's `(int)` on a string: leading
      whitespace, an optional sign, then as many digits as follow; no digits
      give 0. */
  function ParseIntPrefix(s: string): int
  {
    var t := TrimLeft(s, NumericWhitespace);
    var sign := if |t| > 0 && (t[0] == '-' || t[0] == '+') then t[0] else ' ';
    var body := if sign == ' ' then t else t[1..];
    var n := LeadingDigits(body);
    var v: int := DigitsValue(body[..n]);
    if sign == '-' then -v else v
  }

  lemma {:induction false} NatToStringValue(n: nat)
    ensures DigitsValue(NatToString(n)) == n
    decreases n
  {
    var r := NatToString(n);
    if n >= 10 {
      NatToStringValue(n / 10);
      assert r[..|r| - 1] == NatToString(n / 10);
    }
  }

  /** Printing an integer and reading it back with `(int)` gives the same
      integer. */
  lemma ParseIntToString(i: int)
    ensures ParseIntPrefix(IntToString(i)) == i
  {
    var s := IntToString(i);
    var digits := NatToString(if i < 0 then -i else i);
    assert s[0] !in NumericWhitespace by {
      if i >= 0 { assert IsDigit(s[0]); }
    }
    assert TrimLeft(s, NumericWhitespace) == s;
    var body := if i < 0 then s[1..] else s;
    assert body == digits;
    assert LeadingDigits(body) == |body| by {
      LeadingDigitsAll(body);
    }
    assert body[..|body|] == body;
    NatToStringValue(if i < 0 then -i else i);
  }

  lemma {:induction false} LeadingDigitsAll(s: string)
    requires forall i :: 0 <= i < |s| ==> IsDigit(s[i])
    ensures LeadingDigits(s) == |s|
    decreases |s|
  {
    if |s| > 0 { LeadingDigitsAll(s[1..]); }
  }
}

=== FILE: php_values.dfy ===
/** The slice of PHP's dynamic values the driver inspects: `empty()`,
    truthiness, `isset()`, `is_numeric()`, string interpolation, the `(int)`
    cast and `addslashes()`. Floating-point values are not modelled. */
module PhpValues {
  import opened PhpStrings

  /** A PHP value. Arrays are keyed by strings, as every array the driver
      inspects is. */
  datatype PhpValue =
    | Null
    | Bool(b: bool)
    | Int(i: int)
    | Str(s: string)
    | Arr(entries: map<string, PhpValue>)

  /** `empty($v)` for a value that is present. */
  predicate IsEmpty(v: PhpValue) {
    match v
    case Null => true
    case Bool(b) => !b
    case Int(i) => i == 0
    case Str(s) => s == "" || s == "0"
    case Arr(m) => |m| == 0
  }

  /** `isset($a[$k])`: the key is present and its value is not null. */
  predicate IsSetIn(m: map<string, PhpValue>, k: string) {
    k in m && !m[k].Null?
  }

  /** `$a[$k]`, reading null for a missing key. */
  function Lookup(m: map<string, PhpValue>, k: string): PhpValue {
    if k in m then m[k] else Null
  }

  /** A run of digits forming an exponent, `e`/`E` with an optional sign, or
      nothing at all. */
  predicate ExponentOrEnd(s: string) {
    |s| == 0 ||
    (s[0] in {'e', 'E'} &&
      var e := if |s| > 1 && (s[1] == '+' || s[1] == '-') then s[2..] else s[1..];
      LeadingDigits(e) > 0 && LeadingDigits(e) == |e|)
  }

  /** An unsigned decimal number with at least one digit, an optional
      fractional part and an optional exponent. */
  predicate UnsignedNumber(u: string) {
    var n1 := LeadingDigits(u);
    var afterInt := u[n1..];
    var hasDot := |afterInt| > 0 && afterInt[0] == '.';
    var afterDot := if hasDot then afterInt[1..] else afterInt;
    var n2 := if hasDot then LeadingDigits(afterDot) else 0;
    n1 + n2 > 0 && ExponentOrEnd(afterDot[n2..])
  }

  /** `is_numeric` on a string (PHP 8): optional surrounding whitespace, an
      optional sign, then an unsigned number. */
  predicate IsNumericString(s: string) {
    var t := TrimRight(TrimLeft(s, NumericWhitespace), NumericWhitespace);
    var u := if |t| > 0 && (t[0] == '+' || t[0] == '-') then t[1..] else t;
    UnsignedNumber(u)
  }

  /** The characters a numeric string can be made of. */
  predicate NumericChar(c: char) {
    c in NumericWhitespace || IsDigit(c) || c in {'+', '-', '.', 'e', 'E'}
  }

  predicate AllNumericChars(s: string) {
    forall i :: 0 <= i < |s| ==> NumericChar(s[i])
  }

  lemma NumericCharsSplit(s: string, k: nat)
    requires k <= |s| && AllNumericChars(s[..k]) && AllNumericChars(s[k..])
    ensures AllNumericChars(s)
  {
    forall i | 0 <= i < |s| ensures NumericChar(s[i]) {
      if i < k { assert s[i] == s[..k][i]; } else { assert s[i] == s[k..][i - k]; }
    }
  }

  lemma DigitsAreNumericChars(d: string)
    requires forall i :: 0 <= i < |d| ==> IsDigit(d[i])
    ensures AllNumericChars(d)
  {
  }

  lemma ExponentChars(ex: string)
    requires ExponentOrEnd(ex)
    ensures AllNumericChars(ex)
  {
    if |ex| > 0 {
      var e := if |ex| > 1 && (ex[1] == '+' || ex[1] == '-') then ex[2..] else ex[1..];
      forall i | 0 <= i < |ex| ensures NumericChar(ex[i]) {
        if i >= |ex| - |e| { assert ex[i] == e[i - (|ex| - |e|)]; }
      }
    }
  }

  lemma UnsignedNumberChars(u: string)
    requires UnsignedNumber(u)
    ensures AllNumericChars(u)
  {
    var n1 := LeadingDigits(u);
    var afterInt := u[n1..];
    var hasDot := |afterInt| > 0 && afterInt[0] == '.';
    var afterDot := if hasDot then afterInt[1..] else afterInt;
    var n2 := if hasDot then LeadingDigits(afterDot) else 0;
    assert AllNumericChars(afterDot) by {
      ExponentChars(afterDot[n2..]);
      DigitsAreNumericChars(afterDot[..n2]);
      NumericCharsSplit(afterDot, n2);
    }
    assert AllNumericChars(afterInt) by {
      if hasDot {
        assert AllNumericChars(afterInt[..1]);
        NumericCharsSplit(afterInt, 1);
      }
    }
    DigitsAreNumericChars(u[..n1]);
    NumericCharsSplit(u, n1);
  }

  /** A numeric string holds nothing but whitespace, digits, signs, a dot and
      exponent letters. */
  lemma NumericStringChars(s: string)
    requires IsNumericString(s)
    ensures AllNumericChars(s)
  {
    var t1 := TrimLeft(s, NumericWhitespace);
    var t := TrimRight(t1, NumericWhitespace);
    var u := if |t| > 0 && (t[0] == '+' || t[0] == '-') then t[1..] else t;
    UnsignedNumberChars(u);
    if t != u {
      assert AllNumericChars(t[..1]);
      NumericCharsSplit(t, 1);
    }
    assert t == t1[..|t|];
    assert AllNumericChars(t1[|t|..]);
    NumericCharsSplit(t1, |t|);
    var k := |s| - |t1|;
    assert t1 == s[k..];
    assert AllNumericChars(s[..k]);
    NumericCharsSplit(s, k);
  }

  /** `is_numeric($v)`. */
  predicate IsNumeric(v: PhpValue) {
    v.Int? || (v.Str? && IsNumericString(v.s))
  }

  /** The text PHP interpolates for a value in a double-quoted string. */
  function ToPhpString(v: PhpValue): string {
    match v
    case Null => ""
    case Bool(b) => if b then "1" else ""
    case Int(i) => IntToString(i)
    case Str(s) => s
    case Arr(_) => "Array"
  }

  /** The text of a numeric value holds only number characters. */
  lemma NumericTextChars(v: PhpValue)
    requires IsNumeric(v)
    ensures AllNumericChars(ToPhpString(v))
  {
    if v.Int? {
      var digits := NatToString(if v.i < 0 then -v.i else v.i);
      DigitsAreNumericChars(digits);
      if v.i < 0 {
        assert IntToString(v.i)[1..] == digits;
        NumericCharsSplit(IntToString(v.i), 1);
      }
    } else {
      NumericStringChars(v.s);
    }
  }

  /** `(int)$v`. Strings are read by their integer prefix. */
  function IntCast(v: PhpValue): int {
    match v
    case Null => 0
    case Bool(b) => if b then 1 else 0
    case Int(i) => i
    case Str(s) => ParseIntPrefix(s)
    case Arr(m) => if |m| == 0 then 0 else 1
  }

  /** The characters `addslashes` escapes. */
  predicate NeedsSlash(c: char) {
    c == '\'' || c == '"' || c == '\\' || c == '\0'
  }

  /** Text in which every quote, double quote, backslash and NUL is part of a
      backslash escape pair, so that it can sit between single quotes of a
      PostgreSQL connection string without ending the value early. */
  predicate EscapeSafe(t: string)
    decreases |t|
  {
    |t| == 0 ||
    (t[0] == '\\' && |t| >= 2 && EscapeSafe(t[2..])) ||
    (!NeedsSlash(t[0]) && EscapeSafe(t[1..]))
  }

  /** `addslashes($s)`: a backslash before every quote, double quote and
      backslash; NUL becomes the two characters `\0`. */
  function AddSlashes(s: string): (r: string)
    ensures EscapeSafe(r)
    ensures |r| >= |s|
    decreases |s|
  {
    if |s| == 0 then ""
    else
      var rest := AddSlashes(s[1..]);
      var head := if s[0] == '\0' then "\\0" else if NeedsSlash(s[0]) then ['\\', s[0]] else [s[0]];
      assert (head + rest)[|head|..] == rest;
      head + rest
  }

  /** `stripslashes($s)`: the inverse of `addslashes`. */
  function StripSlashes(s: string): string
    decreases |s|
  {
    if |s| == 0 then ""
    else if s[0] == '\\' then
      if |s| == 1 then ""
      else (if s[1] == '0' then "\0" else [s[1]]) + StripSlashes(s[2..])
    else [s[0]] + StripSlashes(s[1..])
  }

  /** `stripslashes` undoes `addslashes`. */
  lemma {:induction false} StripAddSlashes(s: string)
    ensures StripSlashes(AddSlashes(s)) == s
    decreases |s|
  {
    if |s| > 0 {
      StripAddSlashes(s[1..]);
      var rest := AddSlashes(s[1..]);
      var head := if s[0] == '\0' then "\\0" else if NeedsSlash(s[0]) then ['\\', s[0]] else [s[0]];
      assert AddSlashes(s) == head + rest;
      assert (head + rest)[|head|..] == rest;
      assert s == [s[0]] + s[1..];
    }
  }
}

=== FILE: query_builder.dfy ===
/** The LIMIT/OFFSET fragment and the UPDATE suffix added by the
    PostgreSQL query builder (code/PostgreSQLQueryBuilder.php). */
module QueryBuilder {
  import opened Outcome
  import opened PhpStrings
  import opened PhpValues

  /** The `InvalidArgumentException` raised for a limit array of the wrong
      shape; it carries the offending array. */
  datatype LimitError = WrongLimitFormat(limit: map<string, PhpValue>)

  /** A limit array the builder accepts: a `limit` key (possibly null) whose
      value is null or numeric. */
  predicate WellFormedLimit(m: map<string, PhpValue>) {
    "limit" in m && (m["limit"].Null? || IsNumeric(m["limit"]))
  }

  /** When ` OFFSET <start>` is emitted: `start` is set, numeric and not the
      integer 0 (the string "0" still counts, as the comparison is strict). */
  predicate OffsetApplies(m: map<string, PhpValue>) {
    IsSetIn(m, "start") && IsNumeric(m["start"]) && m["start"] != Int(0)
  }

  /** The row count written after LIMIT for a well-formed array. */
  function CountText(m: map<string, PhpValue>): string
    requires WellFormedLimit(m)
  {
    if m["limit"].Null? then "ALL" else ToPhpString(m["limit"])
  }

  const OffsetKeyword: string := " OFFSET "

  /** `buildLimitFragment`: `nl` is the builder's separator. */
  function BuildLimitFragment(limit: PhpValue, nl: string): (r: Result<string, LimitError>)
    ensures IsEmpty(limit) ==> r == Ok("")
    ensures r.Err? <==> limit.Arr? && !IsEmpty(limit) && !WellFormedLimit(limit.entries)
    ensures r.Ok? && r.value != "" ==> nl + "LIMIT " <= r.value
    ensures !IsEmpty(limit) && !limit.Arr? ==> r == Ok(nl + "LIMIT " + ToPhpString(limit))
  {
    if IsEmpty(limit) then Ok("")
    else if !limit.Arr? then Ok(nl + "LIMIT " + ToPhpString(limit))
    else
      var m := limit.entries;
      if !("limit" in m) || (!m["limit"].Null? && !IsNumeric(m["limit"])) then Err(WrongLimitFormat(m))
      else
        var clause := nl + "LIMIT " + (if m["limit"].Null? then "ALL" else ToPhpString(m["limit"]));
        if IsSetIn(m, "start") && IsNumeric(m["start"]) && m["start"] != Int(0) then
          Ok(clause + OffsetKeyword + ToPhpString(m["start"]))
        else Ok(clause)
  }

  /** A LIMIT clause read back: the row count and the optional offset. */
  datatype LimitClause = LimitClause(count: string, offset: Option<string>)

  /** Reads a fragment `<nl>LIMIT <count>[ OFFSET <offset>]`, splitting at
      the first ` OFFSET `. */
  function ParseLimitFragment(t: string, nl: string): Option<LimitClause>
  {
    var head := nl + "LIMIT ";
    if !(head <= t) then None
    else
      var rest := t[|head|..];
      match IndexOf(rest, OffsetKeyword)
      case None => Some(LimitClause(rest, None))
      case Some(k) => Some(LimitClause(rest[..k], Some(rest[k + |OffsetKeyword|..])))
  }

  /** Text without a capital O cannot hold ` OFFSET `. */
  lemma NoOffsetWithoutO(s: string)
    requires 'O' !in s
    ensures !Contains(s, OffsetKeyword)
  {
    forall i: nat ensures !OccursAt(s, OffsetKeyword, i) {
      if i + |OffsetKeyword| <= |s| {
        assert s[i..i + |OffsetKeyword|][1] == s[i + 1] != 'O';
      }
    }
  }

  /** After an O-free count, the first ` OFFSET ` is the one that follows
      it. */
  lemma FirstOffsetAfter(count: string, tail: string)
    requires 'O' !in count
    ensures IndexOf(count + OffsetKeyword + tail, OffsetKeyword) == Some(|count|)
  {
    var s := count + OffsetKeyword + tail;
    assert s[|count|..|count| + |OffsetKeyword|] == OffsetKeyword;
    assert OccursAt(s, OffsetKeyword, |count|);
    forall j: nat | j < |count| ensures !OccursAt(s, OffsetKeyword, j) {
      if j + 1 < |count| {
        assert s[j + 1] == count[j + 1];
      } else {
        assert s[j + 1] == OffsetKeyword[0];
      }
      if j + |OffsetKeyword| <= |s| {
        assert s[j..j + |OffsetKeyword|][1] == s[j + 1];
      }
    }
  }

  /** The text of a numeric value holds no capital O. */
  lemma NumericTextHasNoO(v: PhpValue)
    requires IsNumeric(v)
    ensures 'O' !in ToPhpString(v)
  {
    assert AllNumericChars(ToPhpString(v)) by {
      NumericTextChars(v);
    }
    NumericCharsHaveNoO(ToPhpString(v));
  }

  lemma NumericCharsHaveNoO(t: string)
    requires AllNumericChars(t)
    ensures 'O' !in t
  {
    assert !NumericChar('O');
    forall i | 0 <= i < |t| ensures t[i] != 'O' {
      assert NumericChar(t[i]);
    }
  }

  /** The text a clause is written as. */
  function ClauseText(nl: string, c: LimitClause): string {
    nl + "LIMIT " + c.count + (if c.offset.Some? then OffsetKeyword + c.offset.value else "")
  }

  /** A clause whose row count holds no capital O reads back as itself. */
  lemma ParseClauseText(nl: string, c: LimitClause)
    requires 'O' !in c.count
    ensures ParseLimitFragment(ClauseText(nl, c), nl) == Some(c)
  {
    var head := nl + "LIMIT ";
    var rest := c.count + (if c.offset.Some? then OffsetKeyword + c.offset.value else "");
    assert ClauseText(nl, c) == head + rest;
    assert (head + rest)[|head|..] == rest;
    if c.offset.Some? {
      assert rest == c.count + OffsetKeyword + c.offset.value;
      FirstOffsetAfter(c.count, c.offset.value);
      assert rest[..|c.count|] == c.count;
      assert rest[|c.count| + |OffsetKeyword|..] == c.offset.value;
    } else {
      assert rest == c.count;
      NoOffsetWithoutO(c.count);
    }
  }

  /** The clause an accepted limit array stands for. */
  function ArrayClause(m: map<string, PhpValue>): LimitClause
    requires WellFormedLimit(m)
  {
    LimitClause(CountText(m), if OffsetApplies(m) then Some(ToPhpString(m["start"])) else None)
  }

  /** For an accepted limit array, the fragment reads back as its row count
      (`ALL` for a null limit) and an offset present exactly when
      `OffsetApplies`, carrying the `start` text. */
  lemma LimitArrayRoundTrip(m: map<string, PhpValue>, nl: string)
    requires WellFormedLimit(m)
    ensures BuildLimitFragment(Arr(m), nl).Ok?
    ensures ParseLimitFragment(BuildLimitFragment(Arr(m), nl).value, nl) == Some(ArrayClause(m))
  {
    assert !IsEmpty(Arr(m)) by { assert "limit" in m; }
    var clause := nl + "LIMIT " + CountText(m);
    if OffsetApplies(m) {
      var start := ToPhpString(m["start"]);
      assert ClauseText(nl, ArrayClause(m)) == clause + OffsetKeyword + start;
      assert BuildLimitFragment(Arr(m), nl) == Ok(clause + OffsetKeyword + start);
    } else {
      assert ClauseText(nl, ArrayClause(m)) == clause + "" == clause;
      assert BuildLimitFragment(Arr(m), nl) == Ok(clause);
    }
    assert BuildLimitFragment(Arr(m), nl) == Ok(ClauseText(nl, ArrayClause(m)));
    assert 'O' !in CountText(m) by {
      if !m["limit"].Null? { NumericTextHasNoO(m["limit"]); }
    }
    ParseClauseText(nl, ArrayClause(m));
  }

  /** A scalar limit is written after `LIMIT` as it interpolates, with no
      offset. */
  lemma ScalarLimitRoundTrip(limit: PhpValue, nl: string)
    requires !IsEmpty(limit) && !limit.Arr?
    requires !Contains(ToPhpString(limit), OffsetKeyword)
    ensures BuildLimitFragment(limit, nl).Ok?
    ensures ParseLimitFragment(BuildLimitFragment(limit, nl).value, nl)
         == Some(LimitClause(ToPhpString(limit), None))
  {
    var head := nl + "LIMIT ";
    assert (head + ToPhpString(limit))[|head|..] == ToPhpString(limit);
  }

  /** A numeric scalar limit, the kind the framework passes, reads back as
      itself with no offset. */
  lemma NumericScalarLimitRoundTrip(limit: PhpValue, nl: string)
    requires !IsEmpty(limit) && !limit.Arr? && IsNumeric(limit)
    ensures BuildLimitFragment(limit, nl) == Ok(ClauseText(nl, LimitClause(ToPhpString(limit), None)))
    ensures ParseLimitFragment(BuildLimitFragment(limit, nl).value, nl)
         == Some(LimitClause(ToPhpString(limit), None))
  {
    NumericTextHasNoO(limit);
    NoOffsetWithoutO(ToPhpString(limit));
    ScalarLimitRoundTrip(limit, nl);
    assert nl + "LIMIT " + ToPhpString(limit) + "" == nl + "LIMIT " + ToPhpString(limit);
  }

  /** `buildUpdateQuery`: the parent's UPDATE statement with ` RETURNING *`
      appended, so the affected rows come back. */
  function BuildUpdateQuery(parentSql: string): (r: string)
    ensures |r| == |parentSql| + |" RETURNING *"|
    ensures r[..|parentSql|] == parentSql && r[|parentSql|..] == " RETURNING *"
  {
    parentSql + " RETURNING *"
  }
}

=== FILE: trigger_args.dfy ===
/** `extractTriggerColumns` (code/PostgreSQLSchemaManager.php): the columns
    a trigger acts on, read from the `tgargs` bytes `pg_trigger` reports.
    PostgreSQL shows those bytes either in escape form, every argument
    followed by the four characters `\000`, or hex-encoded, two hex digits
    a byte and the byte `00` after every argument. The catalog query
    itself is an input. */
module TriggerArgs {
  import opened Outcome
  import opened PhpStrings
  import opened PhpValues

  /** The text `\000` (backslash and three zeros) that ends an argument in
      escape form; PHP's single-quoted `'\000'` is these four characters,
      not a NUL byte. */
  const EscapedNul: string := "\\000"

  predicate IsHexChar(c: char) {
    '0' <= c <= '9' || 'a' <= c <= 'f' || 'A' <= c <= 'F'
  }

  function HexCharValue(c: char): (v: nat)
    requires IsHexChar(c)
    ensures v < 16
  {
    if '0' <= c <= '9' then c as int - '0' as int
    else if 'a' <= c <= 'f' then c as int - 'a' as int + 10
    else c as int - 'A' as int + 10
  }

  /** `hexdec`: the hex digits of `s` read as one number; every other
      character is ignored. */
  function HexDec(s: string): nat
    decreases |s|
  {
    if |s| == 0 then 0
    else if IsHexChar(s[|s| - 1]) then 16 * HexDec(s[..|s| - 1]) + HexCharValue(s[|s| - 1])
    else HexDec(s[..|s| - 1])
  }

  /** `chr`: the byte whose value is `n` modulo 256. */
  function Chr(n: nat): (c: char)
    ensures c as int == n % 256
  {
    (n % 256) as char
  }

  /** `str_split($s, 2)`: consecutive two-character pieces, the last one
      shorter when `s` has odd length (none at all for the empty text, as
      in PHP 8.2). */
  function Pairs(s: string): (r: seq<string>)
    ensures forall i :: 0 <= i < |r| ==> 0 < |r[i]| <= 2
    decreases |s|
  {
    if |s| == 0 then []
    else if |s| <= 2 then [s]
    else [s[..2]] + Pairs(s[2..])
  }

  /** `$byte == "00"` in PHP 8: the comparison is numeric, so it holds for
      every numeric piece of value zero. A piece of at most two characters
      has no room for an exponent, so its value is zero exactly when all
      its digits are zeros (`0`, `00`, ` 0`, `0 `, `+0`, `.0`, …). */
  predicate LooselyZero(piece: string) {
    IsNumericString(piece) && forall i :: 0 <= i < |piece| ==> (IsDigit(piece[i]) ==> piece[i] == '0')
  }

  /** What one piece of the hex form means to the loop: the end of an
      argument, or one byte of it. */
  datatype Piece = ArgEnd | Byte(b: char)

  /** A piece equal to `"00"` ends the argument; any other one is the
      byte `chr(hexdec($byte))`. */
  function ReadPiece(piece: string): Piece {
    if LooselyZero(piece) then ArgEnd else Byte(Chr(HexDec(piece)))
  }

  function ReadPieces(pieces: seq<string>): (r: seq<Piece>)
    ensures |r| == |pieces|
  {
    if |pieces| == 0 then [] else [ReadPiece(pieces[0])] + ReadPieces(pieces[1..])
  }

  /** The loop of the hex branch: the end of an argument appends the
      argument being built, a byte extends it. An argument still open at
      the end is dropped. */
  function HexArgs(pieces: seq<Piece>, next: string, acc: seq<string>): (r: seq<string>)
    ensures |acc| <= |r| && r[..|acc|] == acc
    ensures ArgEnd !in pieces ==> r == acc
    decreases |pieces|
  {
    if |pieces| == 0 then acc
    else
      match pieces[0]
      case ArgEnd =>
        var r := HexArgs(pieces[1..], "", acc + [next]);
        assert r[..|acc|] == r[..|acc + [next]|][..|acc|];
        r
      case Byte(c) =>
        assert ArgEnd in pieces[1..] ==> ArgEnd in pieces;
        HexArgs(pieces[1..], next + [c], acc)
  }

  /** The escape branch: the pieces between markers, the last one popped. */
  function EscapeArgs(tgargs: string): seq<string> {
    var parts := Explode(tgargs, EscapedNul);
    parts[..|parts| - 1]
  }

  /** The hex branch. */
  function HexArgList(tgargs: string): seq<string> {
    HexArgs(ReadPieces(Pairs(tgargs)), "", [])
  }

  /** The argument list: the escape branch when the marker occurs, the hex
      branch otherwise. */
  function ArgList(tgargs: string): seq<string> {
    if IndexOf(tgargs, EscapedNul).Some? then EscapeArgs(tgargs) else HexArgList(tgargs)
  }

  /** `extractTriggerColumns`: the arguments after the first two, which
      are the shadow column and the text search configuration. */
  function ExtractTriggerColumns(tgargs: string): seq<string> {
    SliceFromTwo(ArgList(tgargs))
  }

  /** `array_slice($args, 2)`: empty when there are at most two. */
  function SliceFromTwo(args: seq<string>): (r: seq<string>)
    ensures |args| <= 2 <==> r == []
    ensures |args| > 2 ==> args == args[..2] + r
  {
    if |args| >= 2 then args[2..] else []
  }

  // ----- escape form -------------------------------------------------------

  /** Arguments in escape form: each one followed by `\000`. */
  function EscapeForm(args: seq<string>): string {
    if |args| == 0 then "" else args[0] + EscapedNul + EscapeForm(args[1..])
  }

  /** The escape form is the arguments and a final empty piece, joined by
      the marker. */
  lemma {:induction false} EscapeFormJoin(args: seq<string>)
    ensures EscapeForm(args) == Join(args + [""], EscapedNul)
  {
    if |args| > 0 {
      EscapeFormJoin(args[1..]);
      assert args + [""] == [args[0]] + (args[1..] + [""]);
      JoinCons(args[0], args[1..] + [""], EscapedNul);
    }
  }

  /** Reading the escape form gives back every argument, provided none
      contains the marker itself and there is at least one (an empty
      `tgargs` is read as hex and gives no argument either). */
  lemma EscapeFormRoundTrip(args: seq<string>)
    requires |args| >= 1
    requires forall i :: 0 <= i < |args| ==> !Contains(args[i], EscapedNul)
    ensures ArgList(EscapeForm(args)) == args
  {
    MarkerInEscapeForm(args);
    EscapeArgsOfForm(args);
  }

  /** Exploding the escape form and popping the final empty piece gives
      the arguments back. */
  lemma EscapeArgsOfForm(args: seq<string>)
    requires forall i :: 0 <= i < |args| ==> !Contains(args[i], EscapedNul)
    ensures EscapeArgs(EscapeForm(args)) == args
  {
    var parts := args + [""];
    ExplodeEscapeForm(args);
    assert parts[..|parts| - 1] == args;
  }

  /** Exploding the escape form gives the arguments and a final empty piece. */
  lemma ExplodeEscapeForm(args: seq<string>)
    requires forall i :: 0 <= i < |args| ==> !Contains(args[i], EscapedNul)
    ensures Explode(EscapeForm(args), EscapedNul) == args + [""]
  {
    MarkerHeadIsUnique();
    EscapePartsFree(args);
    ExplodeJoin(args + [""], EscapedNul);
    EscapeFormJoin(args);
  }

  /** The marker's backslash does not recur inside it. */
  lemma MarkerHeadIsUnique()
    ensures HeadIsUnique(EscapedNul)
  {
    assert EscapedNul[1..] == "000";
  }

  /** Neither the arguments nor the final empty piece hold the marker. */
  lemma EscapePartsFree(args: seq<string>)
    requires forall i :: 0 <= i < |args| ==> !Contains(args[i], EscapedNul)
    ensures forall i :: 0 <= i < |args + [""]| ==> !Contains((args + [""])[i], EscapedNul)
  {
    var parts := args + [""];
    forall i | 0 <= i < |parts| ensures !Contains(parts[i], EscapedNul) {
      if i == |args| {
        assert !OccursAt("", EscapedNul, 0);
      } else {
        assert parts[i] == args[i];
      }
    }
  }

  /** The escape form of at least one argument holds the marker. */
  lemma MarkerInEscapeForm(args: seq<string>)
    requires |args| >= 1
    ensures IndexOf(EscapeForm(args), EscapedNul).Some?
  {
    var s := EscapeForm(args);
    assert s == args[0] + EscapedNul + EscapeForm(args[1..]);
    assert s[|args[0]|..|args[0]| + |EscapedNul|] == EscapedNul;
    assert OccursAt(s, EscapedNul, |args[0]|);
  }

  /** The escape form yields the columns after the first two arguments. */
  lemma EscapeFormColumns(args: seq<string>)
    requires |args| >= 2
    requires forall i :: 0 <= i < |args| ==> !Contains(args[i], EscapedNul)
    ensures ExtractTriggerColumns(EscapeForm(args)) == args[2..]
  {
    assert ArgList(EscapeForm(args)) == args by {
      EscapeFormRoundTrip(args);
    }
  }

  // ----- hex form ----------------------------------------------------------

  function HexDigit(d: nat): (c: char)
    requires d < 16
    ensures IsHexChar(c) && HexCharValue(c) == d
  {
    if d < 10 then ('0' as int + d) as char else ('a' as int + d - 10) as char
  }

  /** Text made of bytes other than NUL, which ends an argument. */
  predicate ByteText(a: string) {
    forall i :: 0 <= i < |a| ==> 0 < a[i] as int < 256
  }

  /** A byte as two lower-case hex digits. */
  function HexByte(c: char): (r: string)
    requires c as int < 256
    ensures |r| == 2
  {
    [HexDigit(c as int / 16), HexDigit(c as int % 16)]
  }

  /** The hex digits of a text, two per byte. */
  function HexBytes(a: string): (r: string)
    requires ByteText(a)
    ensures |r| == 2 * |a|
    ensures forall i :: 0 <= i < |r| ==> IsHexChar(r[i])
  {
    if |a| == 0 then "" else HexByte(a[0]) + HexBytes(a[1..])
  }

  /** The same digits as `str_split` cuts them. */
  function HexPieces(a: string): seq<string>
    requires ByteText(a)
  {
    if |a| == 0 then [] else [HexByte(a[0])] + HexPieces(a[1..])
  }

  /** A text as the loop sees it: one byte piece per character. */
  function BytePieces(a: string): seq<Piece> {
    if |a| == 0 then [] else [Byte(a[0])] + BytePieces(a[1..])
  }

  /** Arguments in hex form: each one's bytes followed by `00`. */
  function HexForm(args: seq<string>): string
    requires forall i :: 0 <= i < |args| ==> ByteText(args[i])
  {
    if |args| == 0 then "" else HexBytes(args[0]) + "00" + HexForm(args[1..])
  }

  /** The hex form as the loop sees it. */
  function PieceForm(args: seq<string>): seq<Piece> {
    if |args| == 0 then [] else BytePieces(args[0]) + [ArgEnd] + PieceForm(args[1..])
  }

  /** A text starting with `e` is not numeric: there is no digit before
      the exponent. */
  lemma LeadingExponentNotNumeric(s: string)
    requires |s| > 0 && s[0] == 'e'
    ensures !IsNumericString(s)
  {
    assert TrimLeft(s, NumericWhitespace) == s by {
      assert s[0] !in NumericWhitespace;
    }
    var t := TrimRight(s, NumericWhitespace);
    assert |t| == 0 || t[0] == 'e' by {
      assert t <= s;
    }
    assert LeadingDigits(t) == 0;
  }

  /** `0e` is not numeric: the exponent has no digits. */
  lemma ZeroExponentNotNumeric(s: string)
    requires |s| == 2 && s[0] == '0' && s[1] == 'e'
    ensures !IsNumericString(s)
  {
    assert s == "0e";
    ZeroExponentText();
  }

  lemma ZeroExponentText()
    ensures !IsNumericString("0e")
  {
    var s := "0e";
    var t := TrimRight(TrimLeft(s, NumericWhitespace), NumericWhitespace);
    assert t == s by {
      DigitAndExponentNotWhitespace();
      NoWhitespaceToTrim(s);
    }
    assert !UnsignedNumber(s) by {
      ZeroExponentNotUnsigned(s);
    }
    assert !(t[0] == '+' || t[0] == '-');
  }

  lemma DigitAndExponentNotWhitespace()
    ensures '0' !in NumericWhitespace && 'e' !in NumericWhitespace
  {
  }

  /** Neither end of a text that starts and ends with a digit or a letter
      is trimmed as whitespace. */
  lemma NoWhitespaceToTrim(s: string)
    requires |s| > 0 && s[0] !in NumericWhitespace && s[|s| - 1] !in NumericWhitespace
    ensures TrimRight(TrimLeft(s, NumericWhitespace), NumericWhitespace) == s
  {
  }

  /** `0e` has a digit and then an exponent letter with no digit after it. */
  lemma ZeroExponentNotUnsigned(s: string)
    requires |s| == 2 && s[0] == '0' && s[1] == 'e'
    ensures !UnsignedNumber(s)
  {
    var rest := s[1..];
    assert LeadingDigits(s) == 1 by {
      assert rest[0] == 'e';
      assert LeadingDigits(rest) == 0;
    }
    assert rest[0..] == rest;
    assert !ExponentOrEnd(rest) by {
      assert rest[1..] == [];
    }
  }

  /** A hex digit that may stand in a numeric text of zero value is `0`
      or `e`. */
  lemma ZeroLikeHexDigit(d: nat)
    requires d < 16 && NumericChar(HexDigit(d))
    requires IsDigit(HexDigit(d)) ==> HexDigit(d) == '0'
    ensures d == 0 || d == 14
  {
  }

  /** The hex digits of a byte other than NUL never compare equal to `00`. */
  lemma HexByteNotZero(c: char)
    requires 0 < c as int < 256
    ensures !LooselyZero(HexByte(c))
  {
    var h := HexByte(c);
    var hi := c as int / 16;
    var lo := c as int % 16;
    if LooselyZero(h) {
      assert AllNumericChars(h) by {
        NumericStringChars(h);
      }
      assert IsDigit(h[0]) ==> h[0] == '0';
      assert IsDigit(h[1]) ==> h[1] == '0';
      ZeroLikeHexDigit(hi);
      ZeroLikeHexDigit(lo);
      if hi == 14 {
        LeadingExponentNotNumeric(h);
      } else {
        ZeroExponentNotNumeric(h);
      }
    }
  }

  /** The two hex digits of a byte spell that byte. */
  lemma HexByteValue(c: char)
    requires c as int < 256
    ensures Chr(HexDec(HexByte(c))) == c
  {
    var h := HexByte(c);
    assert h[..1][..0] == "";
    assert HexDec(h[..1]) == c as int / 16;
    assert h[..|h| - 1] == h[..1];
  }

  /** `str_split` cuts a text of even length at its end. */
  lemma {:induction false} PairsAppend(x: string, y: string)
    requires |x| % 2 == 0
    ensures Pairs(x + y) == Pairs(x) + Pairs(y)
    decreases |x|
  {
    if |x| == 0 {
      assert x + y == y;
    } else if |x + y| <= 2 {
      assert |x| == 2 && y == "";
      assert x + y == x;
    } else {
      PairsAppend(x[2..], y);
      assert (x + y)[..2] == x[..2];
      assert (x + y)[2..] == x[2..] + y;
      if |x| == 2 {
        assert Pairs(x) == [x] && x[..2] == x && x[2..] == "";
        assert x[2..] + y == y;
      }
    }
  }

  /** `str_split` cuts the hex digits of a text byte by byte. */
  lemma {:induction false} PairsHexBytes(a: string)
    requires ByteText(a)
    ensures Pairs(HexBytes(a)) == HexPieces(a)
  {
    if |a| > 0 {
      PairsHexBytes(a[1..]);
      PairsAppend(HexByte(a[0]), HexBytes(a[1..]));
    }
  }

  /** The pieces of the hex form: each argument's bytes, then `00`. */
  lemma {:induction false} PairsHexForm(args: seq<string>)
    requires |args| >= 1
    requires forall i :: 0 <= i < |args| ==> ByteText(args[i])
    ensures Pairs(HexForm(args)) == HexPieces(args[0]) + ["00"] + Pairs(HexForm(args[1..]))
  {
    var rest := HexForm(args[1..]);
    assert HexForm(args) == HexBytes(args[0]) + ("00" + rest);
    PairsAppend(HexBytes(args[0]), "00" + rest);
    PairsHexBytes(args[0]);
    PairsAppend("00", rest);
    assert Pairs("00") == ["00"];
  }

  /** Reading pieces one by one adds up over a concatenation. */
  lemma {:induction false} ReadPiecesAppend(x: seq<string>, y: seq<string>)
    ensures ReadPieces(x + y) == ReadPieces(x) + ReadPieces(y)
    decreases |x|
  {
    if |x| == 0 {
      assert x + y == y;
    } else {
      assert (x + y)[0] == x[0] && (x + y)[1..] == x[1..] + y;
      ReadPiecesAppend(x[1..], y);
    }
  }

  /** `00` ends an argument. */
  lemma ZeroPieceEndsArgument()
    ensures ReadPiece("00") == ArgEnd
  {
    assert TrimLeft("00", NumericWhitespace) == "00";
    assert TrimRight("00", NumericWhitespace) == "00";
    LeadingDigitsAll("00");
  }

  /** The hex digits of the bytes of a text read as those bytes. */
  lemma {:induction false} ReadHexPieces(a: string)
    requires ByteText(a)
    ensures ReadPieces(HexPieces(a)) == BytePieces(a)
  {
    if |a| > 0 {
      HexByteNotZero(a[0]);
      HexByteValue(a[0]);
      ReadHexPieces(a[1..]);
    }
  }

  /** The hex form reads as the arguments' bytes, each argument ended. */
  lemma {:induction false} ReadHexForm(args: seq<string>)
    requires forall i :: 0 <= i < |args| ==> ByteText(args[i])
    ensures ReadPieces(Pairs(HexForm(args))) == PieceForm(args)
  {
    if |args| > 0 {
      PairsHexForm(args);
      var rest := Pairs(HexForm(args[1..]));
      ReadPiecesAppend(HexPieces(args[0]) + ["00"], rest);
      ReadPiecesAppend(HexPieces(args[0]), ["00"]);
      ReadHexPieces(args[0]);
      ZeroPieceEndsArgument();
      assert ReadPieces(["00"]) == [ArgEnd];
      ReadHexForm(args[1..]);
    }
  }

  /** The loop collects the bytes of one argument and closes it at its end. */
  lemma {:induction false} HexArgsOneArgument(a: string, more: seq<Piece>, next: string, acc: seq<string>)
    ensures HexArgs(BytePieces(a) + [ArgEnd] + more, next, acc) == HexArgs(more, "", acc + [next + a])
    decreases |a|
  {
    if |a| == 0 {
      assert BytePieces(a) + [ArgEnd] + more == [ArgEnd] + more;
      assert next + a == next;
    } else {
      var pieces := BytePieces(a) + [ArgEnd] + more;
      assert pieces[0] == Byte(a[0]);
      assert pieces[1..] == BytePieces(a[1..]) + [ArgEnd] + more;
      HexArgsOneArgument(a[1..], more, next + [a[0]], acc);
      assert next + [a[0]] + a[1..] == next + a;
    }
  }

  /** The loop gives back every argument; the text already collected
      before the first one is prefixed to it. */
  lemma {:induction false} PieceFormArgs(args: seq<string>, next: string, acc: seq<string>)
    requires |args| >= 1
    ensures HexArgs(PieceForm(args), next, acc) == acc + [next + args[0]] + args[1..]
    decreases |args|
  {
    HexArgsOneArgument(args[0], PieceForm(args[1..]), next, acc);
    if |args| > 1 {
      PieceFormArgs(args[1..], "", acc + [next + args[0]]);
      assert "" + args[1] == args[1];
      assert [args[1]] + args[2..] == args[1..];
    }
  }

  /** A text without a backslash holds no escape marker. */
  lemma NoBackslashNoMarker(s: string)
    requires '\\' !in s
    ensures !Contains(s, EscapedNul)
  {
    forall i: nat ensures !OccursAt(s, EscapedNul, i) {
      if i + 4 <= |s| {
        assert s[i..i + 4][0] == s[i];
      }
    }
  }

  /** Reading the hex form gives back every argument. */
  lemma HexFormRoundTrip(args: seq<string>)
    requires forall i :: 0 <= i < |args| ==> ByteText(args[i])
    ensures ArgList(HexForm(args)) == args
  {
    HexFormTakesHexBranch(args);
    PieceFormRoundTrip(args);
  }

  /** The loop gives back exactly the arguments of the piece form. */
  lemma PieceFormRoundTrip(args: seq<string>)
    ensures HexArgs(PieceForm(args), "", []) == args
  {
    if |args| > 0 {
      PieceFormArgs(args, "", []);
      assert "" + args[0] == args[0];
    }
  }

  /** The hex form holds no escape marker. */
  lemma HexFormNoMarker(args: seq<string>)
    requires forall i :: 0 <= i < |args| ==> ByteText(args[i])
    ensures IndexOf(HexForm(args), EscapedNul).None?
  {
    HexFormNoBackslash(args);
    NoBackslashNoMarker(HexForm(args));
  }

  /** The hex form is read by the hex branch, as its pieces. */
  lemma HexFormTakesHexBranch(args: seq<string>)
    requires forall i :: 0 <= i < |args| ==> ByteText(args[i])
    ensures ArgList(HexForm(args)) == HexArgs(PieceForm(args), "", [])
  {
    HexFormNoMarker(args);
    ReadHexForm(args);
  }

  /** The hex form holds nothing but hex digits. */
  lemma {:induction false} HexFormHexDigits(args: seq<string>)
    requires forall i :: 0 <= i < |args| ==> ByteText(args[i])
    ensures forall i :: 0 <= i < |HexForm(args)| ==> IsHexChar(HexForm(args)[i])
  {
    if |args| > 0 {
      HexFormHexDigits(args[1..]);
      var b := HexBytes(args[0]);
      var rest := HexForm(args[1..]);
      assert HexForm(args) == b + "00" + rest;
      forall i | 0 <= i < |HexForm(args)| ensures IsHexChar(HexForm(args)[i]) {
        if i < |b| {
          assert HexForm(args)[i] == b[i];
        } else if i < |b| + 2 {
          assert HexForm(args)[i] == '0';
        } else {
          assert HexForm(args)[i] == rest[i - |b| - 2];
        }
      }
    }
  }

  /** A backslash that is not followed by `0` starts no marker. */
  lemma NoMarkerAfterPrefix(p: string, body: string)
    requires |p| == 2 && p[0] == '\\' && p[1] != '\\' && p[1] != '0'
    requires '\\' !in body
    ensures !Contains(p + body, EscapedNul)
  {
    var s := p + body;
    forall i: nat ensures !OccursAt(s, EscapedNul, i) {
      if i + 4 <= |s| {
        if i == 0 {
          assert s[i..i + 4][1] == s[1] == p[1];
        } else if i == 1 {
          assert s[i..i + 4][0] == s[1];
        } else {
          assert s[i..i + 4][0] == s[i] == body[i - 2];
        }
      }
    }
  }

  /** `str_split` cuts a two-character prefix off on its own. */
  lemma PairsAfterPrefix(p: string, body: string)
    requires |p| == 2 && |body| > 0
    ensures Pairs(p + body) == [p] + Pairs(body)
  {
    var s := p + body;
    assert s[..2] == p && s[2..] == body;
  }

  /** The hex form holds no backslash. */
  lemma HexFormNoBackslash(args: seq<string>)
    requires forall i :: 0 <= i < |args| ==> ByteText(args[i])
    ensures '\\' !in HexForm(args)
  {
    HexFormHexDigits(args);
  }

  /** A two-character prefix of a backslash and a character that is
      neither a hex digit nor a zero adds a NUL byte in front of the first
      argument and changes nothing else. */
  lemma PrefixedArgList(p: string, args: seq<string>)
    requires |p| == 2 && p[0] == '\\' && p[1] != '\\' && !IsHexChar(p[1])
    requires |args| >= 1
    requires forall i :: 0 <= i < |args| ==> ByteText(args[i])
    ensures ArgList(p + HexForm(args)) == [[Chr(0)] + args[0]] + args[1..]
  {
    PrefixedTakesHexBranch(p, args);
    PrefixedPieces(Chr(0), args);
  }

  /** A byte piece extends the argument being built. */
  lemma HexArgsByte(c: char, rest: seq<Piece>, next: string, acc: seq<string>)
    ensures HexArgs([Byte(c)] + rest, next, acc) == HexArgs(rest, next + [c], acc)
  {
    var pieces := [Byte(c)] + rest;
    assert pieces[0] == Byte(c) && pieces[1..] == rest;
  }

  /** A leading NUL byte piece is glued to the first argument. */
  lemma PrefixedPieces(z: char, args: seq<string>)
    requires |args| >= 1
    ensures HexArgs([Byte(z)] + PieceForm(args), "", []) == [[z] + args[0]] + args[1..]
  {
    HexArgsByte(z, PieceForm(args), "", []);
    assert "" + [z] == [z];
    PieceFormArgs(args, [z], []);
    assert [] + [[z] + args[0]] == [[z] + args[0]];
  }

  /** The prefixed hex form holds no escape marker. */
  lemma PrefixedNoMarker(p: string, args: seq<string>)
    requires |p| == 2 && p[0] == '\\' && p[1] != '\\' && !IsHexChar(p[1])
    requires forall i :: 0 <= i < |args| ==> ByteText(args[i])
    ensures IndexOf(p + HexForm(args), EscapedNul).None?
  {
    HexFormNoBackslash(args);
    NoMarkerAfterPrefix(p, HexForm(args));
  }

  /** The prefixed hex form reads as a NUL byte and then its pieces. */
  lemma ReadPrefixedForm(p: string, args: seq<string>)
    requires |p| == 2 && p[0] == '\\' && !IsHexChar(p[1])
    requires |args| >= 1
    requires forall i :: 0 <= i < |args| ==> ByteText(args[i])
    ensures ReadPieces(Pairs(p + HexForm(args))) == [Byte(Chr(0))] + PieceForm(args)
  {
    var body := HexForm(args);
    assert |body| >= 2;
    PairsAfterPrefix(p, body);
    ReadPrefix(p);
    ReadPiecesAppend([p], Pairs(body));
    ReadHexForm(args);
  }

  /** The prefixed hex form is read by the hex branch. */
  lemma PrefixedTakesHexBranch(p: string, args: seq<string>)
    requires |p| == 2 && p[0] == '\\' && p[1] != '\\' && !IsHexChar(p[1])
    requires |args| >= 1
    requires forall i :: 0 <= i < |args| ==> ByteText(args[i])
    ensures ArgList(p + HexForm(args)) == HexArgs([Byte(Chr(0))] + PieceForm(args), "", [])
  {
    PrefixedNoMarker(p, args);
    ReadPrefixedForm(p, args);
  }

  /** The prefix reads as a NUL byte. */
  lemma ReadPrefix(p: string)
    requires |p| == 2 && p[0] == '\\' && !IsHexChar(p[1])
    ensures ReadPieces([p]) == [Byte(Chr(0))]
  {
    assert HexDec(p) == 0 by {
      HexDecNoDigits(p);
    }
    assert ReadPiece(p) == Byte(Chr(0)) by {
      BackslashNotZero(p);
    }
    assert [p][1..] == [];
  }

  /** With PostgreSQL's `\x` prefix in front of the hex digits, the prefix
      decodes to a NUL byte glued to the first argument, which is dropped
      anyway: the columns still come out right. */
  lemma HexPrefixedColumns(args: seq<string>)
    requires |args| >= 2
    requires forall i :: 0 <= i < |args| ==> ByteText(args[i])
    ensures ExtractTriggerColumns("\\x" + HexForm(args)) == args[2..]
  {
    assert !IsHexChar('x');
    PrefixedColumns(['\\', 'x'], args);
    assert ['\\', 'x'] == "\\x";
  }

  /** Any such prefix leaves the columns intact. */
  lemma PrefixedColumns(p: string, args: seq<string>)
    requires |p| == 2 && p[0] == '\\' && p[1] != '\\' && !IsHexChar(p[1])
    requires |args| >= 2
    requires forall i :: 0 <= i < |args| ==> ByteText(args[i])
    ensures ExtractTriggerColumns(p + HexForm(args)) == args[2..]
  {
    PrefixedArgList(p, args);
    ColumnsAfterFirst(p + HexForm(args), [Chr(0)] + args[0], args);
  }

  /** The columns do not depend on the first argument. */
  lemma ColumnsAfterFirst(t: string, first: string, args: seq<string>)
    requires |args| >= 2
    requires ArgList(t) == [first] + args[1..]
    ensures ExtractTriggerColumns(t) == args[2..]
  {
    SliceAfterFirst(first, args);
  }

  /** Slicing off two arguments drops the first whatever it is. */
  lemma SliceAfterFirst(first: string, args: seq<string>)
    requires |args| >= 2
    ensures SliceFromTwo([first] + args[1..]) == args[2..]
  {
    assert ([first] + args[1..])[2..] == args[2..];
  }

  /** A piece starting with a backslash is not numeric. */
  lemma BackslashNotZero(piece: string)
    requires |piece| > 0 && piece[0] == '\\'
    ensures !LooselyZero(piece)
  {
    assert !NumericChar(piece[0]);
    NotNumericAt(piece, 0);
  }

  /** A text holding a character no number is made of is not numeric. */
  lemma NotNumericAt(s: string, i: nat)
    requires i < |s| && !NumericChar(s[i])
    ensures !IsNumericString(s)
  {
    if IsNumericString(s) {
      NumericStringChars(s);
    }
  }

  /** A text without hex digits reads as zero. */
  lemma {:induction false} HexDecNoDigits(s: string)
    requires forall i :: 0 <= i < |s| ==> !IsHexChar(s[i])
    ensures HexDec(s) == 0
    decreases |s|
  {
    if |s| > 0 {
      HexDecNoDigits(s[..|s| - 1]);
    }
  }

  /** The hex form yields the columns after the first two arguments. */
  lemma HexFormColumns(args: seq<string>)
    requires |args| >= 2
    requires forall i :: 0 <= i < |args| ==> ByteText(args[i])
    ensures ExtractTriggerColumns(HexForm(args)) == args[2..]
  {
    assert ArgList(HexForm(args)) == args by {
      HexFormRoundTrip(args);
    }
  }
}

=== FILE: type_codec.dfy ===
/** The schema manager's column type formatters
    (code/PostgreSQLSchemaManager.php, `boolean` … `IdColumn`): each turns a
    tokenised field descriptor into PostgreSQL DDL text or, with
    `asDbValue`, into the data type the catalog reports for it. */
module TypeCodec {
  import opened Outcome
  import opened PhpStrings
  import opened PhpValues

  /** The `$values` descriptor: the default, the optional array suffix
      (`[]` for array columns), the precision (null when unset), the column
      name and the enum options. */
  datatype FieldValues = FieldValues(
    default: PhpValue,
    arrayValue: Option<string>,
    precision: PhpValue,
    name: string,
    enums: seq<string>)

  /** A formatter result: DDL text, or the catalog description
      (`data_type` and optional `precision`). */
  datatype Formatted =
    | Ddl(sql: string)
    | DbValue(dataType: string, precision: Option<PhpValue>)

  /** The array suffix, `''` when unset. */
  function ArraySuffix(v: FieldValues): string {
    v.arrayValue.GetOr("")
  }

  /** `$x == ''` under PHP 8 loose comparison. */
  predicate LooselyEmptyString(x: PhpValue) {
    match x
    case Null => true
    case Bool(b) => !b
    case Int(_) => false
    case Str(s) => s == ""
    case Arr(_) => false
  }

  const DefaultKeyword: string := " default "

  /** The DDL shared by the integer-like types: the keyword, the array
      suffix, and ` default <(int) default>` exactly when the column is not
      an array. */
  function IntegerLike(keyword: string, v: FieldValues): (r: string)
    ensures keyword + ArraySuffix(v) <= r
    ensures ArraySuffix(v) != "" ==> r == keyword + ArraySuffix(v)
    ensures ArraySuffix(v) == "" ==> r == keyword + DefaultKeyword + IntToString(IntCast(v.default))
    ensures ArraySuffix(v) == "" ==>
              |r| > |keyword + DefaultKeyword| &&
              r[..|keyword + DefaultKeyword|] == keyword + DefaultKeyword &&
              ParseIntPrefix(r[|keyword + DefaultKeyword|..]) == IntCast(v.default)
  {
    var av := ArraySuffix(v);
    var r := keyword + av + (if av != "" then "" else DefaultKeyword + IntToString(IntCast(v.default)));
    assert av == "" ==> r[|keyword + DefaultKeyword|..] == IntToString(IntCast(v.default)) by {
      if av == "" {
        assert r == (keyword + DefaultKeyword) + IntToString(IntCast(v.default));
      }
    }
    ParseIntToString(IntCast(v.default));
    r
  }

  /** `boolean`: a `smallint` holding 0 or 1. */
  function Boolean(v: FieldValues, asDbValue: bool): (r: Formatted)
    ensures asDbValue <==> r.DbValue?
    ensures asDbValue ==> r == DbValue("smallint", None)
    ensures !asDbValue && ArraySuffix(v) != "" ==> r.sql == "smallint" + ArraySuffix(v)
    ensures !asDbValue && ArraySuffix(v) == "" ==>
              r.sql == "smallint" + DefaultKeyword + IntToString(IntCast(v.default)) &&
              ParseIntPrefix(r.sql[|"smallint" + DefaultKeyword|..]) == IntCast(v.default)
  {
    if asDbValue then DbValue("smallint", None) else Ddl(IntegerLike("smallint", v))
  }

  /** `date`. */
  function Date(v: FieldValues): (r: Formatted)
    ensures r.Ddl? && |r.sql| >= 4 && r.sql[..4] == "date" && r.sql[4..] == ArraySuffix(v)
  {
    Ddl("date" + ArraySuffix(v))
  }

  /** The precision `decimal` uses: 1 when the given one is loosely equal
      to `''`. */
  function DecimalPrecision(v: FieldValues): (p: PhpValue)
    ensures LooselyEmptyString(v.precision) ==> p == Int(1)
    ensures !LooselyEmptyString(v.precision) ==> p == v.precision
  {
    if LooselyEmptyString(v.precision) then Int(1) else v.precision
  }

  /** `decimal`: `decimal(<precision>)`, the array suffix, and
      ` default <d>` only for a set, numeric default. */
  function Decimal(v: FieldValues, asDbValue: bool): (r: Formatted)
    ensures asDbValue <==> r.DbValue?
    ensures asDbValue ==> r == DbValue("numeric", Some(DecimalPrecision(v)))
    ensures !asDbValue ==>
              var head := "decimal(" + ToPhpString(DecimalPrecision(v)) + ")" + ArraySuffix(v);
              head <= r.sql &&
              (IsNumeric(v.default) <==> |r.sql| > |head|) &&
              (IsNumeric(v.default) ==> r.sql[|head|..] == DefaultKeyword + ToPhpString(v.default))
  {
    var precision := DecimalPrecision(v);
    var defaultValue := if !v.default.Null? && IsNumeric(v.default) then DefaultKeyword + ToPhpString(v.default) else "";
    if asDbValue then DbValue("numeric", Some(precision))
    else
      var head := "decimal(" + ToPhpString(precision) + ")" + ArraySuffix(v);
      assert (head + defaultValue)[|head|..] == defaultValue;
      Ddl(head + defaultValue)
  }

  /** The `check ("<name>" in ('v1', 'v2', …))` clause of an enum column. */
  function EnumCheck(name: string, enums: seq<string>): string {
    " check (\"" + name + "\" in ('" + Join(enums, "', '") + "'))"
  }

  /** `enum`: a `varchar(255)` restricted by a check on its values; the
      quoted default appears only when the column is not an array. */
  function Enum(v: FieldValues): (r: Formatted)
    ensures r.Ddl?
    ensures "varchar(255)" + ArraySuffix(v) <= r.sql
    ensures var head := "varchar(255)" + ArraySuffix(v);
            var check := EnumCheck(v.name, v.enums);
            |r.sql| >= |head| + |check| &&
            r.sql[|r.sql| - |check|..] == check &&
            (ArraySuffix(v) == "" <==> |r.sql| > |head| + |check|)
    ensures ArraySuffix(v) != "" ==> r.sql == "varchar(255)" + ArraySuffix(v) + EnumCheck(v.name, v.enums)
    ensures ArraySuffix(v) == "" ==>
              r.sql == "varchar(255)" + " default '" + ToPhpString(v.default) + "'" + EnumCheck(v.name, v.enums)
  {
    var av := ArraySuffix(v);
    var default := if av != "" then "" else " default '" + ToPhpString(v.default) + "'";
    var head := "varchar(255)" + av;
    var check := EnumCheck(v.name, v.enums);
    assert (head + default + check)[|head + default|..] == check;
    Ddl(head + default + check)
  }

  /** `float` (and `double`, which delegates to it). */
  function Float(v: FieldValues, asDbValue: bool): (r: Formatted)
    ensures asDbValue <==> r.DbValue?
    ensures asDbValue ==> r == DbValue("double precision", None)
    ensures !asDbValue ==> |r.sql| >= 5 && r.sql[..5] == "float" && r.sql[5..] == ArraySuffix(v)
  {
    if asDbValue then DbValue("double precision", None) else Ddl("float" + ArraySuffix(v))
  }

  /** `int`: a 32-bit `integer`. */
  function Integer(v: FieldValues, asDbValue: bool): (r: Formatted)
    ensures asDbValue <==> r.DbValue?
    ensures asDbValue ==> r == DbValue("integer", Some(Str("32")))
    ensures !asDbValue && ArraySuffix(v) != "" ==> r.sql == "integer" + ArraySuffix(v)
    ensures !asDbValue && ArraySuffix(v) == "" ==>
              r.sql == "integer" + DefaultKeyword + IntToString(IntCast(v.default)) &&
              ParseIntPrefix(r.sql[|"integer" + DefaultKeyword|..]) == IntCast(v.default)
  {
    if asDbValue then DbValue("integer", Some(Str("32"))) else Ddl(IntegerLike("integer", v))
  }

  /** `bigint`: a 64-bit integer. */
  function Bigint(v: FieldValues, asDbValue: bool): (r: Formatted)
    ensures asDbValue <==> r.DbValue?
    ensures asDbValue ==> r == DbValue("bigint", Some(Str("64")))
    ensures !asDbValue && ArraySuffix(v) != "" ==> r.sql == "bigint" + ArraySuffix(v)
    ensures !asDbValue && ArraySuffix(v) == "" ==>
              r.sql == "bigint" + DefaultKeyword + IntToString(IntCast(v.default)) &&
              ParseIntPrefix(r.sql[|"bigint" + DefaultKeyword|..]) == IntCast(v.default)
  {
    if asDbValue then DbValue("bigint", Some(Str("64"))) else Ddl(IntegerLike("bigint", v))
  }

  /** `SS_Datetime`: a `timestamp` without time zone. */
  function Datetime(v: FieldValues, asDbValue: bool): (r: Formatted)
    ensures asDbValue <==> r.DbValue?
    ensures asDbValue ==> r == DbValue("timestamp without time zone", None)
    ensures !asDbValue ==> |r.sql| >= 9 && r.sql[..9] == "timestamp" && r.sql[9..] == ArraySuffix(v)
  {
    if asDbValue then DbValue("timestamp without time zone", None) else Ddl("timestamp" + ArraySuffix(v))
  }

  /** `text`. */
  function Text(v: FieldValues, asDbValue: bool): (r: Formatted)
    ensures asDbValue <==> r.DbValue?
    ensures asDbValue ==> r == DbValue("text", None)
    ensures !asDbValue ==> |r.sql| >= 4 && r.sql[..4] == "text" && r.sql[4..] == ArraySuffix(v)
  {
    if asDbValue then DbValue("text", None) else Ddl("text" + ArraySuffix(v))
  }

  /** `time`. */
  function Time(v: FieldValues): (r: Formatted)
    ensures r.Ddl? && |r.sql| >= 4 && r.sql[..4] == "time" && r.sql[4..] == ArraySuffix(v)
  {
    Ddl("time" + ArraySuffix(v))
  }

  /** The precision `varchar` uses: 255 when unset. */
  function VarcharPrecision(v: FieldValues): (p: PhpValue)
    ensures v.precision.Null? ==> p == Int(255)
    ensures !v.precision.Null? ==> p == v.precision
  {
    if v.precision.Null? then Int(255) else v.precision
  }

  /** `varchar`: `varchar(<precision>)` and the array suffix. */
  function Varchar(v: FieldValues, asDbValue: bool): (r: Formatted)
    ensures asDbValue <==> r.DbValue?
    ensures asDbValue ==> r == DbValue("varchar", Some(VarcharPrecision(v)))
    ensures !asDbValue ==> r.sql == "varchar(" + ToPhpString(VarcharPrecision(v)) + ")" + ArraySuffix(v)
  {
    if asDbValue then DbValue("varchar", Some(VarcharPrecision(v)))
    else Ddl("varchar(" + ToPhpString(VarcharPrecision(v)) + ")" + ArraySuffix(v))
  }

  /** `year`: a four-digit decimal with no fractional part. */
  function Year(v: FieldValues, asDbValue: bool): (r: Formatted)
    ensures asDbValue <==> r.DbValue?
    ensures asDbValue ==> r == DbValue("decimal", Some(Str("4")))
    ensures !asDbValue ==> |r.sql| >= 12 && r.sql[..12] == "decimal(4,0)" && r.sql[12..] == ArraySuffix(v)
  {
    if asDbValue then DbValue("decimal", Some(Str("4"))) else Ddl("decimal(4,0)" + ArraySuffix(v))
  }

  /** `IdColumn`: the auto-incrementing primary key column. */
  function IdColumn(asDbValue: bool): (r: string)
    ensures asDbValue ==> r == "bigint"
    ensures !asDbValue ==> r == "serial8 not null"
  {
    if asDbValue then "bigint" else "serial8 not null"
  }
}
